=== FILE: README.md ===
# Chord-sheet app: a Dafny model of its client-side logic

This project models the pure logic of a React chord-sheet application and proves properties about it. The app is a song book that shows lyrics, chord grids and a tablature-style chord table. The logic lives inside its components and its store. Every piece is lifted out into pure functions over immutable datatypes, and each UI component becomes a small state machine whose events are datatype values.

- **Lyrics** (`Lyrics`): the segmenter is a linear scan. It turns the lines of `lyrics.split('\n')` into `text`, `section` and `instrumental` segments. `ScanFrom` is its functional form, and the method `ParseLyrics` is the loop proved equal to it. The module also has the section-label translator and the pipe-delimited grid normaliser.
- **Chord entry** (`SongForm`, `ChordSection`, `SuggestedChords`, `ChordGrid`):
  - the chord list's change, add and remove operations, and the never-empty invariant;
  - submission: validation, normalisation and reset;
  - the fingering catalogue;
  - the six-string chord table layout.
- **Auto-scroll pacer** (`SongViewer`, `AutoScrollControls`):
  - tempo parsing and the speed formula;
  - the multiplier, clamped to [0.25, 5] and kept exact as a `real`;
  - the play/stop/reset machine, and the favourite and edit handlers.
- **Navigation** (`SongStore`, `SongSheet`, `Sidebar`, `HomePage`):
  - the store's frame conditions;
  - which view the main pane shows;
  - the sidebar's grouping, search filter and selection;
  - the home page's featured artist, ranking fallbacks and selection.
- **Input widgets** (`TechnicalDetails`, `FormDropdown`, `FormInput`): the rhythm keystroke editor, artist autocomplete, the filtering drop-down, and the suggestion box.
- **YouTube links** (`YouTube`): `extractYouTubeId`. It is proved equal to the greedy-match characterisation of its regular expression.

Shared helpers:
- `JsString` holds the ECMA-262 string operations the code uses:
  - `trim`, with the standard white-space and line-terminator set;
  - `toLowerCase`, restricted to ASCII;
  - `split`, `includes`, `startsWith` and `indexOf`.
- `Seqs` holds `filter`, `findIndex`, `slice`, `some`, the stable sort, and de-duplication.
- `Types` holds the database records, trimmed to the fields the logic reads.
- `FormConstants` holds the option lists of `src/components/form/constants.ts`.

Nondeterministic and environmental inputs become parameters:
- `Math.random()` is a real in [0, 1).
- The answer of the favourite toggle call is an `Option<bool>` (`None` when the call fails).
- A scroll tick carries the container's measurements taken after the scroll.
- The current path is a string.

## Model

| member | source | states |
|---|---|---|
| Lyrics.MatchMarkerRoundTrip | src/components/viewer/Lyrics.tsx:33-36 | A trimmed line is a marker with key k iff it is "[" + k + "]" and k holds no line terminator (the regex `.` refuses them); the key is recovered exactly, and may be empty |
| Lyrics.MatchMarker | src/components/viewer/Lyrics.tsx:33-35 | A match is the marker text of its key, a key without line terminators; no match means the line is the marker text of no such key |
| Lyrics.MarkerExamples | src/components/viewer/Lyrics.tsx:34 | "[Chorus" is not a marker; "[]" is a marker with the empty key |
| Lyrics.IntroOutroKeys | src/components/viewer/Lyrics.tsx:38-43 | "Intro" and "OUTRO" are instrumental keys (case ignored); "Intro 2" is not, so it renders as a section |
| Lyrics.InstrumentalAnywhere | src/components/viewer/Lyrics.tsx:40 | A key containing "instrumental" anywhere (any case) is an instrumental key |
| Lyrics.InstrumentalIgnoresCase | src/components/viewer/Lyrics.tsx:38-43 | The instrumental test gives the same answer for a key and its lower-cased form |
| Lyrics.BlockEnd | src/components/viewer/Lyrics.tsx:46-55 | The end of a block is the first marker line at or after the start, or the end of input: every line before it is not a marker, the line at it is |
| Lyrics.BlockEndUnique | src/components/viewer/Lyrics.tsx:46-55 | Any index with those two properties is the block end |
| Lyrics.GridLines | src/components/viewer/Lyrics.tsx:45-50 | The kept grid lines are non-empty, already trimmed, and no more than the body lines |
| Lyrics.GridLinesSnoc | src/components/viewer/Lyrics.tsx:47-48 | One more body line adds its trimmed form iff that is non-empty |
| Lyrics.CollectGrid | src/components/viewer/Lyrics.tsx:45-50 | The inner loop of an instrumental block stops at the block end and collects exactly the trimmed non-empty lines before it |
| Lyrics.SkipToMarker | src/components/viewer/Lyrics.tsx:53-55 | The inner loop of a section stops at the block end |
| Lyrics.ParseLyrics | src/components/viewer/Lyrics.tsx:27-63 | The while loop computes exactly the segments of the functional scan |
| Lyrics.ScanFrom | src/components/viewer/Lyrics.tsx:27-63 | The scan from line i yields at least one segment when a line remains, and never more segments than lines |
| Lyrics.Segments | src/components/viewer/Lyrics.tsx:27-63 | A lyric text has at least one segment and no more segments than `split('\n')` lines |
| Lyrics.LineKeysAt | src/components/viewer/Lyrics.tsx:33-34 | The key of line k is the match of its trimmed form |
| Lyrics.SpanEnd | src/components/viewer/Lyrics.tsx:58-61 | Each iteration advances the index strictly, and never past the end |
| Lyrics.SpansTile | src/components/viewer/Lyrics.tsx:28-62 | The spans of the raw lines the segments consume are non-empty, consecutive, and cover 0..n exactly |
| Lyrics.SpansWellFormed | src/components/viewer/Lyrics.tsx:35-61 | Each span is one non-marker line, or a marker line followed by the non-marker lines up to the next marker or the end |
| Lyrics.ScanBySpans | src/components/viewer/Lyrics.tsx:28-62 | Segment k is the segment of span k: text for a non-marker line, otherwise a block built from the marker's key and the lines after it |
| Lyrics.SpansCoverOnce | src/components/viewer/Lyrics.tsx:28-62 | Every raw line lies in exactly one span |
| Lyrics.SpanStartsIncrease | src/components/viewer/Lyrics.tsx:58-61 | Spans appear in input order and do not overlap |
| Lyrics.BlocksFromMarker | src/components/viewer/Lyrics.tsx:46-58 | From a marker line on, every segment is a block |
| Lyrics.TextBeforeBlocks | src/components/viewer/Lyrics.tsx:46-58 | Every segment after a block is a block, so all text segments come before all blocks |
| Lyrics.NoMarkersAllText | src/components/viewer/Lyrics.tsx:59-61 | Without marker lines the scan gives one text segment per line, in order |
| Lyrics.NoMarkerLyrics | src/components/viewer/Lyrics.tsx:28-61 | For a lyric text without markers, the segments are the lines of `split('\n')` as text, one each |
| Lyrics.EmptyLyrics | src/components/viewer/Lyrics.tsx:28-61 | Empty lyrics give exactly one text segment with the empty line |
| Lyrics.BlockAtMarker | src/components/viewer/Lyrics.tsx:35-57 | At a marker line the segment is an instrumental grid of the trimmed non-empty body lines when the key is instrumental, otherwise a section with the raw body lines (blank ones kept) |
| Lyrics.LabelOneWord | src/components/viewer/Lyrics.tsx:79-81 | A one-word key shows as its `sectionMap` translation, or itself when unknown |
| Lyrics.LabelWordAndNumber | src/components/viewer/Lyrics.tsx:79-81 | A key "w n" with n non-empty shows as the translation of w, a space, and n |
| Lyrics.LabelDropsLaterParts | src/components/viewer/Lyrics.tsx:79 | Parts after the second never reach the label |
| Lyrics.SectionLabel | src/components/viewer/Lyrics.tsx:79-81 | A key without a space shows as its translation |
| Lyrics.LabelVerseExample | src/components/viewer/Lyrics.tsx:11-21 | "Verse 2" shows as "Couplet 2" |
| Lyrics.GridRow | src/components/viewer/Lyrics.tsx:108-110 | Each grid cell is non-empty, trimmed and free of '\|' |
| Lyrics.GridRowKeepsPieces | src/components/viewer/Lyrics.tsx:108-110 | The row is exactly the trimmed pieces of `split('\|')` that are not empty, each once, in line order |
| Lyrics.GridRowOfJoin | src/components/viewer/Lyrics.tsx:108-110 | Clean cells joined with '\|' read back as the same row |
| Lyrics.NumCols | src/components/viewer/Lyrics.tsx:111 | The column count is the length of the longest row (defined for a non-empty row list) |
| Lyrics.PadRow | src/components/viewer/Lyrics.tsx:137 | A padded row has exactly the column count of cells, its own cells first and '' after |
| Lyrics.PadRows | src/components/viewer/Lyrics.tsx:135-137 | Every padded row has the common width, starts with its own cells and is filled with '' |
| Lyrics.Grid | src/components/viewer/Lyrics.tsx:108-111 | One grid row per line, all of one width; row r starts with the cleaned cells of line r and is filled with '' after them |
| JsString.TrimSpec | src/components/viewer/Lyrics.tsx:33 | `trim` removes exactly the leading and trailing white space and line terminators and keeps the middle: only trimmable characters are cut, and the result neither starts nor ends with one |
| JsString.TrimEnds | src/components/viewer/Lyrics.tsx:33 | The trimmed string neither starts nor ends with trimmable text, and is empty iff the input is all trimmable |
| JsString.TrimIdempotent | src/components/viewer/Lyrics.tsx:47 | Trimming twice is trimming once |
| JsString.SplitJoin | src/components/viewer/Lyrics.tsx:28 | `split` and `join` on the same separator are inverse: pieces free of the separator come back unchanged |
| JsString.Split | src/components/viewer/Lyrics.tsx:28 | `split` gives at least one piece, none holding the separator, and joining them gives the input back |
| Seqs.FilterSelects | src/components/Sidebar.tsx:36 | `filter` keeps exactly the satisfying elements, each once, in their original order |
| SuggestedChords.GroupedChordsExamples | src/components/form/SuggestedChords.tsx:10-23 | The table holds the root followed by the eleven suffixes in order, e.g. "C#maj7" and "A#dim7" |
| SuggestedChords.CatalogueFingeringsValid | src/components/form/SuggestedChords.tsx:25-123 | Every catalogue fingering is six characters from {'x', '0'..'9'} |
| SuggestedChords.FindEntry | src/components/form/SuggestedChords.tsx:137 | The lookup finds the first catalogue entry with exactly that name, or reports that none has it |
| SuggestedChords.Fingering | src/components/form/SuggestedChords.tsx:137 | A catalogue name gets the fingering of its (first) `chordPositions` entry, which is valid; any other name gets '' |
| SuggestedChords.AddChord | src/components/form/SuggestedChords.tsx:136-139 | Adding a chord emits its name with the fingering of the catalogue entry the lookup finds, or '' when there is none |
| SuggestedChords.FingeringCmaj7 | src/components/form/SuggestedChords.tsx:56 | 'Cmaj7' gets 'x32000' |
| SuggestedChords.NoFingeringForExtendedVariants | src/components/form/SuggestedChords.tsx:11-22 | Every dim, dim7, aug and add9 button gets fingering '' |
| SuggestedChords.NoFingeringForASharp | src/components/form/SuggestedChords.tsx:126-129 | 'A#' is offered twice but has no fingering |
| SuggestedChords.IsChordInUse | src/components/form/SuggestedChords.tsx:134 | A chord is in use iff some entry has exactly that name, case-sensitively |
| SuggestedChords.RootButtons | src/components/form/SuggestedChords.tsx:146-159 | A root shows eleven buttons, named root + suffix in order, each disabled iff its name is in use |
| ChordGrid.CellAt | src/components/viewer/ChordGrid.tsx:42 | A cell shows the fingering's character for its string, or '' past the end, and is dimmed iff that character is 'X' |
| ChordGrid.WithFiller | src/components/viewer/ChordGrid.tsx:21-45 | A row is one slot per chord, in order, plus a filler slot iff there are at most 10 chords |
| ChordGrid.Header | src/components/viewer/ChordGrid.tsx:21-31 | The header shows each chord's name in order, then the filler cell in the extra slot iff there are at most 10 chords |
| ChordGrid.Body | src/components/viewer/ChordGrid.tsx:35-46 | The body has exactly six rows; cell (r, c) is chord c's character r, and the filler closes each row iff there are at most 10 chords |
| ChordGrid.MaxWidth | src/components/viewer/ChordGrid.tsx:13-15 | No width cap for at most 10 chords, otherwise 60 px per chord |
| ChordGrid.FillerIffUncapped | src/components/viewer/ChordGrid.tsx:13-45 | Body and header rows have the same length, and the filler appears exactly when the width is not capped |
| ChordGrid.CatalogueCellsNotDimmed | src/components/viewer/ChordGrid.tsx:42 | No catalogue fingering ever shows a dimmed cell (their muted strings are lower-case 'x') |
| ChordGrid.DefaultFingeringDimmed | src/components/viewer/ChordGrid.tsx:42 | The fallback fingering "X32010" dims its first string only |
| SongForm.ChangeChord | src/components/SongForm.tsx:64-65 | Changing field k of entry i changes that field only; the length and every other entry are unchanged, and an index out of range changes nothing |
| SongForm.ChangeChordUndo | src/components/SongForm.tsx:64-65 | Writing back the old value undoes a change |
| SongForm.ChangeChordLastWins | src/components/SongForm.tsx:64-65 | Of two changes of the same field, the last wins |
| SongForm.AddBlank | src/components/SongForm.tsx:68 | Adding appends one blank entry and keeps the rest |
| SongForm.AddSuggested | src/components/SongForm.tsx:252-254 | A suggestion appends the given entry and keeps the rest |
| SongForm.RemoveAtSpec | src/components/SongForm.tsx:70 | Removal deletes exactly position i and keeps the rest in order; an index out of range changes nothing |
| SongForm.RemoveAt | src/components/SongForm.tsx:70 | Removal shortens the list by one iff the index is in range, and keeps only entries of the list |
| SongForm.ApplyEdit | src/components/SongForm.tsx:64-70 | A change keeps the length, an addition appends one entry after the unchanged list, and a removal drops one entry when in range and nothing otherwise |
| SongForm.RemoveAfterAdd | src/components/SongForm.tsx:68-70 | Removing the entry just added restores the list |
| SongForm.OfferedEditKeepsNonEmpty | src/components/SongForm.tsx:64-70 | An edit the form offers never empties a non-empty list |
| SongForm.NeverEmpty | src/components/SongForm.tsx:64-70 | From a non-empty list, any run of offered edits leaves it non-empty |
| SongForm.LoadChords | src/components/SongForm.tsx:56-60 | Edit-load takes the stored chords when there are any, else one blank entry |
| SongForm.LoadForEdit | src/components/SongForm.tsx:40-62 | Edit-load, only when editing with details loaded, copies every stored field into the form (absent album, difficulty or link as '', the year as its decimal text or '' when absent) and the stored chords, or one blank row when there are none |
| SongForm.NormalizeTempoSpec | src/components/SongForm.tsx:94 | The sent tempo always mentions "bpm"; it keeps the typed text as its start, and equals it iff that is non-empty and already mentions "bpm" |
| SongForm.NormalizeTempo | src/components/SongForm.tsx:94 | The sent tempo is never empty and, for typed text, is that text with at most " BPM" added |
| SongForm.NormalizeTempoIdempotent | src/components/SongForm.tsx:136 | Normalising a normalised tempo changes nothing |
| SongForm.ChordsToSend | src/components/SongForm.tsx:140 | The chords sent are non-empty: either the fallback C chord, or only named entries of the list |
| SongForm.ChordsToSendNamed | src/components/SongForm.tsx:81 | Every chord sent has a non-blank name after trimming |
| SongForm.ChordsToSendInOrder | src/components/SongForm.tsx:81 | With some entry named, the chords sent are exactly the named entries, each once, in form order; otherwise the fallback C chord alone |
| SongForm.ChordsToSendComplete | src/components/SongForm.tsx:81 | Every named entry is sent, and a list of named entries is sent unchanged |
| SongForm.ChordsToSendIdempotent | src/components/SongForm.tsx:98 | Filtering what is sent again changes nothing |
| SongForm.PayloadOf | src/components/SongForm.tsx:130-145 | The saved fields: empty settings take the first option of their list, the tempo is normalised, the chords filtered, empty optional fields are left out |
| SongForm.PayloadSettingsNonEmpty | src/components/SongForm.tsx:133-140 | No setting is saved empty and at least one chord is saved |
| SongForm.Submit | src/components/SongForm.tsx:72-103 | An empty artist or title is rejected with "L'artiste et le titre sont requis"; otherwise it updates iff editing with a selection, passing the selection's second index as the id, else creates |
| SongForm.UpdateUsesPosition | src/components/SongForm.tsx:73-88 | The update id is the song's position in its artist's list: two different songs at position 0 both update id 0 |
| SongForm.SubmitCorrected | src/components/SongForm.tsx:83-88 | The same decision with the edited song's own id |
| SongForm.SubmitAgreesExceptId | src/components/SongForm.tsx:127-145 | The corrected submission agrees with the original in everything but the id |
| SongForm.LoadThenSaveRoundTrip | src/components/SongForm.tsx:40-62 | Loading a complete stored song into the form and saving it unchanged sends back every stored field: an empty album, difficulty or link goes back as absent, and the year as its decimal text |
| SongForm.AfterSubmit | src/components/SongForm.tsx:147-176 | After a create, every field but album, year, difficulty and YouTube link is cleared and the chords are one blank entry, unless a refetch threw first, which leaves the form as typed |
| SongForm.ErrorAfterSubmit | src/components/SongForm.tsx:147-181 | The message the submission records with `setError`: the validation message for a rejection, the thrown message when a refetch after a create failed; none means `setError` is not called and the store keeps its previous error |
| SongForm.ResetKeepsFourFields | src/components/SongForm.tsx:166-176 | A create whose refetch did not throw resets the form to its initial state except album, year, difficulty and YouTube link |
| SongForm.FailedRefetchKeepsInputs | src/components/SongForm.tsx:147-181 | A create whose refetch throws keeps every input and shows the thrown message |
| SongForm.ArtistNames | src/components/SongForm.tsx:231 | The artist names offered are distinct and each is some artist's name |
| SongForm.ArtistNamesComplete | src/components/SongForm.tsx:231 | Every artist's name is offered |
| Seqs.DedupFirstOrder | src/components/SongForm.tsx:231 | `[...new Set(xs)]` keeps first-occurrence order |
| SongForm.ArtistNamesInOrder | src/components/SongForm.tsx:231 | Names are offered in order of first appearance |
| ChordSection.ButtonOf | src/components/form/ChordSection.tsx:53-70 | Row i shows the add button iff it is the last row, otherwise a remove button for its own index |
| ChordSection.Buttons | src/components/form/ChordSection.tsx:53-70 | One button per row, as above |
| ChordSection.FingeringInput | src/components/form/ChordSection.tsx:50 | The fingering input keeps at most 6 characters, the first ones typed |
| ChordSection.Dispatch | src/components/form/ChordSection.tsx:39-64 | Typing in row i changes field chord or fingering of row i; the last row's button adds, any other removes its row |
| ChordSection.DispatchOffered | src/components/form/ChordSection.tsx:53-70 | Every action on a row dispatches an edit the form offers: the last row is never removed |
| ChordSection.TypedFingeringStored | src/components/form/ChordSection.tsx:46-50 | Typing a fingering stores at most 6 characters in that row alone |
| ChordSection.InteractNeverEmpty | src/components/form/ChordSection.tsx:53-70 | Any run of row actions leaves a non-empty chord list non-empty |
| TechnicalDetails.KeyToken | src/components/form/TechnicalDetails.tsx:135-139 | Exactly U, u, D, d, '.', '\|' map to a two-character token ending in a space |
| TechnicalDetails.RhythmKey | src/components/form/TechnicalDetails.tsx:140-148 | Backspace drops the last two characters when there are two; a mapped key appends its token; anything else changes nothing |
| TechnicalDetails.BackspaceUndoesToken | src/components/form/TechnicalDetails.tsx:140-148 | Appending a token then pressing Backspace restores the rhythm |
| TechnicalDetails.RhythmKeyParity | src/components/form/TechnicalDetails.tsx:134-149 | Each key changes the length by 0 or ±2, so its parity is kept |
| TechnicalDetails.RhythmKeyKeepsTokens | src/components/form/TechnicalDetails.tsx:134-149 | A rhythm of whole tokens stays one after any key |
| TechnicalDetails.TypedRhythmIsTokens | src/components/form/TechnicalDetails.tsx:134-149 | Any run of keys from an empty rhythm yields whole tokens |
| TechnicalDetails.ArtistSuggestions | src/components/form/TechnicalDetails.tsx:65-71 | No suggestions for empty text; otherwise only known names starting with it, ignoring case |
| TechnicalDetails.ArtistSuggestionsInOrder | src/components/form/TechnicalDetails.tsx:65-71 | Every match has index 0, so the sort keeps the names in input order: the suggestions are exactly the matching names, in order |
| TechnicalDetails.ArtistDropdownShown | src/components/form/TechnicalDetails.tsx:65-72 | The artist drop-down shows iff the input is focused, text is typed, and some known name starts with it |
| FormDropdown.FilteredOptions | src/components/form/FormDropdown.tsx:32-34 | The filtered options are options containing the filter, ignoring case |
| FormDropdown.FilteredOptionsComplete | src/components/form/FormDropdown.tsx:32-34 | Every option containing the filter is kept, and an empty filter keeps the list unchanged |
| FormDropdown.FilteredOptionsInOrder | src/components/form/FormDropdown.tsx:32-34 | The options shown are exactly the matching options, each once, in their given order |
| FormDropdown.Step | src/components/form/FormDropdown.tsx:21-56 | Typing sets value and filter and opens; focus opens; choosing sets the value and closes, keeping the filter; a mousedown outside closes |
| FormDropdown.TypeShowsMatches | src/components/form/FormDropdown.tsx:40-45 | After typing, the list is rendered iff some option contains the typed text |
| FormDropdown.ChooseTakesAnOption | src/components/form/FormDropdown.tsx:45-56 | Choosing from the rendered list sets an existing option and hides the list |
| FormDropdown.ValueStaysOption | src/components/form/FormDropdown.tsx:40-56 | Without typing, the value stays one of the options |
| FormInput.ShowDropdown | src/components/form/FormInput.tsx:45 | The suggestions show iff focused, allowed, and non-empty (each direction stated) |
| FormInput.React | src/components/form/FormInput.tsx:66-73 | Focus focuses; a mousedown outside unfocuses; a click on a shown suggestion fires exactly one of onSuggestionClick or onChange, with that suggestion, and unfocuses |
| FormInput.ClickHidesDropdown | src/components/form/FormInput.tsx:66-73 | After a suggestion click the box is hidden |
| FormInput.RefocusShows | src/components/form/FormInput.tsx:32-57 | Leaving and refocusing shows the box iff it is allowed and non-empty |
| SongViewer.FirstDigitRun | src/components/SongViewer.tsx:26 | `/\d+/` finds a match iff the tempo has a digit, and the match is the leftmost maximal run of digits: no digit before it, none right after it |
| SongViewer.FirstDigitRunUnique | src/components/SongViewer.tsx:26 | Whatever run is leftmost and maximal is the one found, so the match is determined by the text |
| SongViewer.Bpm | src/components/SongViewer.tsx:23-30 | The bpm is the decimal value of the leftmost maximal run of digits, and 60 when the tempo has no digit |
| SongViewer.BpmReadsLeftmostRun | src/components/SongViewer.tsx:26 | The pacer reads the leftmost maximal run of digits of any tempo |
| SongViewer.BpmOfNumberInText | src/components/SongViewer.tsx:23-30 | A number after digit-free text and not followed by a digit reads as that number |
| SongViewer.BpmExamples | src/components/SongViewer.tsx:23-30 | "Allegro 120-130 BPM" reads 120 and "100bpm" reads 100 |
| SongViewer.DecimalOfDigits | src/components/SongViewer.tsx:28 | `parseInt` of a number's decimal text gives the number back |
| SongViewer.BpmOfSavedTempo | src/components/SongViewer.tsx:23-30 | A tempo "n BPM", as the form saves it, reads as n bpm |
| SongViewer.BpmWithoutDigits | src/components/SongViewer.tsx:23 | A tempo without digits reads as 60 bpm |
| SongViewer.ScrollSpeed | src/components/SongViewer.tsx:19-38 | Speed 1 without a tempo; otherwise at least the multiplier, exactly the multiplier at 60 bpm or less, and bpm/60 × multiplier above |
| SongViewer.SpeedOfNinety | src/components/SongViewer.tsx:37 | "90 BPM" scrolls at 1.5 at 1×, and 3 at 2× |
| SongViewer.ChangeSpeed | src/components/SongViewer.tsx:73-75 | The multiplier moves by the change, clamped to [0.25, 5] |
| SongViewer.ChangeSpeedKeepsQuarters | src/components/SongViewer.tsx:73-75 | A whole number of quarters within bounds stays one |
| SongViewer.ToggleScroll | src/components/SongViewer.tsx:93-95 | The toggle flips scrolling and keeps the multiplier |
| SongViewer.Reset | src/components/SongViewer.tsx:77-91 | Reset stops scrolling and asks to scroll to the top |
| SongViewer.Tick | src/components/SongViewer.tsx:48-63 | A tick while scrolling scrolls by the speed and stops iff the container reaches 10 px from the bottom; a stopped pacer does nothing |
| SongViewer.TickOnlyStops | src/components/SongViewer.tsx:48-63 | A tick never starts scrolling |
| SongViewer.ToggleResetLaws | src/components/SongViewer.tsx:77-95 | Toggling twice is the identity; resetting twice is resetting once |
| SongViewer.FavoriteClick | src/components/SongViewer.tsx:97-109 | Without details, a numeric id or an answer nothing changes; otherwise only `isFavorite` takes the answer |
| SongViewer.FavoriteOnFetchedDetailsIsNoOp | src/components/SongViewer.tsx:98 | Details without an id, as the service loads them, are never changed |
| SongViewer.FavoriteChangesOnlyFlag | src/components/SongViewer.tsx:105 | Any change is to `isFavorite` alone |
| SongViewer.EditClick | src/components/SongViewer.tsx:111-122 | With details and a selection the edit click sets editing; otherwise nothing changes |
| AutoScrollControls.Disabled | src/components/viewer/AutoScrollControls.tsx:22-39 | Minus is disabled iff the multiplier is at most 0.25; no other control is ever disabled |
| AutoScrollControls.PlayTitle | src/components/viewer/AutoScrollControls.tsx:54 | The play button reads "Pause" iff scrolling, else "Play" |
| AutoScrollControls.Requested | src/components/viewer/AutoScrollControls.tsx:23-35 | Minus requests −0.25, plus +0.25 |
| AutoScrollControls.Press | src/components/viewer/AutoScrollControls.tsx:22-57 | A click keeps the multiplier in [0.25, 5]; minus never raises it and plus never lowers it, both keep the play state; play/pause flips it and reset stops, both keeping the multiplier |
| AutoScrollControls.StepsAreExact | src/components/viewer/AutoScrollControls.tsx:23-39 | On a valid pacer, an enabled minus lowers by exactly 0.25; plus raises by 0.25 below 5 and does nothing at 5 |
| AutoScrollControls.ClicksKeepQuarters | src/components/viewer/AutoScrollControls.tsx:22-57 | Any run of button presses keeps the multiplier a whole number of quarters in [0.25, 5] |
| AutoScrollControls.InitialPacerValid | src/components/SongViewer.tsx:14-15 | The initial pacer (stopped, 1×) is valid |
| SongStore.Apply | src/stores/songStore.ts:35-42 | Each setter stores its argument in its own field and leaves every other field unchanged |
| SongStore.SetterIdempotent | src/stores/songStore.ts:35-42 | Setting a value already held changes nothing; setting twice is setting once |
| SongStore.LastWriteWins | src/stores/songStore.ts:35-42 | Two writes of the same field: the last wins |
| SongStore.SettersCommute | src/stores/songStore.ts:35-42 | Writes of different fields commute |
| SongStore.NoCoupling | src/stores/songStore.ts:38-42 | Setting editing keeps the selection, and selecting keeps the editing flag |
| SongStore.UntouchedFieldKept | src/stores/songStore.ts:35-42 | A field no setter of a run writes keeps its value |
| SongSheet.ViewOf | src/components/SongSheet.tsx:57-77 | Viewer iff a selection and not editing; edit form iff editing; create form iff no selection, not editing, on '/add'; home otherwise |
| SongSheet.Heading | src/components/SongSheet.tsx:67-69 | The form heading is the modification title in edit mode, the creation title otherwise |
| SongSheet.LocationChangeIsNoOp | src/components/SongSheet.tsx:18-24 | The location handler never changes the store, and so never changes the view |
| SongSheet.LocationChange | src/components/SongSheet.tsx:18-24 | The location handler returns the store it was given |
| SongSheet.EditClickShowsEditForm | src/components/SongSheet.tsx:57-59 | The edit click on a shown song opens the edit form; leaving edit mode shows the same song again |
| Sidebar.GroupOf | src/components/Sidebar.tsx:35-42 | An artist's group holds its name and id, and the title and id of every song of the artist, each once, in song-list order |
| Sidebar.GroupOfNonEmpty | src/components/Sidebar.tsx:36-43 | An artist with a song has a non-empty group |
| Sidebar.GroupSongs | src/components/Sidebar.tsx:35-43 | The groups are exactly those of the artists with songs, each once, in artist order |
| Sidebar.GroupSongsComplete | src/components/Sidebar.tsx:35-43 | Every artist with a song has its group in the list |
| Sidebar.GroupsAfterLoad | src/components/Sidebar.tsx:33-47 | Groups are recomputed only when both lists are non-empty; otherwise the previous groups stay |
| Sidebar.KeptPairsAligned | src/components/Sidebar.tsx:51-58 | The separately filtered titles and ids, paired up, are exactly the matching (title, id) pairs in order |
| Sidebar.Matches | src/components/Sidebar.tsx:49-58 | An empty search term matches every song |
| Sidebar.FilterGroup | src/components/Sidebar.tsx:49-58 | A filtered group stays aligned and keeps its artist |
| Sidebar.FilterGroups | src/components/Sidebar.tsx:49-59 | The result is exactly the filtered groups left with songs, each once, in their original order |
| Sidebar.EmptyTermKeepsAll | src/components/Sidebar.tsx:49-59 | An empty search term keeps every group intact |
| Sidebar.SelectSong | src/components/Sidebar.tsx:61-71 | Selecting clears editing and sets the selection, leaving the rest of the store |
| Sidebar.IdAt | src/components/Sidebar.tsx:75 | The id at a position of the groups, when it exists |
| Sidebar.FetchedId | src/components/Sidebar.tsx:75 | The fetched id is read from the unfiltered groups, whatever the search term |
| Sidebar.FetchedIdMismatch | src/components/Sidebar.tsx:75 | With one song filtered out, clicking the first shown song fetches the hidden one |
| Sidebar.FetchedIdCorrected | src/components/Sidebar.tsx:75 | The corrected fetch reads the id of the clicked position in the filtered groups |
| Sidebar.CorrectedFetchesClickedSong | src/components/Sidebar.tsx:75 | The corrected fetch gives the id that the clicked title had in its artist's unfiltered group |
| Sidebar.FetchAgreesWithoutSearch | src/components/Sidebar.tsx:49-75 | With an empty search the original and the corrected fetch agree |
| Sidebar.ToggleArtist | src/components/Sidebar.tsx:159 | The header click closes the artist when it is open, otherwise opens it |
| Sidebar.ToggleArtistTwice | src/components/Sidebar.tsx:159 | Two clicks on the same header restore the state |
| Sidebar.LogoClick | src/components/Sidebar.tsx:104-107 | The logo clears the selection, the details, the open artist and editing |
| Sidebar.LogoClickGoesHome | src/components/Sidebar.tsx:100-107 | After the logo click on '/', the home page shows and the lists are kept |
| HomePage.RandomIndex | src/components/HomePage.tsx:37 | `Math.floor(r × n)` for r in [0, 1) is an index below n |
| HomePage.PickFeatured | src/components/HomePage.tsx:31-45 | The featured artist is one with a song; its list is its first 1 to 5 songs in list order |
| HomePage.FeaturedIffSomeArtistHasSong | src/components/HomePage.tsx:31-36 | Nobody is featured iff no artist has a song |
| HomePage.EveryEligibleArtistCanBeFeatured | src/components/HomePage.tsx:32-38 | Every artist with a song is featured for some random draw |
| HomePage.TopByPartition | src/components/HomePage.tsx:90-94 | The shown and the left-out songs together are the input, and nothing left out ranks before a shown one |
| HomePage.TopBy | src/components/HomePage.tsx:90-94 | At most n elements, sorted by the key, and together a sub-multiset of the input |
| HomePage.PopularFallback | src/components/HomePage.tsx:140 | At most ten songs (fewer only when there are fewer), by non-increasing views |
| HomePage.PopularFallbackIsTop | src/components/HomePage.tsx:140 | The popular songs come from the list, and none left out has more views |
| HomePage.RecentFallback | src/components/HomePage.tsx:90-94 | At most ten songs, newest first, a missing date counting as the epoch |
| HomePage.RecentFallbackIsTop | src/components/HomePage.tsx:90-94 | The recent songs come from the list, and none left out is newer |
| HomePage.HomeSelection | src/components/HomePage.tsx:172-186 | A selection names an artist with that id and, among its songs, one with that id; none iff there is no such artist or song |
| HomePage.HomeSelectionFirst | src/components/HomePage.tsx:174-177 | The selection is the first such artist and the first such song |
| HomePage.FormatDate | src/components/HomePage.tsx:157-165 | An empty date reads "Date inconnue"; any other is formatted |
| HomePage.PaneAsWritten | src/components/HomePage.tsx:302 | The panes as written always show the loading placeholder |
| HomePage.PanesStuckLoading | src/components/HomePage.tsx:302 | Even with everything loaded and songs available, the panes show the placeholder and never the songs |
| HomePage.Pane | src/components/HomePage.tsx:348 | The corrected pane shows the placeholder iff its own flag is set, else the songs or the empty message |
| HomePage.PanesShowSongsWhenLoaded | src/components/HomePage.tsx:348 | Once loaded, the corrected panes show the fallback songs |
| YouTube.MarkerAt | src/components/viewer/YouTubeAudioPlayer.tsx:14 | A marker is 2 to 9 characters long, fits in the string, and starts with y, v, u, e, w or & |
| YouTube.FirstLineEnd | src/components/viewer/YouTubeAudioPlayer.tsx:14 | The end of the first line, which `^.*` cannot pass |
| YouTube.LastMarker | src/components/viewer/YouTubeAudioPlayer.tsx:14 | The rightmost marker position up to a bound |
| YouTube.RunEnd | src/components/viewer/YouTubeAudioPlayer.tsx:14 | The maximal run of characters other than '#', '&' and '?' |
| YouTube.Candidate | src/components/viewer/YouTubeAudioPlayer.tsx:14-15 | The captured id has no '#', '&' or '?' |
| YouTube.ExtractId | src/components/viewer/YouTubeAudioPlayer.tsx:11-18 | No link or an empty link gives null; otherwise the result is the regex's capture iff that capture has exactly 11 characters (none of '#', '&', '?') |
| YouTube.CandidateIsGreedyMatch | src/components/viewer/YouTubeAudioPlayer.tsx:14-15 | The capture is null iff the regex has no match; otherwise it is the match with the rightmost marker on the first line and the longest id run |
| YouTube.LinkEndingInId | src/components/viewer/YouTubeAudioPlayer.tsx:14-17 | Any one-line link ending in a marker and an 11-character word id yields that id |
| YouTube.LaterMarkerWins | src/components/viewer/YouTubeAudioPlayer.tsx:14-17 | A later "&v=" with a short id makes the result null, whatever came before |
| YouTube.WatchLink | src/components/viewer/YouTubeAudioPlayer.tsx:14-17 | "https://www.youtube.com/watch?v=" + id yields the id |
| YouTube.ShortLink | src/components/viewer/YouTubeAudioPlayer.tsx:14-17 | "https://youtu.be/" + id yields the id |
| YouTube.RickrollLinks | src/components/viewer/YouTubeAudioPlayer.tsx:14-17 | Both link forms of "dQw4w9WgXcQ" yield "dQw4w9WgXcQ" |
| Types.ChordRows | src/services/songService.ts:426-431 | The chord rows are numbered 0..n−1 in list order, one per chord, each carrying its chord and fingering |

## Left out

- Backend I/O: the song services, the backend client configuration, the migration script and the load sequence of `Layout.tsx` are not modelled. Their results are inputs here: lists of artists and songs, song details, and the favourite answer. Only the chord-row numbering is kept (`Types.ChordRows`).
- Timers, DOM and browser plumbing are modelled as events or outputs, not performed:
  - the 30 ms interval is a `Tick` event carrying the container's measurements;
  - `scrollBy` and `scrollTo` are `ScrollRequest` outputs;
  - mousedown listeners are `MouseDownOutside` events;
  - `history.pushState` and `popstate` are a path argument.
  - Animations are not modelled at all.
- The loading and error flags: `isLoading` in the store and the home page's `error` object are not tracked. Neither is the `finally` order in which the services' awaits set and clear them. Their loading test is modelled as `HomePage.PaneAsWritten` and corrected as `HomePage.Pane`.
- The selection of a newly created song after a create (`SongForm.tsx:147-163`) is not modelled, because it depends on refetched lists. Whether a refetch throws is an input of `SongForm.AfterSubmit`.
- The store's `error` is recorded but never displayed: no component renders it (the only `{error}` shown is the YouTube player's own). A successful submission does not clear an earlier error, which is why `SongForm.ErrorAfterSubmit` gives `None` for "no `setError` call" rather than "no error".
- Errors thrown by the create and update calls themselves, and by the details refetch after an update, are not modelled. The form is left as it is in those cases, and only the error message differs.
- `parseInt(newYear)`: the year is carried as text and sent as `Option<string>`. The number it would parse to is not modelled.
- `toLocaleDateString` and `new Date` parsing:
  - `HomePage.FormatDate` models only the empty-date case and leaves the French date format abstract.
  - Creation dates are integer timestamps (`Option<int>`), and invalid date strings are not modelled.
- Unicode: `toLowerCase` maps ASCII letters only. `\w` and `\d` are ASCII in the source's regular expressions, so those are exact.
- UTF-16 code units: a Dafny `char` is a whole Unicode scalar value, but JavaScript counts lengths and matches the regex `.` in UTF-16 code units. The two agree on text without characters outside the Basic Multilingual Plane (emoji and the like) and can differ on text with them:
  - `YouTube.ExtractId`: the source's `.` in `youtu.be` cannot match a two-unit character, so "youtu😀be/dQw4w9WgXcQ" gives null in the source but the id in the model. The eleven-character length test also counts code units in the source.
  - `ChordSection.FingeringInput`: `maxLength={6}` counts code units, and the model counts characters.
  - `ChordGrid.CellAt`: `fingering[i]` indexes code units, and the model indexes characters, so a fingering holding an emoji is split into cells differently.
- SongViewer.ScrollSpeed: the bpm is an unbounded integer and the multiplier a `real`. IEEE doubles are not modelled, so neither is `parseInt` losing precision on digit runs longer than 15 digits.
- `sectionMap` lookups of `Object.prototype` names such as "constructor" are not modelled. The real map would return a function there, not the word.
- `src/components/viewer/SongViewer.tsx` is a stale duplicate whose imports do not resolve. Only `src/components/SongViewer.tsx` is modelled.
- The YouTube player (`YouTubeAudioPlayer.tsx:20-233`) is not modelled. Its script injection, player lifecycle and progress timer are an external API driven by timers. Only `extractYouTubeId` is modelled.
- Presentational components are not modelled: `Header.tsx`, `viewer/TechnicalDetails.tsx`, `TabSection.tsx`, `FormRow.tsx`, and the build configuration.
- The `keySignature` prop of `SuggestedChords` is unused by the source. The model takes no such argument, which is how it shows the suggestions do not depend on it.
- `Math.random()` becomes a real parameter in [0, 1).
- Lyrics.NumCols is defined only for a non-empty row list. With no rows the source computes `Math.max()` = −Infinity and then renders nothing.
- Sidebar.IdAt gives `None` when a position has no id. With no group there the source's lookup throws; with a group but no id at that index it yields `undefined`, and `fetchSongDetails` throws on its missing-id guard (`if (!songId)`, which would also reject an id of 0). Either way the catch handler records the message, which is not modelled.
- Sidebar.FetchedIdCorrected states its result only for a clicked position that exists in the filtered groups. Any other position cannot be clicked.

## Findings

| source | as written | input that shows it | evidently intended | confidence | as-written member | corrected member |
|---|---|---|---|---|---|---|
| src/components/HomePage.tsx:302, 348 | The recent and popular panes test `loading`, the whole `{artist, recent, popular}` object, which is always truthy | Any state, e.g. all three flags false and ten songs loaded: the panes show "Chargement..." forever | Test `loading.recent` and `loading.popular` respectively | high (not executed) | HomePage.PanesStuckLoading | HomePage.Pane |
| src/components/Sidebar.tsx:75 | `handleSongSelect` reads the id from the unfiltered `groupedSongs` with indices from `filteredGroupedSongs` | One artist "a" with songs "x" (id 10) and "y" (id 20), search "y": the one shown song "y" fetches id 10 | Read the id from the filtered groups at the clicked position | high (not executed) | Sidebar.FetchedIdMismatch | Sidebar.FetchedIdCorrected |
| src/components/SongForm.tsx:73, 83, 87 | The update passes `selectedSong[1]`, the song's position within its artist's list, as the song id | Editing the first song of any artist updates song id 0, whatever its real id | Pass the edited song's own id | medium (not executed) | SongForm.UpdateUsesPosition | SongForm.SubmitCorrected |

=== FILE: auto_scroll_controls.dfy ===
/**
 * The auto-scroll buttons of `src/components/viewer/AutoScrollControls.tsx`
 * and their effect on the pacer of the song viewer.
 */
module AutoScrollControls {
  import opened SongViewer

  /** The step of the minus and plus buttons. */
  const SpeedStep := 0.25

  /** The four buttons. */
  datatype Control = Minus | Plus | ResetButton | PlayPause

  /** The minus button is disabled iff the multiplier is at most 0.25; plus is never disabled. */
  function Disabled(p: Pacer, c: Control): (b: bool)
    ensures b <==> c == Minus && p.multiplier <= SpeedStep
  {
    c == Minus && p.multiplier <= SpeedStep
  }

  /** The play button's title: "Pause" while scrolling, "Play" otherwise. */
  function PlayTitle(p: Pacer): (t: string)
    ensures t == "Pause" <==> p.isScrolling
    ensures t == "Play" <==> !p.isScrolling
  {
    if p.isScrolling then "Pause" else "Play"
  }

  /** The speed change a button requests: −0.25 for minus, +0.25 for plus. */
  function Requested(c: Control): (change: real)
    requires c == Minus || c == Plus
    ensures c == Minus ==> change == -SpeedStep
    ensures c == Plus ==> change == SpeedStep
  {
    if c == Minus then -SpeedStep else SpeedStep
  }

  /** The pacer after a click; a click on a disabled button does nothing. */
  function Press(p: Pacer, c: Control): (r: Pacer)
    ensures MinMultiplier <= p.multiplier <= MaxMultiplier ==> MinMultiplier <= r.multiplier <= MaxMultiplier
    ensures c == Minus ==> r.isScrolling == p.isScrolling && r.multiplier <= p.multiplier
    ensures c == Plus ==> r.isScrolling == p.isScrolling
    ensures c == Plus && p.multiplier <= MaxMultiplier ==> r.multiplier >= p.multiplier
    ensures c == PlayPause ==> r.isScrolling != p.isScrolling && r.multiplier == p.multiplier
    ensures c == ResetButton ==> !r.isScrolling && r.multiplier == p.multiplier
  {
    if Disabled(p, c) then p
    else
      match c
      case Minus => ChangeSpeed(p, Requested(Minus))
      case Plus => ChangeSpeed(p, Requested(Plus))
      case ResetButton => Reset(p).0
      case PlayPause => ToggleScroll(p)
  }

  /**
   * On a pacer whose multiplier is a whole number of quarters in [0.25, 5],
   * an enabled minus lowers it by exactly 0.25 (the clamp never bites), and
   * plus raises it by 0.25 except at 5, where it stays.
   */
  lemma StepsAreExact(p: Pacer)
    requires ValidPacer(p)
    ensures !Disabled(p, Minus) ==> Press(p, Minus).multiplier == p.multiplier - SpeedStep
    ensures p.multiplier < MaxMultiplier ==> Press(p, Plus).multiplier == p.multiplier + SpeedStep
    ensures p.multiplier == MaxMultiplier ==> Press(p, Plus) == p
  {
    if !Disabled(p, Minus) {
      assert (p.multiplier * 4.0).Floor >= 2;
    }
    if p.multiplier < MaxMultiplier {
      assert (p.multiplier * 4.0).Floor <= 19;
    }
  }

  /** The pacer after a run of clicks. */
  function PressAll(p: Pacer, cs: seq<Control>): Pacer
    decreases |cs|
  {
    if |cs| == 0 then p else PressAll(Press(p, cs[0]), cs[1..])
  }

  /** From the initial pacer, whatever is clicked, the multiplier is a whole number of quarters between 0.25 and 5. */
  lemma {:induction false} ClicksKeepQuarters(p: Pacer, cs: seq<Control>)
    requires ValidPacer(p)
    ensures ValidPacer(PressAll(p, cs))
    decreases |cs|
  {
    if |cs| > 0 {
      assert Quarter(SpeedStep) && Quarter(-SpeedStep);
      if !Disabled(p, cs[0]) && (cs[0] == Minus || cs[0] == Plus) {
        ChangeSpeedKeepsQuarters(p, Requested(cs[0]));
      }
      ClicksKeepQuarters(Press(p, cs[0]), cs[1..]);
    }
  }

  /** The initial pacer is valid, so every reachable multiplier is a whole number of quarters in [0.25, 5]. */
  lemma InitialPacerValid()
    ensures ValidPacer(InitialPacer)
  {
    assert (InitialPacer.multiplier * 4.0).Floor == 4;
  }
}

=== FILE: chord_grid.dfy ===
/**
 * The fingering table of `src/components/viewer/ChordGrid.tsx`: one column per
 * chord, six body rows (one per string), a filler column when there are few
 * chords, and a width cap when there are many.
 */
module ChordGrid {
  import opened Opt
  import opened Types
  import SuggestedChords

  /** The number of body rows: one per guitar string. */
  const Strings: nat := 6

  /** The most chords shown without a width cap; up to this many the table also gets a filler column. */
  const FillerLimit: nat := 10

  /** The width of one chord column, in pixels. */
  const ColumnWidth: nat := 60

  /** What a body cell shows: its text, and whether it is drawn faded. */
  datatype Cell = Cell(text: string, dimmed: bool)

  /** A header or body cell: a chord column's cell, or the filler at the end of the row. */
  datatype Slot<C> = Column(content: C) | Filler

  /**
   * The cell of a fingering for string `r`: an upper-case 'X' is shown faded,
   * any other character as it is, and a missing character as nothing.
   */
  function CellAt(fingering: string, r: nat): (c: Cell)
    ensures c.dimmed <==> r < |fingering| && fingering[r] == 'X'
    ensures r < |fingering| ==> c.text == [fingering[r]]
    ensures r >= |fingering| ==> c.text == ""
  {
    if r < |fingering| && fingering[r] == 'X' then Cell("X", true)
    else if r < |fingering| then Cell([fingering[r]], false)
    else Cell("", false)
  }

  /** A row of column slots followed by the filler when there are at most ten chords. */
  function WithFiller<C>(cols: seq<C>): (row: seq<Slot<C>>)
    ensures |row| == |cols| + (if |cols| <= FillerLimit then 1 else 0)
    ensures forall c :: 0 <= c < |cols| ==> row[c] == Column(cols[c])
    ensures |cols| <= FillerLimit ==> row[|cols|] == Filler
  {
    var body := seq(|cols|, c requires 0 <= c < |cols| => Column(cols[c]));
    if |cols| <= FillerLimit then body + [Filler] else body
  }

  /** The header row: the chord names, then the filler. */
  function Header(chords: seq<ChordEntry>): (row: seq<Slot<string>>)
    ensures |row| == |chords| + (if |chords| <= FillerLimit then 1 else 0)
    ensures forall c :: 0 <= c < |chords| ==> row[c] == Column(chords[c].chord)
    ensures |chords| <= FillerLimit ==> row[|chords|] == Filler
  {
    WithFiller(seq(|chords|, c requires 0 <= c < |chords| => chords[c].chord))
  }

  /** The body: six rows; row `r` holds each chord's cell for string `r`, then the filler. */
  function Body(chords: seq<ChordEntry>): (rows: seq<seq<Slot<Cell>>>)
    ensures |rows| == Strings
    ensures forall r :: 0 <= r < Strings ==> |rows[r]| == |chords| + (if |chords| <= FillerLimit then 1 else 0)
    ensures forall r, c :: 0 <= r < Strings && 0 <= c < |chords| ==> rows[r][c] == Column(CellAt(chords[c].fingering, r))
    ensures forall r :: 0 <= r < Strings && |chords| <= FillerLimit ==> rows[r][|chords|] == Filler
  {
    seq(Strings, r requires 0 <= r < Strings =>
      WithFiller(seq(|chords|, c requires 0 <= c < |chords| => CellAt(chords[c].fingering, r))))
  }

  /** The width cap of the table: none for at most ten chords, otherwise 60 pixels per chord. */
  function MaxWidth(chords: seq<ChordEntry>): (w: Option<nat>)
    ensures w.None? <==> |chords| <= FillerLimit
    ensures w.Some? ==> w.value == ColumnWidth * |chords| && w.value > ColumnWidth * FillerLimit
  {
    if |chords| <= FillerLimit then None else Some(ColumnWidth * |chords|)
  }

  /** Header and body rows line up, and they end with a filler exactly when no width cap is set. */
  lemma FillerIffUncapped(chords: seq<ChordEntry>)
    ensures forall r :: 0 <= r < Strings ==> |Body(chords)[r]| == |Header(chords)|
    ensures (|Header(chords)| == |chords| + 1) <==> MaxWidth(chords).None?
  {
  }

  /** Catalogue fingerings write muted strings with a lower-case 'x', so none of their cells is faded. */
  lemma CatalogueCellsNotDimmed(e: nat, r: nat)
    requires e < SuggestedChords.CatalogueSize
    ensures !CellAt(SuggestedChords.CatalogueFingering(e), r).dimmed
  {
    SuggestedChords.CatalogueFingeringsValid();
  }

  /** The default fingering sent for a song without chords, "X32010", has its first string faded and no other. */
  lemma DefaultFingeringDimmed()
    ensures CellAt("X32010", 0) == Cell("X", true)
    ensures forall r :: 1 <= r < Strings ==> !CellAt("X32010", r).dimmed
  {
  }
}

=== FILE: chord_section.dfy ===
/**
 * The chord rows of `src/components/form/ChordSection.tsx`: which button each
 * row shows, and which edit of the chord list each interaction dispatches.
 */
module ChordSection {
  import opened Types
  import opened SongForm

  /** The button at the end of a row. */
  datatype RowButton = AddButton | RemoveButton(index: nat)

  /** Row `i` of `n` rows carries the add button iff it is the last row, and otherwise a remove button for itself. */
  function ButtonOf(n: nat, i: nat): (b: RowButton)
    requires i < n
    ensures b == AddButton <==> i == n - 1
    ensures b.RemoveButton? ==> b.index == i && i < n - 1
  {
    if i == n - 1 then AddButton else RemoveButton(i)
  }

  /** The buttons of all rows: exactly one add button, on the last row. */
  function Buttons(chords: seq<ChordEntry>): (r: seq<RowButton>)
    ensures |r| == |chords|
    ensures forall i :: 0 <= i < |r| ==> r[i] == ButtonOf(|chords|, i)
  {
    seq(|chords|, i requires 0 <= i < |chords| => ButtonOf(|chords|, i))
  }

  /** The longest fingering the fingering input accepts. */
  const MaxFingeringLength := 6

  /** The fingering input's `maxLength`: typed text beyond six characters is not taken. */
  function FingeringInput(v: string): (r: string)
    ensures |r| <= MaxFingeringLength
    ensures |v| <= MaxFingeringLength ==> r == v
    ensures |v| > MaxFingeringLength ==> |r| == MaxFingeringLength
    ensures r == v[..|r|]
  {
    if |v| <= MaxFingeringLength then v else v[..MaxFingeringLength]
  }

  /** What a user does on row `row`. */
  datatype RowAction =
    | TypeChord(row: nat, text: string)
    | TypeFingering(row: nat, text: string)
    | ClickButton(row: nat)

  /** The row exists. */
  predicate OnRow(chords: seq<ChordEntry>, a: RowAction) {
    a.row < |chords|
  }

  /** The edit an action dispatches to the form. */
  function Dispatch(chords: seq<ChordEntry>, a: RowAction): (ev: ChordEdit)
    requires OnRow(chords, a)
    ensures a.TypeChord? ==> ev == Change(a.row, ChordName, a.text)
    ensures a.TypeFingering? ==> ev == Change(a.row, FingeringField, FingeringInput(a.text))
    ensures a.ClickButton? ==> (ev == AddRow <==> a.row == |chords| - 1)
    ensures a.ClickButton? && a.row != |chords| - 1 ==> ev == Remove(a.row)
  {
    match a
    case TypeChord(i, v) => Change(i, ChordName, v)
    case TypeFingering(i, v) => Change(i, FingeringField, FingeringInput(v))
    case ClickButton(i) =>
      match ButtonOf(|chords|, i)
      case AddButton => AddRow
      case RemoveButton(j) => Remove(j)
  }

  /** Every dispatched edit is one the form offers: the last row is never removed. */
  lemma DispatchOffered(chords: seq<ChordEntry>, a: RowAction)
    requires OnRow(chords, a)
    ensures Offered(chords, Dispatch(chords, a))
  {
  }

  /** A typed fingering is stored with at most six characters, and only on the edited row. */
  lemma TypedFingeringStored(chords: seq<ChordEntry>, i: nat, v: string)
    requires i < |chords|
    ensures var r := ApplyEdit(chords, Dispatch(chords, TypeFingering(i, v)));
      |r| == |chords| && |r[i].fingering| <= MaxFingeringLength && r[i].chord == chords[i].chord
      && forall j :: 0 <= j < |r| && j != i ==> r[j] == chords[j]
  {
  }

  /** The list after a run of row actions, each dispatched on the list it meets (actions on missing rows do nothing). */
  function Interact(chords: seq<ChordEntry>, acts: seq<RowAction>): seq<ChordEntry>
    decreases |acts|
  {
    if |acts| == 0 then chords
    else
      var next := if OnRow(chords, acts[0]) then ApplyEdit(chords, Dispatch(chords, acts[0])) else chords;
      Interact(next, acts[1..])
  }

  /** From the initial chord list, no sequence of row actions ever empties it. */
  lemma {:induction false} InteractNeverEmpty(chords: seq<ChordEntry>, acts: seq<RowAction>)
    requires |chords| >= 1
    ensures |Interact(chords, acts)| >= 1
    decreases |acts|
  {
    if |acts| > 0 {
      if OnRow(chords, acts[0]) {
        DispatchOffered(chords, acts[0]);
        OfferedEditKeepsNonEmpty(chords, Dispatch(chords, acts[0]));
      }
      var next := if OnRow(chords, acts[0]) then ApplyEdit(chords, Dispatch(chords, acts[0])) else chords;
      InteractNeverEmpty(next, acts[1..]);
    }
  }
}

=== FILE: form_constants.dfy ===
/** The option lists of `src/components/form/constants.ts`. */
module FormConstants {

  const Tunings: seq<string> := [
    "E | A | D | G | B | E", "D | A | D | G | B | E", "Eb | Ab | Db | Gb | Bb | Eb",
    "D | G | C | F | A | D", "D | A | D | G | A | D", "D | A | D | F# | A | D",
    "E | B | E | G# | B | E", "D | G | D | G | B | D", "E | A | E | A | C# | E",
    "C | G | C | G | C | E", "D | A | D | F | A | D", "D | A | D | G | B | D",
    "C | G | C | F | A | D", "B | F# | B | E | G# | C#", "A | E | A | D | F# | B",
    "E | A | D | G | C | F", "C | A | C | G | C | E", "C | F | C | F | A | C",
    "E | G# | C | E | G# | C", "G | C | G | D | B | D"
  ]

  const Tonalities: seq<string> := [
    "C", "Cm", "C# / Db", "C#m / Dbm", "D", "Dm", "D# / Eb", "D#m / Ebm",
    "E", "Em", "F", "Fm", "F# / Gb", "F#m / Gbm", "G", "Gm", "G# / Ab",
    "G#m / Abm", "A", "Am", "A# / Bb", "A#m / Bbm", "B / Cb", "Bm / Cbm"
  ]

  const CapoOptions: seq<string> := ["Aucun", "1er", "2e", "3e", "4e", "5e", "6e", "7e", "8e", "9e", "10e", "11e", "12e"]

  const MeasureOptions: seq<string> := ["4 / 4", "3 / 4", "2 / 4", "6 / 8", "12 / 8", "2 / 2", "3 / 8", "9 / 8", "5 / 4", "7 / 8"]

  const DifficultyOptions: seq<string> := ["Débutant", "Intermédiaire", "Expert"]
}

=== FILE: form_dropdown.dfy ===
/**
 * The filtering drop-down of `src/components/form/FormDropdown.tsx`: the
 * options shown for a filter, and the open/filter/value state machine.
 */
module FormDropdown {
  import opened Seqs
  import opened JsString

  /** The option contains the filter, ignoring case. */
  predicate ContainsFilter(option: string, filter: string) {
    Includes(ToLower(option), ToLower(filter))
  }

  /** The filter test as a value to filter with. */
  function MatchesFilter(filter: string): string -> bool {
    o => ContainsFilter(o, filter)
  }

  /** `filteredOptions`: the options containing the filter, ignoring case, in their given order. */
  function FilteredOptions(options: seq<string>, filter: string): (r: seq<string>)
    ensures |r| <= |options|
    ensures forall k :: 0 <= k < |r| ==> r[k] in options && ContainsFilter(r[k], filter)
  {
    Filter(options, MatchesFilter(filter))
  }

  /** Every option containing the filter is listed, and the empty filter lists every option in order. */
  lemma FilteredOptionsComplete(options: seq<string>, filter: string)
    ensures forall k :: 0 <= k < |options| && ContainsFilter(options[k], filter) ==> options[k] in FilteredOptions(options, filter)
    ensures filter == "" ==> FilteredOptions(options, filter) == options
  {
    FilterComplete(options, MatchesFilter(filter));
    if filter == "" {
      forall k | 0 <= k < |options| ensures ContainsFilter(options[k], filter) {
        IncludesEmpty(ToLower(options[k]));
      }
      FilterKeepsAll(options, MatchesFilter(filter));
    }
  }

  /**
   * The options shown are exactly the matching options, each once, in their
   * given order (`ks` are their positions).
   */
  lemma FilteredOptionsInOrder(options: seq<string>, filter: string)
    ensures var r := FilteredOptions(options, filter);
      var ks := Positions(options, MatchesFilter(filter));
      && |r| == |ks| && Increasing(ks)
      && (forall j :: 0 <= j < |ks| ==> r[j] == options[ks[j]])
      && (forall k :: 0 <= k < |options| ==> (ContainsFilter(options[k], filter) <==> k in ks))
  {
    FilterSelects(options, MatchesFilter(filter));
  }

  /** The drop-down's state: the value shown (owned by the parent), the filter text, and whether the list is open. */
  datatype Dropdown = Dropdown(value: string, filter: string, isOpen: bool)

  /** Closed, with an empty filter. */
  function Initial(value: string): Dropdown {
    Dropdown(value, "", false)
  }

  /** The events: typing text, focusing the input, pressing an option, a mousedown anywhere outside. */
  datatype DropdownEvent = Type(text: string) | Focus | Choose(option: string) | MouseDownOutside

  /** The option list is rendered iff it is open and the filter leaves something to show. */
  predicate Rendered(d: Dropdown, options: seq<string>) {
    d.isOpen && |FilteredOptions(options, d.filter)| > 0
  }

  /** An option can be pressed only while it is on the rendered list. */
  predicate Enabled(d: Dropdown, options: seq<string>, ev: DropdownEvent) {
    ev.Choose? ==> Rendered(d, options) && ev.option in FilteredOptions(options, d.filter)
  }

  /**
   * One event: typing sets value and filter to the text and opens the list;
   * focusing opens it; pressing an option sets the value to it and closes the
   * list, leaving the filter alone; a mousedown outside closes it.
   */
  function Step(d: Dropdown, ev: DropdownEvent): (r: Dropdown)
    ensures ev.Type? ==> r == Dropdown(ev.text, ev.text, true)
    ensures ev.Focus? ==> r == d.(isOpen := true)
    ensures ev.Choose? ==> r == Dropdown(ev.option, d.filter, false)
    ensures ev.MouseDownOutside? ==> r == d.(isOpen := false)
  {
    match ev
    case Type(t) => Dropdown(t, t, true)
    case Focus => d.(isOpen := true)
    case Choose(o) => d.(value := o, isOpen := false)
    case MouseDownOutside => d.(isOpen := false)
  }

  /** After typing, the list shows iff some option contains the typed text. */
  lemma TypeShowsMatches(d: Dropdown, options: seq<string>, t: string)
    ensures Rendered(Step(d, Type(t)), options) <==> exists k :: 0 <= k < |options| && ContainsFilter(options[k], t)
  {
    FilteredOptionsComplete(options, t);
    var f := FilteredOptions(options, t);
    if |f| > 0 {
      assert f[0] in options;
    }
  }

  /** A chosen option is one of the options, and afterwards nothing is rendered. */
  lemma ChooseTakesAnOption(d: Dropdown, options: seq<string>, o: string)
    requires Enabled(d, options, Choose(o))
    ensures Step(d, Choose(o)).value in options
    ensures !Rendered(Step(d, Choose(o)), options)
  {
  }

  /** The drop-down after a run of enabled events. */
  function Run(d: Dropdown, options: seq<string>, evs: seq<DropdownEvent>): Dropdown
    decreases |evs|
  {
    if |evs| == 0 then d
    else Run(if Enabled(d, options, evs[0]) then Step(d, evs[0]) else d, options, evs[1..])
  }

  /** The value changes only by typing or by choosing: a value that is an option stays one until something is typed. */
  lemma {:induction false} ValueStaysOption(d: Dropdown, options: seq<string>, evs: seq<DropdownEvent>)
    requires d.value in options
    requires forall k :: 0 <= k < |evs| ==> !evs[k].Type?
    ensures Run(d, options, evs).value in options
    decreases |evs|
  {
    if |evs| > 0 {
      var next := if Enabled(d, options, evs[0]) then Step(d, evs[0]) else d;
      if Enabled(d, options, evs[0]) && evs[0].Choose? {
        ChooseTakesAnOption(d, options, evs[0].option);
      }
      ValueStaysOption(next, options, evs[1..]);
    }
  }
}

=== FILE: form_input.dfy ===
/**
 * The text input with suggestions of `src/components/form/FormInput.tsx`:
 * when its suggestion list shows, and where a chosen suggestion goes.
 */
module FormInput {

  /** The list shows iff the input has focus, suggestions are enabled, and there is at least one. */
  function ShowDropdown(focused: bool, showSuggestions: bool, suggestions: seq<string>): (b: bool)
    ensures b ==> focused
    ensures b ==> showSuggestions
    ensures |suggestions| == 0 ==> !b
    ensures focused && showSuggestions && |suggestions| > 0 ==> b
  {
    focused && showSuggestions && |suggestions| > 0
  }

  /** The callback a suggestion click reaches: the dedicated one when given, else the change handler. */
  datatype Callback = SuggestionClicked(value: string) | Changed(value: string)

  /** The events the input reacts to. */
  datatype InputEvent = Focus | MouseDownOutside | ClickSuggestion(index: nat)

  /** The input's focus flag after an event, and the one callback it fires, if any. */
  datatype Reaction = Reaction(focused: bool, fired: seq<Callback>)

  /**
   * One event: focusing sets the flag, a mousedown outside clears it, and a
   * click on a shown suggestion calls exactly one callback with that
   * suggestion and then clears the flag. A click on a suggestion that is not
   * shown does nothing.
   */
  function React(focused: bool, showSuggestions: bool, suggestions: seq<string>, hasSuggestionHandler: bool,
                 ev: InputEvent): (r: Reaction)
    ensures ev == Focus ==> r == Reaction(true, [])
    ensures ev == MouseDownOutside ==> r == Reaction(false, [])
    ensures ev.ClickSuggestion? && !(ShowDropdown(focused, showSuggestions, suggestions) && ev.index < |suggestions|) ==>
      r == Reaction(focused, [])
    ensures ev.ClickSuggestion? && ShowDropdown(focused, showSuggestions, suggestions) && ev.index < |suggestions| ==>
      && !r.focused && |r.fired| == 1
      && r.fired[0].value == suggestions[ev.index]
      && (r.fired[0].SuggestionClicked? <==> hasSuggestionHandler)
  {
    match ev
    case Focus => Reaction(true, [])
    case MouseDownOutside => Reaction(false, [])
    case ClickSuggestion(i) =>
      if ShowDropdown(focused, showSuggestions, suggestions) && i < |suggestions| then
        var s := suggestions[i];
        Reaction(false, [if hasSuggestionHandler then SuggestionClicked(s) else Changed(s)])
      else Reaction(focused, [])
  }

  /** After a suggestion is chosen the list is hidden, whatever the suggestions are. */
  lemma ClickHidesDropdown(focused: bool, showSuggestions: bool, suggestions: seq<string>, h: bool, i: nat,
                           later: seq<string>)
    requires ShowDropdown(focused, showSuggestions, suggestions) && i < |suggestions|
    ensures !ShowDropdown(React(focused, showSuggestions, suggestions, h, ClickSuggestion(i)).focused, showSuggestions, later)
  {
  }

  /** A focus after a mousedown outside shows the list again iff there is something to show. */
  lemma RefocusShows(focused: bool, showSuggestions: bool, suggestions: seq<string>, h: bool)
    ensures var f := React(React(focused, showSuggestions, suggestions, h, MouseDownOutside).focused,
                           showSuggestions, suggestions, h, Focus).focused;
      ShowDropdown(f, showSuggestions, suggestions) <==> showSuggestions && |suggestions| > 0
  {
  }
}

=== FILE: home_page.dfy ===
/**
 * The home page of `src/components/HomePage.tsx`: the featured artist, the
 * in-memory fallbacks ranking recent and popular songs, selecting a song
 * from the page, the date label, and what the recent and popular panes show.
 * The random draw is a parameter in [0, 1) and dates are timestamps.
 */
module HomePage {
  import opened Opt
  import opened Seqs
  import opened Types

  // ---------------------------------------------------------------------------
  // Featured artist
  // ---------------------------------------------------------------------------

  /** The song belongs to the artist with id `artistId`. */
  predicate ByArtistId(artistId: int, p: Partition) {
    p.artistId == artistId
  }

  /** The artist has at least one song. */
  predicate HasSong(songs: seq<Partition>, a: Artist) {
    Any(songs, p => ByArtistId(a.id, p))
  }

  /** The featured artist and the songs shown for it. */
  datatype Featured = Featured(artist: Artist, songs: seq<Partition>)

  /** `Math.floor(r * n)` for `r` in [0, 1): an index below `n`. */
  function RandomIndex(r: real, n: nat): (i: nat)
    requires 0.0 <= r < 1.0 && n > 0
    ensures i < n
  {
    assert r * n as real < n as real by {
      assert (1.0 - r) * n as real > 0.0;
    }
    (r * n as real).Floor as nat
  }

  /**
   * The featured artist: drawn at the random index among the artists with at
   * least one song, with its first five songs in song-list order; nothing
   * when no artist has a song (the previous choice stays).
   */
  function PickFeatured(artists: seq<Artist>, songs: seq<Partition>, r: real): (f: Option<Featured>)
    requires 0.0 <= r < 1.0
    ensures f.Some? ==> f.value.artist in artists && HasSong(songs, f.value.artist)
    ensures f.Some? ==> 1 <= |f.value.songs| <= 5
    ensures f.Some? ==> f.value.songs == Take(Filter(songs, p => ByArtistId(f.value.artist.id, p)), 5)
  {
    if |artists| == 0 then None
    else
      var eligible := Filter(artists, a => HasSong(songs, a));
      if |eligible| == 0 then None
      else
        var a := eligible[RandomIndex(r, |eligible|)];
        var k :| 0 <= k < |songs| && ByArtistId(a.id, songs[k]);
        FilterComplete(songs, p => ByArtistId(a.id, p));
        Some(Featured(a, Take(Filter(songs, p => ByArtistId(a.id, p)), 5)))
  }

  /** No artist is featured exactly when no artist has a song. */
  lemma FeaturedIffSomeArtistHasSong(artists: seq<Artist>, songs: seq<Partition>, r: real)
    requires 0.0 <= r < 1.0
    ensures PickFeatured(artists, songs, r).None? <==> forall i :: 0 <= i < |artists| ==> !HasSong(songs, artists[i])
  {
    FilterComplete(artists, a => HasSong(songs, a));
    var eligible := Filter(artists, a => HasSong(songs, a));
    if |eligible| > 0 {
      assert eligible[0] in artists;
    }
  }

  /** Every artist with a song can be featured: some draw picks it. */
  lemma EveryEligibleArtistCanBeFeatured(artists: seq<Artist>, songs: seq<Partition>, j: nat)
    requires j < |Filter(artists, a => HasSong(songs, a))|
    ensures var n := |Filter(artists, a => HasSong(songs, a))|;
      PickFeatured(artists, songs, j as real / n as real).value.artist == Filter(artists, a => HasSong(songs, a))[j]
  {
    var n := |Filter(artists, a => HasSong(songs, a))|;
    var r := j as real / n as real;
    QuotientInUnit(j, n);
    assert RandomIndex(r, n) == j;
  }

  /** The draw `j / n` for an index below `n` lies in [0, 1) and scales back to `j`. */
  lemma QuotientInUnit(j: nat, n: nat)
    requires j < n
    ensures 0.0 <= j as real / n as real < 1.0
    ensures (j as real / n as real) * n as real == j as real
  {
    var r := j as real / n as real;
    assert r * n as real == j as real;
    assert (1.0 - r) * n as real == (n - j) as real;
  }

  // ---------------------------------------------------------------------------
  // Ranking fallbacks
  // ---------------------------------------------------------------------------

  /** The number of songs each pane lists at most. */
  const PaneSize := 10

  /** `[...s].sort(by key).slice(0, n)`: the first `n` after a stable sort by ascending key. */
  function TopBy<T>(s: seq<T>, key: T -> int, n: nat): (r: seq<T>)
    ensures |r| == if n < |s| then n else |s|
    ensures SortedBy(r, key)
    ensures multiset(r) <= multiset(s)
  {
    var sorted := SortBy(s, key);
    SortByPerm(s, key);
    TakeAndRest(sorted, n);
    Take(sorted, n)
  }

  /** A prefix and the rest after it together hold the elements of the whole. */
  lemma TakeAndRest<T>(s: seq<T>, n: nat)
    ensures multiset(Take(s, n)) + multiset(if n < |s| then s[n..] else []) == multiset(s)
  {
    if n < |s| {
      assert s == s[..n] + s[n..];
    }
  }

  /** What the ranking leaves out: the sorted elements after the first `n`. */
  function RestBy<T>(s: seq<T>, key: T -> int, n: nat): seq<T> {
    var sorted := SortBy(s, key);
    if n < |sorted| then sorted[n..] else []
  }

  /**
   * The listed and the left-out elements together are exactly the input, and
   * nothing left out ranks before anything listed.
   */
  lemma TopByPartition<T>(s: seq<T>, key: T -> int, n: nat)
    ensures multiset(TopBy(s, key, n)) + multiset(RestBy(s, key, n)) == multiset(s)
    ensures forall j, k :: 0 <= j < |RestBy(s, key, n)| && 0 <= k < |TopBy(s, key, n)| ==>
      key(TopBy(s, key, n)[k]) <= key(RestBy(s, key, n)[j])
  {
    var sorted := SortBy(s, key);
    SortByPerm(s, key);
    TakeAndRest(sorted, n);
    if n < |sorted| {
      assert forall j :: 0 <= j < |sorted| - n ==> sorted[n..][j] == sorted[n + j];
    }
  }

  /** The popular fallback's sort key: more views first. */
  function ViewsKey(p: Partition): int {
    -p.views
  }

  /** The recent fallback's sort key: newest first, a missing date counting as the epoch. */
  function RecentKey(p: Partition): int {
    -p.createdAt.GetOr(0)
  }

  /** The popular fallback: at most ten songs, by non-increasing views. */
  function PopularFallback(songs: seq<Partition>): (r: seq<Partition>)
    ensures |r| <= PaneSize && (|songs| >= PaneSize ==> |r| == PaneSize) && (|songs| < PaneSize ==> |r| == |songs|)
    ensures forall i, j :: 0 <= i < j < |r| ==> r[i].views >= r[j].views
  {
    var r := TopBy(songs, ViewsKey, PaneSize);
    assert forall i, j :: 0 <= i < j < |r| ==> ViewsKey(r[i]) <= ViewsKey(r[j]);
    r
  }

  /** The recent fallback: at most ten songs, newest first, undated songs counting as the oldest possible date. */
  function RecentFallback(songs: seq<Partition>): (r: seq<Partition>)
    ensures |r| <= PaneSize && (|songs| >= PaneSize ==> |r| == PaneSize) && (|songs| < PaneSize ==> |r| == |songs|)
    ensures forall i, j :: 0 <= i < j < |r| ==> r[i].createdAt.GetOr(0) >= r[j].createdAt.GetOr(0)
  {
    var r := TopBy(songs, RecentKey, PaneSize);
    assert forall i, j :: 0 <= i < j < |r| ==> RecentKey(r[i]) <= RecentKey(r[j]);
    r
  }

  /** The popular fallback lists songs of the input, and every song it leaves out has no more views than any it lists. */
  lemma PopularFallbackIsTop(songs: seq<Partition>)
    ensures multiset(PopularFallback(songs)) <= multiset(songs)
    ensures forall j, k :: 0 <= j < |RestBy(songs, ViewsKey, PaneSize)| && 0 <= k < |PopularFallback(songs)| ==>
      RestBy(songs, ViewsKey, PaneSize)[j].views <= PopularFallback(songs)[k].views
  {
    TopByPartition(songs, ViewsKey, PaneSize);
  }

  /** The recent fallback lists songs of the input, and every song it leaves out is no newer than any it lists. */
  lemma RecentFallbackIsTop(songs: seq<Partition>)
    ensures multiset(RecentFallback(songs)) <= multiset(songs)
    ensures forall j, k :: 0 <= j < |RestBy(songs, RecentKey, PaneSize)| && 0 <= k < |RecentFallback(songs)| ==>
      RestBy(songs, RecentKey, PaneSize)[j].createdAt.GetOr(0) <= RecentFallback(songs)[k].createdAt.GetOr(0)
  {
    TopByPartition(songs, RecentKey, PaneSize);
  }

  // ---------------------------------------------------------------------------
  // Selecting a song from the page
  // ---------------------------------------------------------------------------

  /**
   * `handleSongSelect(songId, artistId)`: the index of the first artist with
   * that id in the full artist list, and the index of the song among that
   * artist's songs; nothing when either is missing.
   */
  function HomeSelection(artists: seq<Artist>, songs: seq<Partition>, songId: int, artistId: int): (r: Option<(int, int)>)
    ensures r.Some? ==> 0 <= r.value.0 < |artists| && artists[r.value.0].id == artistId
    ensures r.Some? ==> var own := Filter(songs, p => ByArtistId(artistId, p));
      0 <= r.value.1 < |own| && own[r.value.1].id == songId
    ensures r.None? <==>
      (forall i :: 0 <= i < |artists| ==> artists[i].id != artistId)
      || (forall k :: 0 <= k < |songs| ==> !(songs[k].artistId == artistId && songs[k].id == songId))
  {
    var own := Filter(songs, p => ByArtistId(artistId, p));
    FilterComplete(songs, p => ByArtistId(artistId, p));
    match FindIndex(artists, (a: Artist) => a.id == artistId)
    case None => None
    case Some(ai) =>
      match FindIndex(own, (p: Partition) => p.id == songId)
      case None =>
        assert forall k :: 0 <= k < |songs| ==> !(songs[k].artistId == artistId && songs[k].id == songId) by {
          forall k | 0 <= k < |songs| && songs[k].artistId == artistId ensures songs[k].id != songId {
            assert songs[k] in own;
          }
        }
        None
      case Some(si) => Some((ai, si))
  }

  /** The selection is the first matching artist and the first matching song of that artist. */
  lemma HomeSelectionFirst(artists: seq<Artist>, songs: seq<Partition>, songId: int, artistId: int)
    requires HomeSelection(artists, songs, songId, artistId).Some?
    ensures var r := HomeSelection(artists, songs, songId, artistId).value;
      (forall i :: 0 <= i < r.0 ==> artists[i].id != artistId)
      && var own := Filter(songs, p => ByArtistId(artistId, p));
         forall k :: 0 <= k < r.1 ==> own[k].id != songId
  {
  }

  // ---------------------------------------------------------------------------
  // Date label and panes
  // ---------------------------------------------------------------------------

  /** The date column: "Date inconnue" for an empty date, otherwise the browser's French rendering of it. */
  datatype DateLabel = Text(text: string) | Localized(date: string)

  /** `formatDate(dateStr)`. */
  function FormatDate(dateStr: string): (l: DateLabel)
    ensures dateStr == "" <==> l == Text("Date inconnue")
    ensures dateStr != "" ==> l == Localized(dateStr)
  {
    if dateStr == "" then Text("Date inconnue") else Localized(dateStr)
  }

  /** The three loading flags, all set at first and each cleared when its loader finishes. */
  datatype Loading = Loading(artist: bool, recent: bool, popular: bool)

  const InitialLoading := Loading(true, true, true)
  const Loaded := Loading(false, false, false)

  /** What a song pane shows. */
  datatype PaneContent = Placeholder | SongList(songs: seq<Partition>) | NoSongs

  /**
   * A JavaScript object is always truthy: the condition the panes test is
   * the `loading` object itself, whatever its flags.
   */
  function ObjectTruthy(l: Loading): (b: bool)
    ensures b
  {
    true
  }

  /** The recent and popular panes as written: "Chargement..." while the object is truthy, else the list or its empty message. */
  function PaneAsWritten(l: Loading, list: seq<Partition>): (p: PaneContent)
    ensures p == Placeholder
  {
    if ObjectTruthy(l) then Placeholder
    else if |list| > 0 then SongList(list) else NoSongs
  }

  /** Even after every loader has finished with songs to show, the panes as written still show the placeholder. */
  lemma PanesStuckLoading(list: seq<Partition>)
    requires |list| > 0
    ensures PaneAsWritten(Loaded, list) == Placeholder
    ensures PaneAsWritten(Loaded, list) != SongList(list)
  {
  }

  /** The pane as evidently intended: the placeholder only while its own flag is set. */
  function Pane(loadingFlag: bool, list: seq<Partition>): (p: PaneContent)
    ensures p == Placeholder <==> loadingFlag
    ensures !loadingFlag && |list| > 0 ==> p == SongList(list)
    ensures !loadingFlag && |list| == 0 ==> p == NoSongs
  {
    if loadingFlag then Placeholder
    else if |list| > 0 then SongList(list) else NoSongs
  }

  /** Once the loaders finish, the corrected panes list the recent and popular songs. */
  lemma PanesShowSongsWhenLoaded(songs: seq<Partition>)
    requires |songs| > 0
    ensures Pane(Loaded.recent, RecentFallback(songs)) == SongList(RecentFallback(songs))
    ensures Pane(Loaded.popular, PopularFallback(songs)) == SongList(PopularFallback(songs))
  {
  }
}

=== FILE: js_string.dfy ===
/**
 * The JavaScript string operations the application relies on, with the
 * semantics of ECMA-262: `trim`, `toLowerCase` (restricted to ASCII letters),
 * `split` on a one-character separator, `includes`, `startsWith`, `indexOf`,
 * and the line terminators that a regular expression's `.` refuses to match.
 */
module JsString {
  import opened Opt
  import opened Seqs

  /** LineTerminator of ECMA-262 section 12.3: LF, CR, LINE SEPARATOR, PARAGRAPH SEPARATOR. */
  predicate IsLineTerminator(c: char) {
    c == '\n' || c == '\r' || c == '\U{2028}' || c == '\U{2029}'
  }

  /** WhiteSpace of ECMA-262 section 12.2: TAB, VT, FF, ZWNBSP and the space separators (category Zs). */
  predicate IsWhiteSpace(c: char) {
    || c == '\t' || c == '\U{000B}' || c == '\U{000C}' || c == '\U{FEFF}'
    || c == ' ' || c == '\U{00A0}' || c == '\U{1680}'
    || ('\U{2000}' <= c <= '\U{200A}')
    || c == '\U{202F}' || c == '\U{205F}' || c == '\U{3000}'
  }

  /** What `String.prototype.trim` strips (ECMA-262 section 22.1.3.32): white space and line terminators. */
  predicate IsTrimmable(c: char) {
    IsWhiteSpace(c) || IsLineTerminator(c)
  }

  /** No character of `s` is a line terminator, so a regular-expression `.` matches each of them. */
  predicate NoLineTerminator(s: string) {
    forall k :: 0 <= k < |s| ==> !IsLineTerminator(s[k])
  }

  /** The number of trimmable characters at the start of `s`. */
  function LeadingTrimmable(s: string): (n: nat)
    ensures n <= |s|
    ensures forall k :: 0 <= k < n ==> IsTrimmable(s[k])
    ensures n < |s| ==> !IsTrimmable(s[n])
    decreases |s|
  {
    if |s| == 0 || !IsTrimmable(s[0]) then 0
    else
      var m := LeadingTrimmable(s[1..]);
      assert forall k :: 1 <= k < m + 1 ==> s[k] == s[1..][k - 1];
      m + 1
  }

  /** The number of trimmable characters at the end of `s`. */
  function TrailingTrimmable(s: string): (n: nat)
    ensures n <= |s|
    ensures forall k :: |s| - n <= k < |s| ==> IsTrimmable(s[k])
    ensures n < |s| ==> !IsTrimmable(s[|s| - n - 1])
    decreases |s|
  {
    if |s| == 0 || !IsTrimmable(s[|s| - 1]) then 0
    else
      var m := TrailingTrimmable(s[..|s| - 1]);
      m + 1
  }

  /** `s.trim()`: the slice of `s` between its leading and its trailing trimmable characters. */
  function Trim(s: string): (r: string)
    ensures |r| <= |s|
  {
    var a := LeadingTrimmable(s);
    var t := s[a..];
    t[..|t| - TrailingTrimmable(t)]
  }

  /**
   * What `trim` keeps: a slice of `s` with only trimmable characters cut on
   * either side, and every one of them cut, so that the slice neither starts
   * nor ends with a trimmable character.
   */
  lemma TrimSpec(s: string)
    ensures LeadingTrimmable(s) + |Trim(s)| <= |s|
    ensures Trim(s) == s[LeadingTrimmable(s)..LeadingTrimmable(s) + |Trim(s)|]
    ensures forall k :: 0 <= k < LeadingTrimmable(s) ==> IsTrimmable(s[k])
    ensures forall k :: LeadingTrimmable(s) + |Trim(s)| <= k < |s| ==> IsTrimmable(s[k])
    ensures |Trim(s)| > 0 ==> !IsTrimmable(Trim(s)[0]) && !IsTrimmable(Trim(s)[|Trim(s)| - 1])
  {
    var a := LeadingTrimmable(s);
    var t := s[a..];
    var b := TrailingTrimmable(t);
    SliceOfSuffix(s, a, |t| - b);
    assert forall k :: |t| - b <= k < |t| ==> t[k] == s[a + k];
  }

  /** A prefix of a suffix is a slice. */
  lemma SliceOfSuffix(s: string, a: nat, n: nat)
    requires a + n <= |s|
    ensures s[a..][..n] == s[a..a + n]
  {
  }

  /**
   * The trimmed string neither starts nor ends with a trimmable character,
   * and it is empty exactly when `s` is all trimmable.
   */
  lemma TrimEnds(s: string)
    ensures |Trim(s)| > 0 ==> !IsTrimmable(Trim(s)[0]) && !IsTrimmable(Trim(s)[|Trim(s)| - 1])
    ensures Trim(s) == "" <==> forall k :: 0 <= k < |s| ==> IsTrimmable(s[k])
  {
    TrimSpec(s);
  }

  /** Characters of the trimmed string are characters of the original. */
  lemma TrimSubset(s: string, c: char)
    requires c !in s
    ensures c !in Trim(s)
  {
    TrimSpec(s);
    var a := LeadingTrimmable(s);
    forall q | 0 <= q < |Trim(s)| ensures Trim(s)[q] != c {
      assert Trim(s)[q] == s[a + q];
    }
  }

  /** Trimming a string that neither starts nor ends with a trimmable character leaves it alone. */
  lemma TrimUntrimmable(s: string)
    requires |s| > 0 ==> !IsTrimmable(s[0]) && !IsTrimmable(s[|s| - 1])
    ensures Trim(s) == s
  {
    if |s| > 0 {
      assert LeadingTrimmable(s) == 0;
      assert TrailingTrimmable(s) == 0;
    }
  }

  /** `trim` is idempotent. */
  lemma TrimIdempotent(s: string)
    ensures Trim(Trim(s)) == Trim(s)
  {
    TrimEnds(s);
    TrimUntrimmable(Trim(s));
  }

  /** The ASCII part of `toLowerCase`: 'A'..'Z' become 'a'..'z', every other character is kept. */
  function LowerChar(c: char): (d: char)
    ensures 'A' <= c <= 'Z' ==> 'a' <= d <= 'z' && d as int == c as int + 32
    ensures !('A' <= c <= 'Z') ==> d == c
  {
    if 'A' <= c <= 'Z' then (c as int + 32) as char else c
  }

  /** `s.toLowerCase()`, character by character (ASCII case mapping only). */
  function ToLower(s: string): (r: string)
    ensures |r| == |s|
    ensures forall k :: 0 <= k < |s| ==> r[k] == LowerChar(s[k])
  {
    Map(s, LowerChar)
  }

  /** Lower-casing commutes with concatenation. */
  lemma ToLowerConcat(a: string, b: string)
    ensures ToLower(a + b) == ToLower(a) + ToLower(b)
  {
  }

  /** `sub` occurs in `s` starting at index `k`. */
  predicate OccursAt(s: string, sub: string, k: nat) {
    k + |sub| <= |s| && s[k..k + |sub|] == sub
  }

  /** `s.startsWith(p)`. */
  predicate StartsWith(s: string, p: string) {
    OccursAt(s, p, 0)
  }

  /** The first occurrence of `sub` in `s` at or after `from`, or -1. */
  function IndexOfFrom(s: string, sub: string, from: nat): (r: int)
    requires from <= |s|
    ensures r == -1 || from <= r <= |s| - |sub|
    ensures r >= 0 ==> OccursAt(s, sub, r)
    ensures r >= 0 ==> forall k :: from <= k < r ==> !OccursAt(s, sub, k)
    ensures r == -1 ==> forall k :: from <= k <= |s| ==> !OccursAt(s, sub, k)
    decreases |s| - from
  {
    if OccursAt(s, sub, from) then from
    else if from == |s| then -1
    else IndexOfFrom(s, sub, from + 1)
  }

  /** `s.indexOf(sub)`. */
  function IndexOf(s: string, sub: string): (r: int)
    ensures r == -1 || 0 <= r <= |s| - |sub|
    ensures r >= 0 ==> OccursAt(s, sub, r) && forall k :: 0 <= k < r ==> !OccursAt(s, sub, k)
    ensures r == -1 <==> forall k :: 0 <= k <= |s| ==> !OccursAt(s, sub, k)
  {
    IndexOfFrom(s, sub, 0)
  }

  /** `s.includes(sub)`: some occurrence exists. */
  predicate Includes(s: string, sub: string) {
    IndexOf(s, sub) >= 0
  }

  /** A prefix is found at index 0, so `indexOf` of a prefix is 0. */
  lemma IndexOfPrefix(s: string, p: string)
    requires StartsWith(s, p)
    ensures IndexOf(s, p) == 0
  {
  }

  /** Every string includes itself as a suffix of any extension, in particular `s + t` includes `t`. */
  lemma IncludesSuffix(s: string, t: string)
    ensures Includes(s + t, t)
  {
    assert OccursAt(s + t, t, |s|) by {
      assert (s + t)[|s|..|s| + |t|] == t;
    }
  }

  /** An occurrence in `s` is still an occurrence in `s + t`. */
  lemma IncludesExtend(s: string, t: string, sub: string)
    requires Includes(s, sub)
    ensures Includes(s + t, sub)
  {
    var k := IndexOf(s, sub);
    assert (s + t)[k..k + |sub|] == s[k..k + |sub|];
    assert OccursAt(s + t, sub, k);
  }

  /** Every string includes the empty string. */
  lemma IncludesEmpty(s: string)
    ensures Includes(s, "")
  {
    assert OccursAt(s, "", 0);
  }

  /** `parts.join(sep)`. */
  function Join(parts: seq<string>, sep: char): string
    requires |parts| >= 1
    decreases |parts|
  {
    if |parts| == 1 then parts[0] else parts[0] + [sep] + Join(parts[1..], sep)
  }

  /** `s.split(sep)` for a one-character separator: the pieces between separators, at least one. */
  function Split(s: string, sep: char): (parts: seq<string>)
    ensures |parts| >= 1
    ensures forall i :: 0 <= i < |parts| ==> sep !in parts[i]
    ensures Join(parts, sep) == s
    ensures sep !in s ==> parts == [s]
    decreases |s|
  {
    match FindIndex(s, c => c == sep)
    case None => [s]
    case Some(k) =>
      var rest := Split(s[k + 1..], sep);
      assert sep !in s[..k] by {
        forall m | 0 <= m < k ensures s[..k][m] != sep { assert s[..k][m] == s[m]; }
      }
      assert s == s[..k] + [sep] + s[k + 1..];
      [s[..k]] + rest
  }

  /** The other half of the round trip: splitting a join of separator-free parts gives the parts back. */
  lemma {:induction false} SplitJoin(parts: seq<string>, sep: char)
    requires |parts| >= 1
    requires forall i :: 0 <= i < |parts| ==> sep !in parts[i]
    ensures Split(Join(parts, sep), sep) == parts
    decreases |parts|
  {
    if |parts| > 1 {
      SplitJoin(parts[1..], sep);
      SplitAfterPiece(parts[0], Join(parts[1..], sep), sep);
    }
  }

  /** Splitting `w + sep + rest` where `w` has no separator yields `w` followed by the pieces of `rest`. */
  lemma SplitAfterPiece(w: string, rest: string, sep: char)
    requires sep !in w
    ensures Split(w + [sep] + rest, sep) == [w] + Split(rest, sep)
  {
    var s := w + [sep] + rest;
    var f := FindIndex(s, c => c == sep);
    assert s[|w|] == sep;
    assert forall m :: 0 <= m < |w| ==> s[m] == w[m];
    assert f == Some(|w|);
    assert s[..|w|] == w;
    assert s[|w| + 1..] == rest;
  }

  /** The decimal digits of `n`, most significant first. */
  function Digits(n: nat): (r: string)
    ensures |r| >= 1
    ensures forall k :: 0 <= k < |r| ==> '0' <= r[k] <= '9'
    decreases n
  {
    var d := ['0' + (n % 10) as char];
    if n < 10 then d else Digits(n / 10) + d
  }

  /** `String(n)` for an integer: a minus sign for a negative one, then the digits. */
  function IntText(n: int): (r: string)
    ensures |r| >= 1
    ensures r[0] == '-' <==> n < 0
  {
    if n < 0 then "-" + Digits(-n) else Digits(n)
  }
}

=== FILE: lyrics.dfy ===
/**
 * The lyrics segmenter and renderer rules of `src/components/viewer/Lyrics.tsx`.
 *
 * The lyric text is split on '\n' into raw lines. A raw line whose trimmed form
 * is `[key]` opens a block that runs up to the next such line or the end of
 * the text; every other line met outside a block is a `text` segment of its own.
 * A block whose key reads as an instrumental part becomes a chord grid (trimmed,
 * non-empty lines), any other block a lyric section (raw lines kept verbatim).
 */
module Lyrics {
  import opened Opt
  import opened Seqs
  import opened JsString

  datatype Segment =
    | Text(line: string)
    | Section(key: string, lines: seq<string>)
    | Instrumental(key: string, lines: seq<string>)
  {
    /** Sections and instrumental grids are blocks; text lines are not. */
    predicate IsBlock() {
      !Text?
    }
  }

  /** The marker line written for a block key. */
  function MarkerText(key: string): string {
    "[" + key + "]"
  }

  /**
   * `t.match(/^\[(.*?)\]$/)` on a trimmed line, giving capture group 1. The
   * `.` of a regular expression refuses line terminators, so a key containing
   * one does not match. The block-end test `/^\[.*\]$/` accepts exactly the
   * same strings (the lazy and greedy forms differ only in how they search).
   */
  function MatchMarker(t: string): (r: Option<string>)
    ensures r.Some? ==> t == MarkerText(r.value) && NoLineTerminator(r.value)
    ensures r.None? ==> forall key :: NoLineTerminator(key) ==> t != MarkerText(key)
  {
    if |t| >= 2 && t[0] == '[' && t[|t| - 1] == ']' && NoLineTerminator(t[1..|t| - 1]) then Some(t[1..|t| - 1])
    else None
  }

  /**
   * Round trip with the marker text: a match gives back the key the line was
   * written from, and every key free of line terminators is recovered.
   */
  lemma MatchMarkerRoundTrip(t: string, key: string)
    ensures MatchMarker(t) == Some(key) ==> t == MarkerText(key) && NoLineTerminator(key)
    ensures t == MarkerText(key) && NoLineTerminator(key) ==> MatchMarker(t) == Some(key)
  {
    if MatchMarker(t) == Some(key) {
      assert t == "[" + t[1..|t| - 1] + "]";
    }
    if t == MarkerText(key) {
      assert t[1..|t| - 1] == key;
    }
  }

  /** The key a raw line opens a block with, when its trimmed form is a marker. */
  function LineKey(line: string): Option<string> {
    MatchMarker(Trim(line))
  }

  /** The key of every raw line, in order. */
  function LineKeys(raw: seq<string>): (keys: seq<Option<string>>)
    ensures |keys| == |raw|
    decreases |raw|
  {
    if |raw| == 0 then [] else [LineKey(raw[0])] + LineKeys(raw[1..])
  }

  /** Entry `k` of the keys is the key of line `k`. */
  lemma {:induction false} LineKeysAt(raw: seq<string>, k: nat)
    requires k < |raw|
    ensures LineKeys(raw)[k] == LineKey(raw[k])
    decreases k
  {
    if k > 0 {
      LineKeysAt(raw[1..], k - 1);
    }
  }

  /**
   * A block is an instrumental grid when its lower-cased key contains
   * "instrumental" or is exactly "intro" or "outro".
   */
  predicate IsInstrumentalKey(key: string) {
    var lower := ToLower(key);
    Includes(lower, "instrumental") || lower == "intro" || lower == "outro"
  }

  /**
   * Of the bare keys only the exact words "intro" and "outro" count, in any case: a numbered
   * intro is an ordinary section, and "instrumental" counts anywhere in the key.
   */
  lemma IntroOutroKeys()
    ensures IsInstrumentalKey("Intro") && IsInstrumentalKey("OUTRO")
    ensures !IsInstrumentalKey("Intro 2")
  {
    assert ToLower("Intro") == "intro";
    assert ToLower("OUTRO") == "outro";
    assert ToLower("Intro 2") == "intro 2";
  }

  /** The test ignores case: a key and its lower-cased form are instrumental together. */
  lemma InstrumentalIgnoresCase(key: string)
    ensures IsInstrumentalKey(ToLower(key)) <==> IsInstrumentalKey(key)
  {
    var lower := ToLower(key);
    assert ToLower(lower) == lower by {
      forall k | 0 <= k < |lower| ensures ToLower(lower)[k] == lower[k] {
        assert lower[k] == LowerChar(key[k]);
      }
    }
  }

  /** A key naming an instrumental part anywhere is an instrumental grid. */
  lemma InstrumentalAnywhere()
    ensures IsInstrumentalKey("Solo Instrumental")
  {
    var lower := ToLower("Solo Instrumental");
    assert lower == "solo instrumental";
    assert OccursAt(lower, "instrumental", 5);
  }

  /** A line missing its closing bracket is text, and "[]" opens a block with the empty key. */
  lemma MarkerExamples()
    ensures MatchMarker("[Chorus").None?
    ensures MatchMarker("[]") == Some("")
  {
    assert "[]"[1..1] == "";
  }

  /**
   * The index of the first marker line at or after `j`, or the number of lines
   * when there is none; `keys` holds each raw line's key.
   */
  function BlockEnd(keys: seq<Option<string>>, j: nat): (e: nat)
    requires j <= |keys|
    ensures j <= e <= |keys|
    ensures forall k :: j <= k < e ==> keys[k].None?
    ensures e < |keys| ==> keys[e].Some?
    decreases |keys| - j
  {
    if j == |keys| || keys[j].Some? then j else BlockEnd(keys, j + 1)
  }

  /** Those two facts pin the block end down: any index with them is it. */
  lemma BlockEndUnique(keys: seq<Option<string>>, j: nat, e: nat)
    requires j <= e <= |keys|
    requires forall k :: j <= k < e ==> keys[k].None?
    requires e < |keys| ==> keys[e].Some?
    ensures BlockEnd(keys, j) == e
  {
  }

  /** Trimmed form of a raw line, as a value to map with. */
  function TrimLine(line: string): string {
    Trim(line)
  }

  /** Not the empty string, as a value to filter with. */
  predicate NonEmpty(line: string) {
    line != ""
  }

  /** The lines an instrumental block keeps: each body line trimmed, the empty ones dropped. */
  function GridLines(body: seq<string>): (r: seq<string>)
    ensures |r| <= |body|
    ensures forall k :: 0 <= k < |r| ==> r[k] != "" && Trim(r[k]) == r[k]
  {
    var r := Filter(Map(body, TrimLine), NonEmpty);
    assert forall k :: 0 <= k < |r| ==> Trim(r[k]) == r[k] by {
      forall k | 0 <= k < |r| ensures Trim(r[k]) == r[k] {
        var m :| 0 <= m < |body| && Map(body, TrimLine)[m] == r[k];
        TrimIdempotent(body[m]);
      }
    }
    r
  }

  /** Extending the body by one line extends the grid by that line's trimmed form when it is non-empty. */
  lemma GridLinesSnoc(body: seq<string>, line: string)
    ensures GridLines(body + [line]) == GridLines(body) + (if Trim(line) != "" then [Trim(line)] else [])
  {
    assert Map(body + [line], TrimLine) == Map(body, TrimLine) + [Trim(line)];
    FilterSnoc(Map(body, TrimLine), Trim(line), NonEmpty);
  }

  /** The grid lines of one more body line: its trimmed form joins them unless it is blank. */
  lemma GridLinesStep(raw: seq<string>, start: nat, j: nat)
    requires start <= j < |raw|
    ensures GridLines(raw[start..j + 1]) == GridLines(raw[start..j]) + (if Trim(raw[j]) != "" then [Trim(raw[j])] else [])
  {
    SliceSnoc(raw, start, j);
    GridLinesSnoc(raw[start..j], raw[j]);
  }

  /** The segment a block with this key and these body lines becomes. */
  function MakeBlock(key: string, body: seq<string>): Segment {
    if IsInstrumentalKey(key) then Instrumental(key, GridLines(body)) else Section(key, body)
  }

  /**
   * The segments of the raw lines from index `i` on, the scan of the source's
   * outer loop; `keys[k]` is `LineKey(raw[k])`.
   */
  function ScanFrom(raw: seq<string>, keys: seq<Option<string>>, i: nat): (r: seq<Segment>)
    requires |keys| == |raw| && i <= |raw|
    ensures |r| <= |raw| - i
    ensures i < |raw| ==> |r| >= 1
    decreases |raw| - i
  {
    if i == |raw| then []
    else
      match keys[i]
      case Some(key) =>
        var j := BlockEnd(keys, i + 1);
        [MakeBlock(key, raw[i + 1..j])] + ScanFrom(raw, keys, j)
      case None => [Text(raw[i])] + ScanFrom(raw, keys, i + 1)
  }

  /** The raw lines of the lyric text: `lyrics.split('\n')`. */
  function RawLines(lyrics: string): seq<string> {
    Split(lyrics, '\n')
  }

  /** The segments of a lyric text. */
  function Segments(lyrics: string): (r: seq<Segment>)
    ensures 1 <= |r| <= |RawLines(lyrics)|
  {
    var raw := RawLines(lyrics);
    ScanFrom(raw, LineKeys(raw), 0)
  }

  /**
   * The source's inner loop for an instrumental block: from `start`, collect
   * the trimmed non-empty lines up to the next marker line.
   */
  method CollectGrid(raw: seq<string>, keys: seq<Option<string>>, start: nat) returns (j: nat, grid: seq<string>)
    requires |keys| == |raw| && start <= |raw|
    ensures j == BlockEnd(keys, start)
    ensures grid == GridLines(raw[start..j])
  {
    j := start;
    grid := [];
    while j < |raw| && keys[j].None?
      invariant start <= j <= |raw|
      invariant forall k :: start <= k < j ==> keys[k].None?
      invariant grid == GridLines(raw[start..j])
      decreases |raw| - j
    {
      var line := Trim(raw[j]);
      GridLinesStep(raw, start, j);
      if line != "" {
        grid := grid + [line];
      }
      j := j + 1;
    }
    BlockEndUnique(keys, start, j);
  }

  /** The source's inner loop for a section: from `start`, skip to the next marker line. */
  method SkipToMarker(keys: seq<Option<string>>, start: nat) returns (j: nat)
    requires start <= |keys|
    ensures j == BlockEnd(keys, start)
  {
    j := start;
    while j < |keys| && keys[j].None?
      invariant start <= j <= |keys|
      invariant forall k :: start <= k < j ==> keys[k].None?
      decreases |keys| - j
    {
      j := j + 1;
    }
    BlockEndUnique(keys, start, j);
  }

  /** The source's outer loop over the raw lines (each line's key computed up front); it computes the segments. */
  method ParseLyrics(lyrics: string) returns (segs: seq<Segment>)
    ensures segs == Segments(lyrics)
  {
    var raw := Split(lyrics, '\n');
    var keys := LineKeys(raw);
    segs := [];
    var i := 0;
    while i < |raw|
      invariant 0 <= i <= |raw|
      invariant segs + ScanFrom(raw, keys, i) == ScanFrom(raw, keys, 0)
      decreases |raw| - i
    {
      var seg: Segment, next: nat;
      match keys[i] {
        case Some(key) =>
          if IsInstrumentalKey(key) {
            var grid;
            next, grid := CollectGrid(raw, keys, i + 1);
            seg := Instrumental(key, grid);
          } else {
            next := SkipToMarker(keys, i + 1);
            seg := Section(key, raw[i + 1..next]);
          }
          assert seg == MakeBlock(key, raw[i + 1..next]);
        case None =>
          seg, next := Text(raw[i]), i + 1;
      }
      assert i < next <= |raw|;
      ConcatAssoc(segs, [seg], ScanFrom(raw, keys, next));
      segs, i := segs + [seg], next;
    }
  }

  // ---------------------------------------------------------------------------
  // The partition of the raw lines: one span of line indices per segment.

  /** The half-open range of raw-line indices each segment consumes, in order, from index `i` on. */
  function SpansFrom(keys: seq<Option<string>>, i: nat): seq<(nat, nat)>
    requires i <= |keys|
    decreases |keys| - i
  {
    if i == |keys| then []
    else if keys[i].Some? then
      var j := BlockEnd(keys, i + 1);
      [(i, j)] + SpansFrom(keys, j)
    else [(i, i + 1)] + SpansFrom(keys, i + 1)
  }

  /** The spans cover `lo..hi` end to end, each non-empty, without gaps or overlaps. */
  ghost predicate Tiles(spans: seq<(nat, nat)>, lo: nat, hi: nat) {
    && (|spans| == 0 ==> lo == hi)
    && (|spans| > 0 ==> spans[0].0 == lo && spans[|spans| - 1].1 == hi)
    && (forall k :: 0 <= k < |spans| ==> spans[k].0 < spans[k].1)
    && (forall k :: 0 <= k < |spans| - 1 ==> spans[k].1 == spans[k + 1].0)
  }

  /** A span is one non-marker line, or a marker line followed by the non-marker lines up to the next marker. */
  ghost predicate WellFormedSpan(keys: seq<Option<string>>, sp: (nat, nat)) {
    && sp.0 < sp.1 <= |keys|
    && (keys[sp.0].None? ==> sp.1 == sp.0 + 1)
    && (forall k :: sp.0 < k < sp.1 ==> keys[k].None?)
    && (keys[sp.0].Some? ==> sp.1 == |keys| || keys[sp.1].Some?)
  }

  /** The segment a span stands for. */
  function SpanSegment(raw: seq<string>, keys: seq<Option<string>>, sp: (nat, nat)): Segment
    requires |keys| == |raw| && WellFormedSpan(keys, sp)
  {
    match keys[sp.0]
    case Some(key) => MakeBlock(key, raw[sp.0 + 1..sp.1])
    case None => Text(raw[sp.0])
  }

  /** Where the span starting at line `i` ends. */
  function SpanEnd(keys: seq<Option<string>>, i: nat): (j: nat)
    requires i < |keys|
    ensures i < j <= |keys|
  {
    if keys[i].Some? then BlockEnd(keys, i + 1) else i + 1
  }

  /** One step of the spans: the span at `i`, then the spans from its end. */
  lemma SpansStep(keys: seq<Option<string>>, i: nat)
    requires i < |keys|
    ensures var j := SpanEnd(keys, i); var spans := SpansFrom(keys, i);
      && |spans| == 1 + |SpansFrom(keys, j)| && spans[0] == (i, j)
      && forall k :: 1 <= k < |spans| ==> spans[k] == SpansFrom(keys, j)[k - 1]
  {
  }

  /** One step of the scan: the segment at `i`, then the segments from the end of its span. */
  lemma ScanStep(raw: seq<string>, keys: seq<Option<string>>, i: nat)
    requires |keys| == |raw| && i < |raw|
    ensures var j := SpanEnd(keys, i); var segs := ScanFrom(raw, keys, i);
      && |segs| == 1 + |ScanFrom(raw, keys, j)|
      && segs[0] == (match keys[i] case Some(key) => MakeBlock(key, raw[i + 1..j]) case None => Text(raw[i]))
      && forall k :: 1 <= k < |segs| ==> segs[k] == ScanFrom(raw, keys, j)[k - 1]
  {
  }

  /** The spans tile the lines from `i` to the end. */
  lemma {:induction false} SpansTile(keys: seq<Option<string>>, i: nat)
    requires i <= |keys|
    ensures Tiles(SpansFrom(keys, i), i, |keys|)
    decreases |keys| - i
  {
    if i < |keys| {
      var j := SpanEnd(keys, i);
      SpansTile(keys, j);
      SpansStep(keys, i);
    }
  }

  /** Each span is well formed: a block runs exactly up to the next marker line. */
  lemma {:induction false} SpansWellFormed(keys: seq<Option<string>>, i: nat)
    requires i <= |keys|
    ensures forall k :: 0 <= k < |SpansFrom(keys, i)| ==> WellFormedSpan(keys, SpansFrom(keys, i)[k])
    decreases |keys| - i
  {
    if i < |keys| {
      var j := SpanEnd(keys, i);
      SpansWellFormed(keys, j);
      SpansStep(keys, i);
      assert WellFormedSpan(keys, (i, j));
    }
  }

  /** The segments are the spans' segments, one for one and in order. */
  lemma {:induction false} ScanBySpans(raw: seq<string>, keys: seq<Option<string>>, i: nat)
    requires |keys| == |raw| && i <= |raw|
    ensures |ScanFrom(raw, keys, i)| == |SpansFrom(keys, i)|
    ensures forall k :: 0 <= k < |SpansFrom(keys, i)| ==> WellFormedSpan(keys, SpansFrom(keys, i)[k])
    ensures forall k :: 0 <= k < |ScanFrom(raw, keys, i)| ==>
      ScanFrom(raw, keys, i)[k] == SpanSegment(raw, keys, SpansFrom(keys, i)[k])
    decreases |raw| - i
  {
    SpansWellFormed(keys, i);
    if i < |raw| {
      var j := SpanEnd(keys, i);
      ScanBySpans(raw, keys, j);
      SpansStep(keys, i);
      ScanStep(raw, keys, i);
    }
  }

  /** Every raw line lies in exactly one span. */
  lemma SpansCoverOnce(spans: seq<(nat, nat)>, lo: nat, hi: nat, x: nat)
    requires Tiles(spans, lo, hi) && lo <= x < hi
    ensures exists k :: 0 <= k < |spans| && spans[k].0 <= x < spans[k].1
    ensures forall k, m :: (0 <= k < |spans| && 0 <= m < |spans| && spans[k].0 <= x < spans[k].1 &&
      spans[m].0 <= x < spans[m].1) ==> k == m
  {
    SpanStartsIncrease(spans, lo, hi);
    var k := 0;
    while spans[k].1 <= x
      invariant 0 <= k < |spans| && spans[k].0 <= x
      decreases |spans| - k
    {
      k := k + 1;
    }
  }

  /** Along a tiling, a span ends no later than any later span starts. */
  lemma SpanStartsIncrease(spans: seq<(nat, nat)>, lo: nat, hi: nat)
    requires Tiles(spans, lo, hi)
    ensures forall k, m :: 0 <= k < m < |spans| ==> spans[k].1 <= spans[m].0
  {
    forall k, m | 0 <= k < m < |spans| ensures spans[k].1 <= spans[m].0 {
      var n := k + 1;
      while n < m
        invariant k + 1 <= n <= m
        invariant spans[k].1 <= spans[n].0
        decreases m - n
      {
        n := n + 1;
      }
    }
  }

  /** The scan from a marker line (or from the end) yields only blocks. */
  lemma {:induction false} BlocksFromMarker(raw: seq<string>, keys: seq<Option<string>>, i: nat)
    requires |keys| == |raw| && i <= |raw|
    requires i < |raw| ==> keys[i].Some?
    ensures forall k :: 0 <= k < |ScanFrom(raw, keys, i)| ==> ScanFrom(raw, keys, i)[k].IsBlock()
    decreases |raw| - i
  {
    if i < |raw| {
      BlocksFromMarker(raw, keys, BlockEnd(keys, i + 1));
    }
  }

  /** Once a block has been seen every later segment is a block, so all text lines come first. */
  lemma {:induction false} TextBeforeBlocks(raw: seq<string>, keys: seq<Option<string>>, i: nat)
    requires |keys| == |raw| && i <= |raw|
    ensures forall a, b :: 0 <= a < b < |ScanFrom(raw, keys, i)| && ScanFrom(raw, keys, i)[a].IsBlock() ==>
      ScanFrom(raw, keys, i)[b].IsBlock()
    decreases |raw| - i
  {
    if i < |raw| {
      var segs := ScanFrom(raw, keys, i);
      if keys[i].Some? {
        BlocksFromMarker(raw, keys, i);
      } else {
        TextBeforeBlocks(raw, keys, i + 1);
        var rest := ScanFrom(raw, keys, i + 1);
        assert segs == [Text(raw[i])] + rest;
        forall a, b | 0 <= a < b < |segs| && segs[a].IsBlock() ensures segs[b].IsBlock() {
          assert segs[a] == rest[a - 1];
          assert segs[b] == rest[b - 1];
        }
      }
    }
  }

  /** Lines without markers yield one text segment per line, in order. */
  lemma {:induction false} NoMarkersAllText(raw: seq<string>, keys: seq<Option<string>>, i: nat)
    requires |keys| == |raw| && i <= |raw|
    requires forall k :: i <= k < |raw| ==> keys[k].None?
    ensures |ScanFrom(raw, keys, i)| == |raw| - i
    ensures forall k :: 0 <= k < |raw| - i ==> ScanFrom(raw, keys, i)[k] == Text(raw[i + k])
    decreases |raw| - i
  {
    if i < |raw| {
      NoMarkersAllText(raw, keys, i + 1);
      var rest := ScanFrom(raw, keys, i + 1);
      assert ScanFrom(raw, keys, i) == [Text(raw[i])] + rest;
    }
  }

  /** A lyric text without marker lines renders line by line. */
  lemma NoMarkerLyrics(lyrics: string)
    requires forall k :: 0 <= k < |RawLines(lyrics)| ==> LineKey(RawLines(lyrics)[k]).None?
    ensures |Segments(lyrics)| == |RawLines(lyrics)|
    ensures forall k :: 0 <= k < |Segments(lyrics)| ==> Segments(lyrics)[k] == Text(RawLines(lyrics)[k])
  {
    var raw := RawLines(lyrics);
    forall k | 0 <= k < |raw| ensures LineKeys(raw)[k].None? {
      LineKeysAt(raw, k);
    }
    NoMarkersAllText(raw, LineKeys(raw), 0);
  }

  /** The empty text is one empty line, hence one empty text segment (not zero segments). */
  lemma EmptyLyrics()
    ensures Segments("") == [Text("")]
  {
    assert RawLines("") == [""];
    assert LineKey("") == None;
  }

  /**
   * A marker line opens a block whose body is the raw lines up to the next
   * marker: kept verbatim (blank lines included) for a section, trimmed with
   * the empty ones dropped for an instrumental grid.
   */
  lemma BlockAtMarker(raw: seq<string>, i: nat, key: string)
    requires i < |raw|
    requires Trim(raw[i]) == MarkerText(key) && NoLineTerminator(key)
    ensures ScanFrom(raw, LineKeys(raw), i)[0] ==
      (if IsInstrumentalKey(key) then Instrumental(key, GridLines(raw[i + 1..BlockEnd(LineKeys(raw), i + 1)]))
       else Section(key, raw[i + 1..BlockEnd(LineKeys(raw), i + 1)]))
  {
    MatchMarkerRoundTrip(Trim(raw[i]), key);
    LineKeysAt(raw, i);
  }

  // ---------------------------------------------------------------------------
  // Rendering rules.

  /** `sectionMap`: the French display names of the known section words. */
  const SectionNames: map<string, string> := map[
    "Intro" := "Intro",
    "Verse" := "Couplet",
    "Pre-Chorus" := "Pré-Refrain",
    "Chorus" := "Refrain",
    "Post-Chorus" := "Post-Refrain",
    "Bridge" := "Bridge",
    "Interlude" := "Interlude",
    "Instrumental" := "Instrumental",
    "Outro" := "Outro"
  ]

  /** `sectionMap[w] || w`: a known word is translated, any other word passes through. */
  function TranslateWord(w: string): string {
    if w in SectionNames then SectionNames[w] else w
  }

  /**
   * The label of a block: the key split on ' ', the first part translated,
   * then the second part after a space when it is non-empty; later parts are
   * not shown.
   */
  function SectionLabel(key: string): (shown: string)
    ensures ' ' !in key ==> shown == TranslateWord(key)
  {
    LabelOf(Split(key, ' '))
  }

  /** The label built from the space-separated parts of a key. */
  function LabelOf(parts: seq<string>): string
    requires |parts| >= 1
  {
    var base := TranslateWord(parts[0]);
    if |parts| > 1 && parts[1] != "" then base + " " + parts[1] else base
  }

  /** Splitting "w n" on spaces, when neither holds a space, gives the two words. */
  lemma SplitTwoWords(w: string, n: string)
    requires ' ' !in w && ' ' !in n
    ensures Split(w + " " + n, ' ') == [w, n]
  {
    assert w + " " + n == w + [' '] + n;
    SplitAfterPiece(w, n, ' ');
  }

  /** A one-word key shows as its translation. */
  lemma LabelOneWord(w: string)
    requires ' ' !in w
    ensures SectionLabel(w) == TranslateWord(w)
  {
    assert Split(w, ' ') == [w];
  }

  /** A key "word number" shows as the translated word, a space, and the number. */
  lemma LabelWordAndNumber(w: string, n: string)
    requires ' ' !in w && ' ' !in n && n != ""
    ensures SectionLabel(w + " " + n) == TranslateWord(w) + " " + n
  {
    SplitTwoWords(w, n);
  }

  /** Parts after the second never reach the label. */
  lemma LabelDropsLaterParts(w: string, n: string, rest: string)
    requires ' ' !in w && ' ' !in n
    ensures SectionLabel(w + " " + n + " " + rest) == SectionLabel(w + " " + n)
  {
    var p := Split(w + " " + n + " " + rest, ' ');
    assert |p| >= 2 && p[0] == w && p[1] == n by {
      var tail := n + [' '] + rest;
      assert w + " " + n + " " + rest == w + [' '] + tail;
      SplitAfterPiece(w, tail, ' ');
      SplitAfterPiece(n, rest, ' ');
    }
    var q := Split(w + " " + n, ' ');
    assert |q| == 2 && q[0] == w && q[1] == n by {
      SplitTwoWords(w, n);
    }
  }

  /** "Verse 2" is shown as "Couplet 2". */
  lemma LabelVerseExample()
    ensures SectionLabel("Verse 2") == "Couplet 2"
  {
    var verse, two := "Verse", "2";
    assert ' ' !in verse && ' ' !in two;
    LabelWordAndNumber(verse, two);
    assert verse + " " + two == "Verse 2";
    assert TranslateWord(verse) + " " + two == "Couplet 2" by {
      assert verse in SectionNames;
    }
  }

  /** A trimmed grid cell, as a value to map with. */
  function TrimCell(c: string): string {
    Trim(c)
  }

  /** A grid cell as it is shown: not empty, trimmed, and free of '|'. */
  predicate CleanCell(c: string) {
    c != "" && '|' !in c && Trim(c) == c
  }

  /** One grid row: the line split on '|', each cell trimmed, the empty cells dropped. */
  function GridRow(line: string): (row: seq<string>)
    ensures forall k :: 0 <= k < |row| ==> CleanCell(row[k])
  {
    CleanRow(Split(line, '|'))
  }

  /** The trimmed pieces that are not empty. */
  function CleanRow(pieces: seq<string>): (row: seq<string>)
    requires forall i :: 0 <= i < |pieces| ==> '|' !in pieces[i]
    ensures forall k :: 0 <= k < |row| ==> CleanCell(row[k])
  {
    CleanCells(pieces);
    Filter(Map(pieces, TrimCell), NonEmpty)
  }

  /**
   * The row holds exactly the trimmed pieces of the line that are not empty,
   * each once, in line order (`ks` are their positions among the pieces).
   */
  lemma GridRowKeepsPieces(line: string)
    ensures var pieces := Split(line, '|');
      var row := GridRow(line);
      var ks := Positions(Map(pieces, TrimCell), NonEmpty);
      && |row| == |ks| && Increasing(ks)
      && (forall j :: 0 <= j < |ks| ==> ks[j] < |pieces| && row[j] == Trim(pieces[ks[j]]))
      && (forall m :: 0 <= m < |pieces| ==> (Trim(pieces[m]) != "" <==> m in ks))
  {
    FilterSelects(Map(Split(line, '|'), TrimCell), NonEmpty);
  }

  /** The kept cells of '|'-free pieces are non-empty, trimmed and '|'-free. */
  lemma CleanCells(pieces: seq<string>)
    requires forall i :: 0 <= i < |pieces| ==> '|' !in pieces[i]
    ensures var row := Filter(Map(pieces, TrimCell), NonEmpty);
      forall k :: 0 <= k < |row| ==> CleanCell(row[k])
  {
    var cells := Map(pieces, TrimCell);
    var row := Filter(cells, NonEmpty);
    forall k | 0 <= k < |row| ensures CleanCell(row[k]) {
      var m :| 0 <= m < |cells| && cells[m] == row[k];
      TrimIdempotent(pieces[m]);
      TrimSubset(pieces[m], '|');
    }
  }

  /** Joining cells that are already clean with '|' and reading the row back gives the same cells. */
  lemma GridRowOfJoin(cells: seq<string>)
    requires |cells| >= 1
    requires forall k :: 0 <= k < |cells| ==> CleanCell(cells[k])
    ensures GridRow(Join(cells, '|')) == cells
  {
    SplitJoin(cells, '|');
    assert Map(cells, TrimCell) == cells;
    FilterKeepsAll(cells, NonEmpty);
  }

  /** The widest row's width (`Math.max(...rows.map(r => r.length))`), for a non-empty list of rows. */
  function NumCols(rows: seq<seq<string>>): (n: nat)
    requires |rows| > 0
    ensures forall k :: 0 <= k < |rows| ==> |rows[k]| <= n
    ensures exists k :: 0 <= k < |rows| && |rows[k]| == n
    decreases |rows|
  {
    if |rows| == 1 then |rows[0]|
    else
      var m := NumCols(rows[1..]);
      assert forall k :: 1 <= k < |rows| ==> rows[k] == rows[1..][k - 1];
      if |rows[0]| >= m then |rows[0]| else m
  }

  /** `row.concat(Array(n - row.length).fill(''))`. */
  function PadRow(row: seq<string>, n: nat): (r: seq<string>)
    requires |row| <= n
    ensures |r| == n
    ensures r[..|row|] == row
    ensures forall k :: |row| <= k < n ==> r[k] == ""
  {
    row + seq(n - |row|, _ => "")
  }

  /**
   * Every row padded with empty cells to the widest row's width, its own
   * cells first; with no rows there is nothing.
   */
  function PadRows(rows: seq<seq<string>>): (g: seq<seq<string>>)
    ensures |g| == |rows|
    ensures |rows| > 0 ==> forall r :: 0 <= r < |g| ==> |g[r]| == NumCols(rows)
    ensures forall r :: 0 <= r < |g| ==> |rows[r]| <= |g[r]| && g[r][..|rows[r]|] == rows[r]
    ensures forall r, c :: 0 <= r < |g| && |rows[r]| <= c < |g[r]| ==> g[r][c] == ""
  {
    if |rows| == 0 then []
    else
      var n := NumCols(rows);
      seq(|rows|, r requires 0 <= r < |rows| => PadRow(rows[r], n))
  }

  /** The cells of an instrumental grid, row by row: each line's cells padded to a common width. */
  function Grid(lines: seq<string>): (g: seq<seq<string>>)
    ensures |g| == |lines|
    ensures forall r, q :: 0 <= r < |g| && 0 <= q < |g| ==> |g[r]| == |g[q]|
    ensures forall r :: 0 <= r < |g| ==> |GridRow(lines[r])| <= |g[r]| && g[r][..|GridRow(lines[r])|] == GridRow(lines[r])
    ensures forall r, c :: 0 <= r < |g| && |GridRow(lines[r])| <= c < |g[r]| ==> g[r][c] == ""
  {
    PadRows(Map(lines, GridRow))
  }
}

=== FILE: opt.dfy ===
/** The optional value used wherever the source has `null`/`undefined`. */
module Opt {

  datatype Option<+T> = None | Some(value: T) {

    /** The value, or `default` when absent (the source's `x || default` on a value that is never falsy). */
    function GetOr(default: T): T {
      match this
      case Some(v) => v
      case None => default
    }
  }
}

=== FILE: seqs.dfy ===
/**
 * Sequence operations with the meaning of the JavaScript array methods the
 * application uses: `filter`, `map`, `findIndex`, `some`, `slice(0, n)`,
 * a stable `sort`, and the de-duplication done by `[...new Set(xs)]`.
 */
module Seqs {
  import opened Opt

  /** `xs.map(f)`. */
  function Map<T, U>(s: seq<T>, f: T -> U): (r: seq<U>)
    ensures |r| == |s|
    ensures forall k :: 0 <= k < |s| ==> r[k] == f(s[k])
  {
    seq(|s|, k requires 0 <= k < |s| => f(s[k]))
  }

  /** `xs.filter(p)`: the elements satisfying `p`, in their original order. */
  function Filter<T>(s: seq<T>, p: T -> bool): (r: seq<T>)
    ensures |r| <= |s|
    ensures forall k :: 0 <= k < |r| ==> r[k] in s && p(r[k])
    decreases |s|
  {
    if |s| == 0 then [] else (if p(s[0]) then [s[0]] else []) + Filter(s[1..], p)
  }

  /** Nothing that satisfies `p` is lost by the filter. */
  lemma {:induction false} FilterComplete<T>(s: seq<T>, p: T -> bool)
    ensures forall k :: 0 <= k < |s| && p(s[k]) ==> s[k] in Filter(s, p)
    decreases |s|
  {
    if |s| > 0 {
      FilterComplete(s[1..], p);
      assert forall k :: 1 <= k < |s| ==> s[k] == s[1..][k - 1];
    }
  }

  /** Filtering distributes over concatenation, which is what "in original order" means. */
  lemma {:induction false} FilterConcat<T>(a: seq<T>, b: seq<T>, p: T -> bool)
    ensures Filter(a + b, p) == Filter(a, p) + Filter(b, p)
    decreases |a|
  {
    if |a| == 0 {
      assert a + b == b;
    } else {
      assert (a + b)[1..] == a[1..] + b;
      FilterConcat(a[1..], b, p);
    }
  }

  /** A filter that rejects nothing returns its input unchanged. */
  lemma {:induction false} FilterKeepsAll<T>(s: seq<T>, p: T -> bool)
    requires forall k :: 0 <= k < |s| ==> p(s[k])
    ensures Filter(s, p) == s
    decreases |s|
  {
    if |s| > 0 {
      FilterKeepsAll(s[1..], p);
    }
  }

  /** Filtering a one-element extension adds that element exactly when it is kept. */
  lemma FilterSnoc<T>(s: seq<T>, x: T, p: T -> bool)
    ensures Filter(s + [x], p) == Filter(s, p) + (if p(x) then [x] else [])
  {
    FilterConcat(s, [x], p);
    assert Filter([x], p) == (if p(x) then [x] else []) + Filter([x][1..], p);
  }

  /** The positions of `s` whose element satisfies `p`, in increasing order. */
  function Positions<T>(s: seq<T>, p: T -> bool): (ks: seq<nat>)
    ensures forall j :: 0 <= j < |ks| ==> ks[j] < |s| && p(s[ks[j]])
    decreases |s|
  {
    if |s| == 0 then []
    else
      var rest := Positions(s[1..], p);
      (if p(s[0]) then [0] else []) + Shift(rest)
  }

  /** Every position moved one to the right. */
  function Shift(ks: seq<nat>): (r: seq<nat>)
    ensures |r| == |ks|
    ensures forall j :: 0 <= j < |ks| ==> r[j] == ks[j] + 1
  {
    seq(|ks|, j requires 0 <= j < |ks| => ks[j] + 1)
  }

  /** Strictly increasing positions. */
  ghost predicate Increasing(ks: seq<nat>) {
    forall j1, j2 :: 0 <= j1 < j2 < |ks| ==> ks[j1] < ks[j2]
  }

  /**
   * `filter` keeps exactly the satisfying elements, each once, in their
   * original order: element `j` of the result is element `ks[j]` of the
   * input, where `ks` are the satisfying positions in increasing order.
   */
  lemma FilterSelects<T>(s: seq<T>, p: T -> bool)
    ensures |Filter(s, p)| == |Positions(s, p)|
    ensures Increasing(Positions(s, p))
    ensures forall j :: 0 <= j < |Positions(s, p)| ==> Filter(s, p)[j] == s[Positions(s, p)[j]]
    ensures forall k :: 0 <= k < |s| ==> (p(s[k]) <==> k in Positions(s, p))
  {
    FilterAtPositions(s, p);
    PositionsIncreasing(s, p);
    PositionsComplete(s, p);
  }

  /** Element `j` of the filter is the element at the `j`-th satisfying position. */
  lemma {:induction false} FilterAtPositions<T>(s: seq<T>, p: T -> bool)
    ensures |Filter(s, p)| == |Positions(s, p)|
    ensures forall j :: 0 <= j < |Positions(s, p)| ==> Filter(s, p)[j] == s[Positions(s, p)[j]]
    decreases |s|
  {
    if |s| > 0 {
      var rest := Positions(s[1..], p);
      var tail := Filter(s[1..], p);
      FilterAtPositions(s[1..], p);
      forall j | 0 <= j < |rest| ensures rest[j] + 1 < |s| && tail[j] == s[rest[j] + 1] {
        assert s[1..][rest[j]] == s[rest[j] + 1];
      }
      ConsSelect(s, p(s[0]), tail, rest);
    }
  }

  /** One step of the selection: a kept or dropped head, then the tail's selection one position further on. */
  lemma ConsSelect<T>(s: seq<T>, keep: bool, tail: seq<T>, rest: seq<nat>)
    requires |s| > 0 && |tail| == |rest|
    requires forall j :: 0 <= j < |rest| ==> rest[j] + 1 < |s| && tail[j] == s[rest[j] + 1]
    ensures var fs := (if keep then [s[0]] else []) + tail;
      var ks := (if keep then [0] else []) + Shift(rest);
      |fs| == |ks| && forall j :: 0 <= j < |ks| ==> fs[j] == s[ks[j]]
  {
  }

  /** The satisfying positions are listed in increasing order. */
  lemma {:induction false} PositionsIncreasing<T>(s: seq<T>, p: T -> bool)
    ensures Increasing(Positions(s, p))
    decreases |s|
  {
    if |s| > 0 {
      PositionsIncreasing(s[1..], p);
      PrependIncreasing(if p(s[0]) then [0] else [], Positions(s[1..], p));
    }
  }

  /** A position is listed iff its element satisfies `p`. */
  lemma {:induction false} PositionsComplete<T>(s: seq<T>, p: T -> bool)
    ensures forall k :: 0 <= k < |s| ==> (p(s[k]) <==> k in Positions(s, p))
    decreases |s|
  {
    if |s| > 0 {
      var rest := Positions(s[1..], p);
      PositionsComplete(s[1..], p);
      var ks := Positions(s, p);
      forall k | 1 <= k < |s| ensures k in Shift(rest) <==> k - 1 in rest {
        if k - 1 in rest {
          var j :| 0 <= j < |rest| && rest[j] == k - 1;
          assert Shift(rest)[j] == k;
        }
      }
      forall k | 0 <= k < |s| ensures p(s[k]) <==> k in ks {
        if k > 0 {
          assert s[k] == s[1..][k - 1];
        }
      }
    }
  }

  /** Position 0, if present, followed by a shifted increasing list is increasing. */
  lemma PrependIncreasing(head: seq<nat>, rest: seq<nat>)
    requires head == [] || head == [0]
    requires Increasing(rest)
    ensures Increasing(head + Shift(rest))
  {
  }

  /** Extending a slice by one index appends that element. */
  lemma SliceSnoc<T>(s: seq<T>, a: nat, b: nat)
    requires a <= b < |s|
    ensures s[a..b + 1] == s[a..b] + [s[b]]
  {
  }

  /** Concatenation is associative. */
  lemma ConcatAssoc<T>(a: seq<T>, b: seq<T>, c: seq<T>)
    ensures (a + b) + c == a + (b + c)
  {
  }

  /** `xs.some(p)`. */
  function Any<T>(s: seq<T>, p: T -> bool): (b: bool)
    ensures b <==> exists k :: 0 <= k < |s| && p(s[k])
    decreases |s|
  {
    if |s| == 0 then false
    else if p(s[0]) then true
    else
      var rest := Any(s[1..], p);
      assert rest <==> exists k :: 1 <= k < |s| && p(s[k]) by {
        forall k | 1 <= k < |s| ensures s[1..][k - 1] == s[k] { }
      }
      rest
  }

  /** `xs.findIndex(p)`, with `-1` written as `None`: the first index satisfying `p`. */
  function FindIndex<T>(s: seq<T>, p: T -> bool): (r: Option<nat>)
    ensures r.Some? ==> r.value < |s| && p(s[r.value])
    ensures r.Some? ==> forall k :: 0 <= k < r.value ==> !p(s[k])
    ensures r.None? ==> forall k :: 0 <= k < |s| ==> !p(s[k])
    decreases |s|
  {
    if |s| == 0 then None
    else if p(s[0]) then Some(0)
    else
      match FindIndex(s[1..], p)
      case None =>
        assert forall k :: 1 <= k < |s| ==> s[k] == s[1..][k - 1];
        None
      case Some(i) =>
        assert forall k :: 1 <= k < i + 1 ==> s[k] == s[1..][k - 1];
        Some(i + 1)
  }

  /** `xs.slice(0, n)`. */
  function Take<T>(s: seq<T>, n: nat): (r: seq<T>)
    ensures |r| == if n < |s| then n else |s|
    ensures forall k :: 0 <= k < |r| ==> r[k] == s[k]
  {
    if n < |s| then s[..n] else s
  }

  /** `key` is non-decreasing along `s`. */
  ghost predicate SortedBy<T>(s: seq<T>, key: T -> int) {
    forall i, j :: 0 <= i < j < |s| ==> key(s[i]) <= key(s[j])
  }

  /** Inserts `x` before the first element whose key is not smaller, so that `x` stays ahead of its equals. */
  function InsertBy<T>(x: T, s: seq<T>, key: T -> int): (r: seq<T>)
    requires SortedBy(s, key)
    ensures SortedBy(r, key)
    ensures |r| == |s| + 1
    ensures forall k :: 0 <= k < |r| ==> r[k] == x || r[k] in s
    ensures (forall k :: 0 <= k < |s| ==> key(x) <= key(s[k])) ==> r == [x] + s
    decreases |s|
  {
    if |s| == 0 || key(x) <= key(s[0]) then [x] + s
    else
      var t := InsertBy(x, s[1..], key);
      assert s == [s[0]] + s[1..];
      assert forall k :: 0 <= k < |t| ==> key(s[0]) <= key(t[k]) by {
        forall k | 0 <= k < |t| ensures key(s[0]) <= key(t[k]) {
          if t[k] != x {
            var m :| 0 <= m < |s[1..]| && s[1..][m] == t[k];
            assert s[1..][m] == s[m + 1];
          }
        }
      }
      [s[0]] + t
  }

  /** The insertion adds exactly `x`: the result is a permutation of `s` plus `x`. */
  lemma {:induction false} InsertByPerm<T>(x: T, s: seq<T>, key: T -> int)
    requires SortedBy(s, key)
    ensures multiset(InsertBy(x, s, key)) == multiset(s) + multiset{x}
    decreases |s|
  {
    if |s| > 0 && key(x) > key(s[0]) {
      InsertByPerm(x, s[1..], key);
      assert s == [s[0]] + s[1..];
    }
  }

  /**
   * `[...xs].sort((a, b) => key(a) - key(b))`: a stable sort by an integer key,
   * as Array.prototype.sort is required to be since ECMAScript 2019.
   */
  function SortBy<T>(s: seq<T>, key: T -> int): (r: seq<T>)
    ensures SortedBy(r, key)
    ensures |r| == |s|
    decreases |s|
  {
    if |s| == 0 then [] else InsertBy(s[0], SortBy(s[1..], key), key)
  }

  /** The multiset of a non-empty sequence: its head and the multiset of its tail. */
  lemma MultisetCons<T>(s: seq<T>)
    requires |s| > 0
    ensures multiset(s) == multiset{s[0]} + multiset(s[1..])
  {
    assert s == [s[0]] + s[1..];
  }

  /** The sort is a permutation of its input. */
  lemma {:induction false} SortByPerm<T>(s: seq<T>, key: T -> int)
    ensures multiset(SortBy(s, key)) == multiset(s)
    decreases |s|
  {
    if |s| > 0 {
      var t := SortBy(s[1..], key);
      assert multiset(t) == multiset(s[1..]) by {
        SortByPerm(s[1..], key);
      }
      assert multiset(InsertBy(s[0], t, key)) == multiset(t) + multiset{s[0]} by {
        InsertByPerm(s[0], t, key);
      }
      MultisetCons(s);
    }
  }

  /** A comparator that never separates two elements leaves the order alone (stability). */
  lemma {:induction false} SortByEqualKeys<T>(s: seq<T>, key: T -> int)
    requires forall i, j :: 0 <= i < |s| && 0 <= j < |s| ==> key(s[i]) == key(s[j])
    ensures SortBy(s, key) == s
    decreases |s|
  {
    if |s| > 0 {
      SortByEqualKeys(s[1..], key);
      var t := SortBy(s[1..], key);
      assert t == s[1..];
      assert forall k :: 0 <= k < |t| ==> key(s[0]) <= key(t[k]) by {
        forall k | 0 <= k < |t| ensures key(s[0]) <= key(t[k]) {
          assert t[k] == s[k + 1];
        }
      }
      assert SortBy(s, key) == InsertBy(s[0], t, key);
      assert InsertBy(s[0], t, key) == [s[0]] + t;
      assert s == [s[0]] + s[1..];
    }
  }

  /** No element occurs twice. */
  ghost predicate Distinct<T>(s: seq<T>) {
    forall i, j :: 0 <= i < j < |s| ==> s[i] != s[j]
  }

  /** `[...new Set(xs)]`: every element once, at the position of its first occurrence. */
  function Dedup<T(==)>(s: seq<T>): (r: seq<T>)
    ensures forall k :: 0 <= k < |r| ==> r[k] in s
    ensures Distinct(r)
    ensures |r| <= |s|
    decreases |s|
  {
    if |s| == 0 then []
    else
      var d := Dedup(s[..|s| - 1]);
      assert s == s[..|s| - 1] + [s[|s| - 1]];
      if s[|s| - 1] in d then d else d + [s[|s| - 1]]
  }

  /** Every element of the input survives the de-duplication. */
  lemma {:induction false} DedupComplete<T>(s: seq<T>)
    ensures forall k :: 0 <= k < |s| ==> s[k] in Dedup(s)
    decreases |s|
  {
    if |s| > 0 {
      var init := s[..|s| - 1];
      DedupComplete(init);
      assert forall k :: 0 <= k < |init| ==> s[k] == init[k];
    }
  }

  /** `x` occurs in `s` somewhere before position `b`. */
  ghost predicate OccursBefore<T>(s: seq<T>, x: T, b: int) {
    exists a :: 0 <= a < b && a < |s| && s[a] == x
  }

  /**
   * The de-duplication keeps first-occurrence order: when `x` comes before
   * `y` in the result, every occurrence of `y` in the input is preceded by an
   * occurrence of `x`, so `x` first occurs before `y` does.
   */
  lemma {:induction false} DedupFirstOrder<T>(s: seq<T>)
    ensures forall i, j, b :: 0 <= i < j < |Dedup(s)| && 0 <= b < |s| && s[b] == Dedup(s)[j]
                              ==> OccursBefore(s, Dedup(s)[i], b)
    decreases |s|
  {
    if |s| > 0 {
      var n := |s| - 1;
      var init := s[..n];
      var x := s[n];
      var d := Dedup(init);
      var r := Dedup(s);
      DedupFirstOrder(init);
      DedupComplete(init);
      assert s == init + [x];
      assert r == if x in d then d else d + [x];
      forall i, j, b | 0 <= i < j < |r| && 0 <= b < |s| && s[b] == r[j]
        ensures OccursBefore(s, r[i], b)
      {
        if b < n {
          assert init[b] == s[b];
          if j < |d| {
            assert OccursBefore(init, d[i], b);
            var a :| 0 <= a < b && a < |init| && init[a] == d[i];
            assert s[a] == r[i];
          } else {
            assert false;
          }
        } else {
          assert r[i] in d && d[i] == r[i];
          assert r[i] in init;
          var a :| 0 <= a < |init| && init[a] == r[i];
          assert s[a] == r[i];
        }
      }
    }
  }

  /** Without repeated elements the de-duplication changes nothing. */
  lemma {:induction false} DedupDistinct<T>(s: seq<T>)
    requires Distinct(s)
    ensures Dedup(s) == s
    decreases |s|
  {
    if |s| > 0 {
      var init := s[..|s| - 1];
      assert Distinct(init) by {
        forall i, j | 0 <= i < j < |init| ensures init[i] != init[j] {
          assert init[i] == s[i] && init[j] == s[j];
        }
      }
      DedupDistinct(init);
      assert s[|s| - 1] !in init by {
        forall k | 0 <= k < |init| ensures init[k] != s[|s| - 1] {
          assert init[k] == s[k];
        }
      }
      assert s == init + [s[|s| - 1]];
    }
  }
}

=== FILE: sidebar.dfy ===
/**
 * The song list of `src/components/Sidebar.tsx`: songs grouped by artist,
 * the search filter over the groups, selecting a song, opening an artist,
 * and the logo reset.
 */
module Sidebar {
  import opened Opt
  import opened Seqs
  import opened JsString
  import opened Types
  import opened SongStore
  import SongSheet

  // ---------------------------------------------------------------------------
  // Grouping
  // ---------------------------------------------------------------------------

  /** One artist's entry of the list: the artist, and the titles and ids of its songs, index-aligned. */
  datatype Group = Group(artist: string, artistId: int, songs: seq<string>, songIds: seq<int>)

  /** Titles and ids have the same length. */
  predicate Aligned(g: Group) {
    |g.songs| == |g.songIds|
  }

  /** The song belongs to the artist. */
  predicate ByArtist(a: Artist, p: Partition) {
    p.artistId == a.id
  }

  /** Some song of the artist has this title and id. */
  ghost predicate SongOf(a: Artist, songs: seq<Partition>, title: string, id: int) {
    exists k :: 0 <= k < |songs| && ByArtist(a, songs[k]) && songs[k].title == title && songs[k].id == id
  }

  /** The filter selecting one artist's songs: `song.artist_id === artist.id`. */
  function ArtistFilter(a: Artist): Partition -> bool {
    p => ByArtist(a, p)
  }

  /**
   * The group of one artist: the titles and ids of every song of the artist,
   * each once, in song-list order (`ks` are the positions of those songs).
   */
  function GroupOf(a: Artist, songs: seq<Partition>): (g: Group)
    ensures g.artist == a.name && g.artistId == a.id && Aligned(g)
    ensures forall j :: 0 <= j < |g.songs| ==> SongOf(a, songs, g.songs[j], g.songIds[j])
    ensures var ks := Positions(songs, ArtistFilter(a));
      && |g.songs| == |ks| && Increasing(ks)
      && (forall j :: 0 <= j < |ks| ==> g.songs[j] == songs[ks[j]].title && g.songIds[j] == songs[ks[j]].id)
      && (forall k :: 0 <= k < |songs| ==> (ByArtist(a, songs[k]) <==> k in ks))
  {
    var mine := Filter(songs, ArtistFilter(a));
    FilterSelects(songs, ArtistFilter(a));
    var g := Group(a.name, a.id, Map(mine, (p: Partition) => p.title), Map(mine, (p: Partition) => p.id));
    forall j | 0 <= j < |g.songs| ensures SongOf(a, songs, g.songs[j], g.songIds[j]) {
      var k :| 0 <= k < |songs| && songs[k] == mine[j];
      assert songs[k].title == g.songs[j] && songs[k].id == g.songIds[j];
    }
    g
  }

  /** An artist with at least one song has a non-empty group. */
  lemma GroupOfNonEmpty(a: Artist, songs: seq<Partition>, k: nat)
    requires k < |songs| && ByArtist(a, songs[k])
    ensures |GroupOf(a, songs).songs| > 0
  {
    FilterComplete(songs, ArtistFilter(a));
  }

  /** The group has songs. */
  predicate HasSongs(g: Group) {
    |g.songs| > 0
  }

  /** Every artist's group, artists without songs included. */
  function GroupsOf(artists: seq<Artist>, songs: seq<Partition>): (r: seq<Group>)
    ensures |r| == |artists|
    ensures forall i :: 0 <= i < |artists| ==> r[i] == GroupOf(artists[i], songs)
  {
    Map(artists, a => GroupOf(a, songs))
  }

  /**
   * The grouping: the groups of the artists with songs, each once, in artist
   * order (`ks` are the positions of those artists).
   */
  function GroupSongs(artists: seq<Artist>, songs: seq<Partition>): (r: seq<Group>)
    ensures forall i :: 0 <= i < |r| ==> Aligned(r[i]) && HasSongs(r[i])
    ensures forall i :: 0 <= i < |r| ==> exists a :: 0 <= a < |artists| && r[i] == GroupOf(artists[a], songs)
    ensures var ks := Positions(GroupsOf(artists, songs), HasSongs);
      && |r| == |ks| && Increasing(ks)
      && (forall j :: 0 <= j < |ks| ==> ks[j] < |artists| && r[j] == GroupOf(artists[ks[j]], songs))
      && (forall i :: 0 <= i < |artists| ==> (HasSongs(GroupOf(artists[i], songs)) <==> i in ks))
  {
    GroupSongsSelects(artists, songs);
    Filter(GroupsOf(artists, songs), HasSongs)
  }

  /** The grouping's filter, described through the positions it keeps. */
  lemma GroupSongsSelects(artists: seq<Artist>, songs: seq<Partition>)
    ensures var r := Filter(GroupsOf(artists, songs), HasSongs);
      var ks := Positions(GroupsOf(artists, songs), HasSongs);
      && |r| == |ks| && Increasing(ks)
      && (forall j :: 0 <= j < |ks| ==> ks[j] < |artists| && r[j] == GroupOf(artists[ks[j]], songs))
      && (forall i :: 0 <= i < |artists| ==> (HasSongs(GroupOf(artists[i], songs)) <==> i in ks))
  {
    FilterSelects(GroupsOf(artists, songs), HasSongs);
  }

  /** Every artist with a song has its group in the list. */
  lemma GroupSongsComplete(artists: seq<Artist>, songs: seq<Partition>, a: nat, k: nat)
    requires a < |artists| && k < |songs| && ByArtist(artists[a], songs[k])
    ensures GroupOf(artists[a], songs) in GroupSongs(artists, songs)
  {
    GroupOfNonEmpty(artists[a], songs, k);
    var all := GroupsOf(artists, songs);
    FilterComplete(all, HasSongs);
    assert all[a] == GroupOf(artists[a], songs);
  }

  /** The grouping effect: the groups are recomputed only when both lists are non-empty, and otherwise kept. */
  function GroupsAfterLoad(prev: seq<Group>, artists: seq<Artist>, songs: seq<Partition>): (r: seq<Group>)
    ensures |artists| == 0 || |songs| == 0 ==> r == prev
    ensures |artists| > 0 && |songs| > 0 ==> r == GroupSongs(artists, songs)
  {
    if |artists| > 0 && |songs| > 0 then GroupSongs(artists, songs) else prev
  }

  // ---------------------------------------------------------------------------
  // Search
  // ---------------------------------------------------------------------------

  /** A song is kept iff its title or its artist's name contains the search term, ignoring case. */
  predicate Matches(title: string, artist: string, term: string)
    ensures term == "" ==> Matches(title, artist, term)
  {
    assert term == "" ==> ToLower(term) == "";
    IncludesEmpty(ToLower(title));
    Includes(ToLower(title), ToLower(term)) || Includes(ToLower(artist), ToLower(term))
  }

  /** The titles kept: `group.songs.filter(...)`. */
  function KeptTitles(g: Group, term: string): seq<string> {
    Filter(g.songs, t => Matches(t, g.artist, term))
  }

  /** The ids kept: `group.songIds.filter((_, index) => ...)`, testing the title at the same index. */
  function KeptIds(titles: seq<string>, ids: seq<int>, artist: string, term: string): (r: seq<int>)
    requires |titles| == |ids|
    decreases |ids|
  {
    if |ids| == 0 then []
    else (if Matches(titles[0], artist, term) then [ids[0]] else []) + KeptIds(titles[1..], ids[1..], artist, term)
  }

  /** Pairs the two lists element by element. */
  function Zip<A, B>(a: seq<A>, b: seq<B>): (r: seq<(A, B)>)
    requires |a| == |b|
    ensures |r| == |a|
    ensures forall k :: 0 <= k < |r| ==> r[k] == (a[k], b[k])
  {
    seq(|a|, k requires 0 <= k < |a| => (a[k], b[k]))
  }

  /** The pair's title matches. */
  predicate PairMatches(p: (string, int), artist: string, term: string) {
    Matches(p.0, artist, term)
  }

  /**
   * The two separate filters keep titles and ids together: the kept titles
   * and the kept ids, paired up, are exactly the (title, id) pairs whose
   * title matches, in order.
   */
  lemma {:induction false} KeptPairsAligned(titles: seq<string>, ids: seq<int>, artist: string, term: string)
    requires |titles| == |ids|
    ensures |Filter(titles, t => Matches(t, artist, term))| == |KeptIds(titles, ids, artist, term)|
    ensures Zip(Filter(titles, t => Matches(t, artist, term)), KeptIds(titles, ids, artist, term))
         == Filter(Zip(titles, ids), p => PairMatches(p, artist, term))
    decreases |ids|
  {
    if |ids| > 0 {
      var ft := Filter(titles[1..], t => Matches(t, artist, term));
      var fi := KeptIds(titles[1..], ids[1..], artist, term);
      KeptPairsAligned(titles[1..], ids[1..], artist, term);
      var z := Zip(titles, ids);
      assert z[1..] == Zip(titles[1..], ids[1..]);
      if Matches(titles[0], artist, term) {
        assert Zip([titles[0]] + ft, [ids[0]] + fi) == [(titles[0], ids[0])] + Zip(ft, fi);
      } else {
        assert [] + ft == ft && [] + fi == fi;
      }
    }
  }

  /** One group after the search: only the matching songs, titles and ids filtered alike. */
  function FilterGroup(g: Group, term: string): (r: Group)
    requires Aligned(g)
    ensures Aligned(r) && r.artist == g.artist && r.artistId == g.artistId
  {
    KeptPairsAligned(g.songs, g.songIds, g.artist, term);
    g.(songs := KeptTitles(g, term), songIds := KeptIds(g.songs, g.songIds, g.artist, term))
  }

  /** Every group of the list is aligned. */
  ghost predicate AllAligned(groups: seq<Group>) {
    forall i :: 0 <= i < |groups| ==> Aligned(groups[i])
  }

  /** Every group filtered by the search term, the emptied ones included. */
  function FilteredEach(groups: seq<Group>, term: string): (r: seq<Group>)
    requires AllAligned(groups)
    ensures |r| == |groups|
    ensures forall i :: 0 <= i < |groups| ==> r[i] == FilterGroup(groups[i], term)
  {
    seq(|groups|, i requires 0 <= i < |groups| => FilterGroup(groups[i], term))
  }

  /**
   * `filteredGroupedSongs`: every group filtered by the search term, keeping
   * exactly the groups left with songs, each once, in their original order
   * (`ks` are the positions of the kept groups).
   */
  function FilterGroups(groups: seq<Group>, term: string): (r: seq<Group>)
    requires AllAligned(groups)
    ensures AllAligned(r)
    ensures forall i :: 0 <= i < |r| ==> HasSongs(r[i])
    ensures |r| <= |groups|
    ensures var ks := Positions(FilteredEach(groups, term), HasSongs);
      && |r| == |ks| && Increasing(ks)
      && (forall j :: 0 <= j < |ks| ==> ks[j] < |groups| && r[j] == FilterGroup(groups[ks[j]], term))
      && (forall i :: 0 <= i < |groups| ==> (HasSongs(FilterGroup(groups[i], term)) <==> i in ks))
  {
    var each := FilteredEach(groups, term);
    FilterSelects(each, HasSongs);
    Filter(each, HasSongs)
  }

  /** Every string contains the empty search term, so nothing is dropped from one group. */
  lemma {:induction false} KeptIdsAll(titles: seq<string>, ids: seq<int>, artist: string)
    requires |titles| == |ids|
    ensures KeptIds(titles, ids, artist, "") == ids
    decreases |ids|
  {
    if |ids| > 0 {
      IncludesEmpty(ToLower(titles[0]));
      assert ToLower("") == "";
      KeptIdsAll(titles[1..], ids[1..], artist);
    }
  }

  /** An empty search term keeps every group intact. */
  lemma EmptyTermKeepsAll(groups: seq<Group>)
    requires AllAligned(groups) && forall i :: 0 <= i < |groups| ==> HasSongs(groups[i])
    ensures FilterGroups(groups, "") == groups
  {
    assert ToLower("") == "";
    forall i | 0 <= i < |groups| ensures FilterGroup(groups[i], "") == groups[i] {
      var g := groups[i];
      forall k | 0 <= k < |g.songs| ensures Matches(g.songs[k], g.artist, "") {
        IncludesEmpty(ToLower(g.songs[k]));
      }
      FilterKeepsAll(g.songs, t => Matches(t, g.artist, ""));
      KeptIdsAll(g.songs, g.songIds, g.artist);
    }
    var each := FilteredEach(groups, "");
    assert each == groups;
    FilterKeepsAll(each, HasSongs);
  }

  // ---------------------------------------------------------------------------
  // Selection
  // ---------------------------------------------------------------------------

  /**
   * `handleSongSelect(idx, j)` on the store: edit mode is left and the
   * selection becomes (idx, j); the other fields are untouched until the
   * details arrive.
   */
  function SelectSong(s: Store, idx: int, j: int): (r: Store)
    ensures !r.isEditing && r.selectedSong == Some((idx, j))
    ensures r.artists == s.artists && r.songs == s.songs && r.openArtistIndex == s.openArtistIndex
    ensures r.currentSongDetails == s.currentSongDetails && r.error == s.error
  {
    var t := if s.isEditing then Apply(s, SetIsEditing(false)) else s;
    Apply(t, SetSelectedSong(Some((idx, j))))
  }

  /**
   * `groups[idx].songIds[j]`, or nothing when either index is outside the
   * list. With no group at `idx` the lookup itself throws; with a group but
   * no id at `j` it yields `undefined`, and `fetchSongDetails` then throws on
   * its missing-id guard.
   */
  function IdAt(groups: seq<Group>, idx: int, j: int): (r: Option<int>)
    ensures r.Some? <==> 0 <= idx < |groups| && 0 <= j < |groups[idx].songIds|
    ensures r.Some? ==> r.value == groups[idx].songIds[j]
  {
    if 0 <= idx < |groups| && 0 <= j < |groups[idx].songIds| then Some(groups[idx].songIds[j]) else None
  }

  /**
   * The id fetched as written: looked up in the unfiltered groups, although
   * (idx, j) are positions in the filtered list that was clicked.
   */
  function FetchedId(groups: seq<Group>, term: string, idx: int, j: int): (r: Option<int>)
    ensures r == IdAt(groups, idx, j)
  {
    IdAt(groups, idx, j)
  }

  /** The id fetched as evidently intended: looked up in the filtered list that was clicked. */
  function FetchedIdCorrected(groups: seq<Group>, term: string, idx: int, j: int): (r: Option<int>)
    requires AllAligned(groups)
    ensures 0 <= idx < |FilterGroups(groups, term)| && 0 <= j < |FilterGroups(groups, term)[idx].songs| ==>
      r.Some? && r.value == FilterGroups(groups, term)[idx].songIds[j]
  {
    IdAt(FilterGroups(groups, term), idx, j)
  }

  /** With an empty search term both lookups fetch the same song. */
  lemma FetchAgreesWithoutSearch(groups: seq<Group>, idx: int, j: int)
    requires AllAligned(groups) && forall i :: 0 <= i < |groups| ==> HasSongs(groups[i])
    ensures FetchedId(groups, "", idx, j) == FetchedIdCorrected(groups, "", idx, j)
  {
    EmptyTermKeepsAll(groups);
  }

  /**
   * A search for "y" among one artist's songs "x" (id 10) and "y" (id 20)
   * lists only "y", at (0, 0); clicking it fetches song 10, "x", as written,
   * and song 20, the one clicked, once corrected.
   */
  lemma FetchedIdMismatch()
    ensures var groups := [Group("a", 1, ["x", "y"], [10, 20])];
      && FilterGroups(groups, "y") == [Group("a", 1, ["y"], [20])]
      && FetchedId(groups, "y", 0, 0) == Some(10)
      && FetchedIdCorrected(groups, "y", 0, 0) == Some(20)
  {
    var groups := [Group("a", 1, ["x", "y"], [10, 20])];
    assert ToLower("y") == "y" && ToLower("x") == "x" && ToLower("a") == "a";
    assert !Includes("x", "y") by {
      assert "x"[0..1] == "x";
    }
    assert !Includes("a", "y") by {
      assert "a"[0..1] == "a";
    }
    assert Includes("y", "y") by {
      assert OccursAt("y", "y", 0);
    }
    var g := groups[0];
    assert KeptTitles(g, "y") == ["y"];
    assert KeptIds(g.songs, g.songIds, "a", "y") == [20];
    assert FilterGroup(g, "y") == Group("a", 1, ["y"], [20]);
    var each := FilteredEach(groups, "y");
    assert each == [Group("a", 1, ["y"], [20])];
  }

  /** The corrected lookup fetches the id paired with the clicked title in that artist's group. */
  lemma CorrectedFetchesClickedSong(groups: seq<Group>, term: string, idx: nat, j: nat)
    requires AllAligned(groups)
    requires idx < |FilterGroups(groups, term)| && j < |FilterGroups(groups, term)[idx].songs|
    ensures var g := FilterGroups(groups, term)[idx];
      exists i, k :: 0 <= i < |groups| && 0 <= k < |groups[i].songs| && groups[i].artist == g.artist
        && groups[i].songs[k] == g.songs[j] && groups[i].songIds[k] == FetchedIdCorrected(groups, term, idx, j).value
  {
    var ks := Positions(FilteredEach(groups, term), HasSongs);
    var g := FilterGroups(groups, term)[idx];
    var i := ks[idx];
    var src := groups[i];
    assert g == FilterGroup(src, term);
    KeptPairsAligned(src.songs, src.songIds, src.artist, term);
    var pairs := Filter(Zip(src.songs, src.songIds), p => PairMatches(p, src.artist, term));
    assert pairs[j] == (g.songs[j], g.songIds[j]);
    assert pairs[j] in Zip(src.songs, src.songIds);
    var k :| 0 <= k < |src.songs| && Zip(src.songs, src.songIds)[k] == pairs[j];
  }

  // ---------------------------------------------------------------------------
  // Artist toggle and logo
  // ---------------------------------------------------------------------------

  /** Clicking artist `idx` opens it, or closes it when it is the open one. */
  function ToggleArtist(open: Option<int>, idx: int): (r: Option<int>)
    ensures r == None <==> open == Some(idx)
    ensures r != None ==> r == Some(idx)
  {
    if open == Some(idx) then None else Some(idx)
  }

  /** Clicking the same artist twice from nothing open (or it open) returns to where it was. */
  lemma ToggleArtistTwice(open: Option<int>, idx: int)
    requires open == None || open == Some(idx)
    ensures ToggleArtist(ToggleArtist(open, idx), idx) == open
  {
  }

  /** The setters the logo click runs, in order. */
  const LogoSetters := [SetSelectedSong(None), SetCurrentSongDetails(None), SetIsEditing(false), SetOpenArtistIndex(None)]

  /** The logo click: no selection, no details, not editing, no open artist; artists, songs, loading flag and error stay. */
  function LogoClick(s: Store): (r: Store)
    ensures r.selectedSong == None && r.currentSongDetails == None && !r.isEditing && r.openArtistIndex == None
  {
    ApplyAll(s, LogoSetters)
  }

  /** After the logo click the fields it does not reset are kept, and the root path shows the home page. */
  lemma LogoClickGoesHome(s: Store)
    ensures var r := LogoClick(s);
      r.artists == s.artists && r.songs == s.songs && r.isLoading == s.isLoading && r.error == s.error
      && SongSheet.StoreView(r, "/") == SongSheet.Home
  {
    UntouchedFieldKept(s, LogoSetters, ArtistsField);
    UntouchedFieldKept(s, LogoSetters, SongsField);
    UntouchedFieldKept(s, LogoSetters, IsLoadingField);
    UntouchedFieldKept(s, LogoSetters, ErrorField);
  }
}

=== FILE: song_form.dfy ===
/**
 * The song form of `src/components/SongForm.tsx`: the chord-entry list and
 * its edits, loading a song for editing, and what submitting sends.
 */
module SongForm {
  import opened Opt
  import opened Seqs
  import opened JsString
  import opened Types
  import opened FormConstants

  // ---------------------------------------------------------------------------
  // The chord-entry list
  // ---------------------------------------------------------------------------

  /** The two fields of a chord entry, the `keyof ChordEntry` a change names. */
  datatype Field = ChordName | FingeringField

  /** The chord list a fresh form starts from: one blank entry. */
  const InitialChords: seq<ChordEntry> := [BlankEntry]

  /** Entry `e` with field `k` replaced by `v`. */
  function SetField(e: ChordEntry, k: Field, v: string): (r: ChordEntry)
    ensures k == ChordName ==> r.chord == v && r.fingering == e.fingering
    ensures k == FingeringField ==> r.fingering == v && r.chord == e.chord
  {
    match k
    case ChordName => e.(chord := v)
    case FingeringField => e.(fingering := v)
  }

  /**
   * `handleChordChange(i, k, v)`: the list mapped so that only the entry at
   * index `i` gets field `k` set to `v`; an index outside the list matches no
   * entry and changes nothing.
   */
  function ChangeChord(chords: seq<ChordEntry>, i: int, k: Field, v: string): (r: seq<ChordEntry>)
    ensures |r| == |chords|
    ensures forall j :: 0 <= j < |r| && j != i ==> r[j] == chords[j]
    ensures 0 <= i < |r| ==> r[i] == SetField(chords[i], k, v)
    ensures !(0 <= i < |chords|) ==> r == chords
  {
    Map(seq(|chords|, j requires 0 <= j < |chords| => j),
        (j: int) => if 0 <= j < |chords| then (if j == i then SetField(chords[j], k, v) else chords[j]) else BlankEntry)
  }

  /** Writing the old value back undoes a change. */
  lemma ChangeChordUndo(chords: seq<ChordEntry>, i: int, k: Field, v: string)
    requires 0 <= i < |chords|
    ensures ChangeChord(ChangeChord(chords, i, k, v), i, k, if k == ChordName then chords[i].chord else chords[i].fingering) == chords
  {
  }

  /** Two changes of the same field of the same entry: the last one wins. */
  lemma ChangeChordLastWins(chords: seq<ChordEntry>, i: int, k: Field, v: string, w: string)
    ensures ChangeChord(ChangeChord(chords, i, k, v), i, k, w) == ChangeChord(chords, i, k, w)
  {
  }

  /** `addChordEntry`: one blank entry appended. */
  function AddBlank(chords: seq<ChordEntry>): (r: seq<ChordEntry>)
    ensures |r| == |chords| + 1 && r[|chords|] == BlankEntry
    ensures r[..|chords|] == chords
  {
    chords + [BlankEntry]
  }

  /** The suggestion callback: the suggested entry appended. */
  function AddSuggested(chords: seq<ChordEntry>, e: ChordEntry): (r: seq<ChordEntry>)
    ensures |r| == |chords| + 1 && r[|chords|] == e
    ensures r[..|chords|] == chords
  {
    chords + [e]
  }

  /** `removeChordEntry(i)`: `prev.filter((_, idx) => idx !== i)`, walking the list with the index shifted. */
  function RemoveAt(chords: seq<ChordEntry>, i: int): (r: seq<ChordEntry>)
    ensures |r| == if 0 <= i < |chords| then |chords| - 1 else |chords|
    ensures forall e :: e in r ==> e in chords
    decreases |chords|
  {
    if |chords| == 0 then []
    else (if i == 0 then [] else [chords[0]]) + RemoveAt(chords[1..], i - 1)
  }

  /** The removal deletes exactly position `i`, keeping the rest in order; an index outside the list removes nothing. */
  lemma {:induction false} RemoveAtSpec(chords: seq<ChordEntry>, i: int)
    ensures 0 <= i < |chords| ==> RemoveAt(chords, i) == chords[..i] + chords[i + 1..]
    ensures !(0 <= i < |chords|) ==> RemoveAt(chords, i) == chords
    decreases |chords|
  {
    if |chords| > 0 {
      RemoveAtSpec(chords[1..], i - 1);
      if i == 0 {
        assert chords[1..] == chords[..0] + chords[1..];
      } else if 0 < i < |chords| {
        assert chords[1..][..i - 1] == chords[1..i];
        assert chords[1..][i..] == chords[i + 1..];
        assert [chords[0]] + chords[1..i] == chords[..i];
      } else {
        assert [chords[0]] + chords[1..] == chords;
      }
    }
  }

  /** Removing the entry just added gives the list back: adding and removing the last entry are inverse. */
  lemma RemoveAfterAdd(chords: seq<ChordEntry>, e: ChordEntry)
    ensures RemoveAt(AddSuggested(chords, e), |chords|) == chords
    ensures RemoveAt(AddBlank(chords), |chords|) == chords
  {
    RemoveAtSpec(AddSuggested(chords, e), |chords|);
    RemoveAtSpec(AddBlank(chords), |chords|);
    assert AddSuggested(chords, e)[..|chords|] == chords;
    assert AddBlank(chords)[..|chords|] == chords;
  }

  /** The edits a user can make to the chord list. */
  datatype ChordEdit =
    | Change(index: int, field: Field, value: string)
    | AddRow
    | Suggest(entry: ChordEntry)
    | Remove(index: int)

  /** The list after one edit. */
  function ApplyEdit(chords: seq<ChordEntry>, ev: ChordEdit): (r: seq<ChordEntry>)
    ensures ev.Change? ==> |r| == |chords|
    ensures ev.AddRow? || ev.Suggest? ==> |r| == |chords| + 1 && r[..|chords|] == chords
    ensures ev.Remove? && 0 <= ev.index < |chords| ==> |r| == |chords| - 1
    ensures ev.Remove? && !(0 <= ev.index < |chords|) ==> r == chords
  {
    match ev
    case Change(i, k, v) => ChangeChord(chords, i, k, v)
    case AddRow => AddBlank(chords)
    case Suggest(e) => AddSuggested(chords, e)
    case Remove(i) => RemoveAtSpec(chords, i); RemoveAt(chords, i)
  }

  /**
   * The edits the form offers on a list: every change and addition, and
   * removal only of a row that is not the last one (the last row carries the
   * add button instead).
   */
  predicate Offered(chords: seq<ChordEntry>, ev: ChordEdit) {
    ev.Remove? ==> 0 <= ev.index < |chords| - 1
  }

  /** An offered edit never empties a non-empty list. */
  lemma OfferedEditKeepsNonEmpty(chords: seq<ChordEntry>, ev: ChordEdit)
    requires |chords| >= 1 && Offered(chords, ev)
    ensures |ApplyEdit(chords, ev)| >= 1
  {
    if ev.Remove? {
      RemoveAtSpec(chords, ev.index);
    }
  }

  /** The list after a run of edits. */
  function ApplyEdits(chords: seq<ChordEntry>, evs: seq<ChordEdit>): seq<ChordEntry>
    decreases |evs|
  {
    if |evs| == 0 then chords else ApplyEdits(ApplyEdit(chords, evs[0]), evs[1..])
  }

  /** Each edit of the run is offered on the list it is applied to. */
  ghost predicate AllOffered(chords: seq<ChordEntry>, evs: seq<ChordEdit>)
    decreases |evs|
  {
    |evs| == 0 || (Offered(chords, evs[0]) && AllOffered(ApplyEdit(chords, evs[0]), evs[1..]))
  }

  /** Starting from a non-empty list (the initial or a loaded one), offered edits keep the list non-empty for ever. */
  lemma {:induction false} NeverEmpty(chords: seq<ChordEntry>, evs: seq<ChordEdit>)
    requires |chords| >= 1 && AllOffered(chords, evs)
    ensures |ApplyEdits(chords, evs)| >= 1
    decreases |evs|
  {
    if |evs| > 0 {
      OfferedEditKeepsNonEmpty(chords, evs[0]);
      NeverEmpty(ApplyEdit(chords, evs[0]), evs[1..]);
    }
  }

  // ---------------------------------------------------------------------------
  // The form and the edit-load effect
  // ---------------------------------------------------------------------------

  /** The form's state: every input as text, and the chord list. */
  datatype Form = Form(
    artist: string,
    title: string,
    album: string,
    year: string,
    tuning: string,
    key: string,
    capo: string,
    tempo: string,
    timeSignature: string,
    rhythm: string,
    difficulty: string,
    youtubeLink: string,
    lyrics: string,
    chords: seq<ChordEntry>)

  /** The form as first shown: every input empty and one blank chord row. */
  const InitialForm := Form("", "", "", "", "", "", "", "", "", "", "", "", "", InitialChords)

  /** The stored chords when there are any, otherwise one blank row. */
  function LoadChords(stored: seq<ChordEntry>): (r: seq<ChordEntry>)
    ensures |r| >= 1
    ensures |stored| > 0 ==> r == stored
    ensures |stored| == 0 ==> r == InitialChords
  {
    if |stored| > 0 then stored else InitialChords
  }

  /**
   * The edit-load effect: in edit mode with details loaded, every input takes
   * the stored value (an absent optional one becomes ""), and the chord list
   * the stored chords; otherwise the form is left alone.
   */
  function LoadForEdit(f: Form, isEditing: bool, details: Option<SongDetails>): (r: Form)
    ensures !(isEditing && details.Some?) ==> r == f
    ensures isEditing && details.Some? ==>
      var d := details.value;
      && r.artist == d.artist && r.title == d.title && r.lyrics == d.lyrics
      && r.tuning == d.tuning && r.key == d.key && r.capo == d.capo && r.tempo == d.tempo
      && r.timeSignature == d.timeSignature && r.rhythm == d.rhythm
      && r.album == d.album.GetOr("") && r.difficulty == d.difficulty.GetOr("")
      && r.youtubeLink == d.youtubeLink.GetOr("")
      && (r.album == "" <==> d.album.None? || d.album.value == "")
      && (r.year == "" <==> d.year.None?)
      && (d.year.Some? ==> r.year == IntText(d.year.value))
      && r.chords == LoadChords(d.chords) && |r.chords| >= 1
  {
    if isEditing && details.Some? then
      var d := details.value;
      Form(d.artist, d.title, d.album.GetOr(""),
           if d.year.Some? then IntText(d.year.value) else "",
           d.tuning, d.key, d.capo, d.tempo, d.timeSignature, d.rhythm,
           d.difficulty.GetOr(""), d.youtubeLink.GetOr(""), d.lyrics,
           LoadChords(d.chords))
    else f
  }

  // ---------------------------------------------------------------------------
  // Submission
  // ---------------------------------------------------------------------------

  /** The error shown when artist or title is missing. */
  const RequiredError := "L'artiste et le titre sont requis"

  /** The rhythm sent when none was typed. */
  const DefaultRhythm := "↓ . ↓ ↑ ↓ . ↓ ↑"

  /** The tempo sent when none was typed. */
  const DefaultTempo := "120 BPM"

  /** The chord list sent when no named chord remains. */
  const FallbackChords := [ChordEntry("C", "X32010")]

  /** `s || d` for a string: `d` replaces only the empty string. */
  function OrDefault(s: string, d: string): (r: string)
    ensures s != "" ==> r == s
    ensures s == "" ==> r == d
  {
    if s == "" then d else s
  }

  /** `s || undefined`. */
  function NonEmpty(s: string): (r: Option<string>)
    ensures r.Some? <==> s != ""
    ensures r.Some? ==> r.value == s
  {
    if s == "" then None else Some(s)
  }

  /** The tempo as sent: "120 BPM" when empty, unchanged when it already mentions bpm in any case, otherwise with " BPM" appended. */
  function NormalizeTempo(t: string): (r: string)
    ensures r != ""
    ensures t != "" ==> |t| <= |r| <= |t| + |" BPM"|
  {
    if t == "" then DefaultTempo
    else if Includes(ToLower(t), "bpm") then t
    else t + " BPM"
  }

  /** Lower-casing " BPM" gives " bpm", so an appended unit is always found. */
  lemma LowerUnit(t: string)
    ensures Includes(ToLower(t + " BPM"), "bpm")
  {
    ToLowerConcat(t, " BPM");
    assert ToLower(" BPM") == " bpm";
    IncludesSuffix(ToLower(t) + " ", "bpm");
    assert ToLower(t) + " bpm" == (ToLower(t) + " ") + "bpm";
  }

  /**
   * Every normalised tempo mentions bpm (case-insensitively), keeps the typed
   * text as a prefix, and is unchanged exactly when the typed text already
   * mentioned bpm.
   */
  lemma NormalizeTempoSpec(t: string)
    ensures Includes(ToLower(NormalizeTempo(t)), "bpm")
    ensures t != "" ==> StartsWith(NormalizeTempo(t), t)
    ensures NormalizeTempo(t) == t <==> t != "" && Includes(ToLower(t), "bpm")
  {
    if t == "" {
      assert ToLower(DefaultTempo) == "120 bpm";
      IncludesSuffix("120 ", "bpm");
      assert "120 " + "bpm" == "120 bpm";
    } else if !Includes(ToLower(t), "bpm") {
      LowerUnit(t);
      assert (t + " BPM")[..|t|] == t;
    }
  }

  /** Normalising a normalised tempo changes nothing. */
  lemma NormalizeTempoIdempotent(t: string)
    ensures NormalizeTempo(NormalizeTempo(t)) == NormalizeTempo(t)
  {
    NormalizeTempoSpec(t);
  }

  /** The chord name is not blank once trimmed. */
  predicate Named(e: ChordEntry) {
    Trim(e.chord) != ""
  }

  /** The chords sent: the named entries in order, or the single fallback C chord when none is named. */
  function ChordsToSend(chords: seq<ChordEntry>): (r: seq<ChordEntry>)
    ensures |r| >= 1
    ensures r == FallbackChords || forall k :: 0 <= k < |r| ==> Named(r[k]) && r[k] in chords
  {
    var named := Filter(chords, Named);
    if |named| > 0 then named else FallbackChords
  }

  /** The fallback chord is named, so every chord sent is named. */
  lemma ChordsToSendNamed(chords: seq<ChordEntry>)
    ensures forall k :: 0 <= k < |ChordsToSend(chords)| ==> Named(ChordsToSend(chords)[k])
  {
    TrimEnds("C");
  }

  /** No named entry is lost, and a list of named entries is sent exactly as it is. */
  lemma ChordsToSendComplete(chords: seq<ChordEntry>)
    ensures forall k :: 0 <= k < |chords| && Named(chords[k]) ==> chords[k] in ChordsToSend(chords)
    ensures (|chords| > 0 && forall k :: 0 <= k < |chords| ==> Named(chords[k])) ==> ChordsToSend(chords) == chords
  {
    FilterComplete(chords, Named);
    if |chords| > 0 && forall k :: 0 <= k < |chords| ==> Named(chords[k]) {
      FilterKeepsAll(chords, Named);
    }
  }

  /**
   * When some entry is named, the chords sent are exactly the named entries,
   * each once, in form order (`ks` are their positions); otherwise the
   * fallback chord alone.
   */
  lemma ChordsToSendInOrder(chords: seq<ChordEntry>)
    ensures var r := ChordsToSend(chords);
      var ks := Positions(chords, Named);
      && (|ks| == 0 ==> r == FallbackChords)
      && (|ks| > 0 ==> |r| == |ks| && forall j :: 0 <= j < |ks| ==> r[j] == chords[ks[j]])
      && Increasing(ks)
      && (forall k :: 0 <= k < |chords| ==> (Named(chords[k]) <==> k in ks))
  {
    FilterSelects(chords, Named);
  }

  /** Choosing the chords to send twice changes nothing. */
  lemma ChordsToSendIdempotent(chords: seq<ChordEntry>)
    ensures ChordsToSend(ChordsToSend(chords)) == ChordsToSend(chords)
  {
    ChordsToSendNamed(chords);
    ChordsToSendComplete(ChordsToSend(chords));
  }

  /**
   * What is sent to the save call: artist, title and lyrics as typed, the
   * other settings with their defaults, the chords to send, and the optional
   * fields only when non-empty. `year` is the typed text that the save path
   * parses as an integer.
   */
  datatype Payload = Payload(
    artist: string,
    title: string,
    tuning: string,
    key: string,
    capo: string,
    tempo: string,
    timeSignature: string,
    rhythm: string,
    lyrics: string,
    chords: seq<ChordEntry>,
    album: Option<string>,
    year: Option<string>,
    difficulty: Option<string>,
    youtubeLink: Option<string>)

  /** The payload built from the form (the same for creating and updating). */
  function PayloadOf(f: Form): (p: Payload)
    ensures p.artist == f.artist && p.title == f.title && p.lyrics == f.lyrics
    ensures p.tuning == OrDefault(f.tuning, Tunings[0])
    ensures p.key == OrDefault(f.key, Tonalities[0])
    ensures p.capo == OrDefault(f.capo, CapoOptions[0])
    ensures p.timeSignature == OrDefault(f.timeSignature, MeasureOptions[0])
    ensures p.rhythm == OrDefault(f.rhythm, DefaultRhythm)
    ensures p.tempo == NormalizeTempo(f.tempo)
    ensures p.chords == ChordsToSend(f.chords)
    ensures p.album == NonEmpty(f.album) && p.year == NonEmpty(f.year)
    ensures p.difficulty == NonEmpty(f.difficulty) && p.youtubeLink == NonEmpty(f.youtubeLink)
  {
    Payload(f.artist, f.title,
            OrDefault(f.tuning, Tunings[0]), OrDefault(f.key, Tonalities[0]), OrDefault(f.capo, CapoOptions[0]),
            NormalizeTempo(f.tempo), OrDefault(f.timeSignature, MeasureOptions[0]),
            OrDefault(f.rhythm, DefaultRhythm), f.lyrics, ChordsToSend(f.chords),
            NonEmpty(f.album), NonEmpty(f.year), NonEmpty(f.difficulty), NonEmpty(f.youtubeLink))
  }

  /** The settings a submitted song always carries: none of them is empty. */
  lemma PayloadSettingsNonEmpty(f: Form)
    ensures var p := PayloadOf(f);
      p.tuning != "" && p.key != "" && p.capo != "" && p.tempo != ""
      && p.timeSignature != "" && p.rhythm != "" && |p.chords| >= 1
  {
    NormalizeTempoSpec(f.tempo);
  }

  /** What a submission does: nothing but an error, an update of a stored song, or a creation. */
  datatype Outcome =
    | Rejected(error: string)
    | Update(songId: int, payload: Payload)
    | Create(payload: Payload)

  /**
   * `handleSubmit` as written: the error unless artist and title are both
   * given; the update path when editing with a selection, passing the
   * selection's second index (the song's position within its artist group)
   * as the id of the song to update; the create path otherwise.
   */
  function Submit(f: Form, isEditing: bool, selected: Option<(int, int)>): (o: Outcome)
    ensures o.Rejected? <==> f.artist == "" || f.title == ""
    ensures o.Rejected? ==> o.error == RequiredError
    ensures o.Update? <==> !o.Rejected? && isEditing && selected.Some?
    ensures o.Update? ==> o.songId == selected.value.1
    ensures !o.Rejected? ==> o.payload == PayloadOf(f)
  {
    if f.artist == "" || f.title == "" then Rejected(RequiredError)
    else if isEditing && selected.Some? then Update(selected.value.1, PayloadOf(f))
    else Create(PayloadOf(f))
  }

  /**
   * The submission as evidently intended: the update targets `editedId`, the
   * database id of the song being edited (the id the viewer fetched it by),
   * rather than a position.
   */
  function SubmitCorrected(f: Form, isEditing: bool, editedId: Option<int>): (o: Outcome)
    ensures o.Rejected? <==> f.artist == "" || f.title == ""
    ensures o.Rejected? ==> o.error == RequiredError
    ensures o.Update? <==> !o.Rejected? && isEditing && editedId.Some?
    ensures o.Update? ==> o.songId == editedId.value
    ensures !o.Rejected? ==> o.payload == PayloadOf(f)
  {
    if f.artist == "" || f.title == "" then Rejected(RequiredError)
    else if isEditing && editedId.Some? then Update(editedId.value, PayloadOf(f))
    else Create(PayloadOf(f))
  }

  /**
   * The update target depends only on the selection's positions: two stored
   * songs at the same position of different artist groups are both "updated"
   * under the same id, which is the position itself. Selecting the first
   * song of the first artist, stored under id 42, updates row 0 where the
   * corrected submission updates row 42.
   */
  lemma UpdateUsesPosition(f: Form)
    requires f.artist != "" && f.title != ""
    ensures Submit(f, true, Some((0, 0))).songId == 0
    ensures Submit(f, true, Some((3, 0))).songId == 0
    ensures SubmitCorrected(f, true, Some(42)).songId == 42
    ensures Submit(f, true, Some((0, 0))) != SubmitCorrected(f, true, Some(42))
  {
  }

  /** Both submissions agree on everything but the id being updated. */
  lemma SubmitAgreesExceptId(f: Form, isEditing: bool, selected: Option<(int, int)>, editedId: Option<int>)
    requires selected.Some? <==> editedId.Some?
    ensures Submit(f, isEditing, selected).Rejected? == SubmitCorrected(f, isEditing, editedId).Rejected?
    ensures Submit(f, isEditing, selected).Update? == SubmitCorrected(f, isEditing, editedId).Update?
    ensures !Submit(f, isEditing, selected).Rejected? ==>
      Submit(f, isEditing, selected).payload == SubmitCorrected(f, isEditing, editedId).payload
  {
  }

  /**
   * Loading a stored song and saving it without touching the form writes the
   * song back unchanged, provided its stored values are already in the shape
   * the save path produces (non-empty settings, a tempo mentioning bpm, named
   * chords).
   */
  lemma LoadThenSaveRoundTrip(f: Form, d: SongDetails, editedId: int)
    requires d.artist != "" && d.title != ""
    requires d.tuning != "" && d.key != "" && d.capo != "" && d.timeSignature != "" && d.rhythm != ""
    requires d.tempo != "" && Includes(ToLower(d.tempo), "bpm")
    requires |d.chords| > 0 && forall k :: 0 <= k < |d.chords| ==> Named(d.chords[k])
    ensures var o := SubmitCorrected(LoadForEdit(f, true, Some(d)), true, Some(editedId));
      && o == Update(editedId, o.payload)
      && o.payload.artist == d.artist && o.payload.title == d.title && o.payload.lyrics == d.lyrics
      && o.payload.tuning == d.tuning && o.payload.key == d.key && o.payload.capo == d.capo
      && o.payload.tempo == d.tempo && o.payload.timeSignature == d.timeSignature
      && o.payload.rhythm == d.rhythm && o.payload.chords == d.chords
      && o.payload.album == (if d.album.Some? && d.album.value != "" then d.album else None)
      && o.payload.difficulty == (if d.difficulty.Some? && d.difficulty.value != "" then d.difficulty else None)
      && o.payload.youtubeLink == (if d.youtubeLink.Some? && d.youtubeLink.value != "" then d.youtubeLink else None)
      && o.payload.year == (if d.year.Some? then Some(IntText(d.year.value)) else None)
  {
    ChordsToSendComplete(d.chords);
  }

  /**
   * What happened after a creation call: it returned no id (so nothing is
   * refetched), it returned an id and both lists were refetched, or one of
   * the two refetches threw with a message.
   */
  datatype Refetch = NoId | Refetched | RefetchThrew(message: string)

  /**
   * The form after a submission: a creation clears every input except album,
   * year, difficulty and YouTube link, and resets the chords to one blank row,
   * unless a refetch threw first, which skips the reset; an update or a
   * rejection leaves the form as it is.
   */
  function AfterSubmit(f: Form, o: Outcome, refetch: Refetch): (r: Form)
    ensures o.Create? && !refetch.RefetchThrew? ==>
      r == Form("", "", f.album, f.year, "", "", "", "", "", "", f.difficulty, f.youtubeLink, "", InitialChords)
    ensures !o.Create? || refetch.RefetchThrew? ==> r == f
  {
    if o.Create? && !refetch.RefetchThrew? then
      f.(artist := "", title := "", tuning := "", key := "", capo := "", tempo := "",
         timeSignature := "", rhythm := "", lyrics := "", chords := InitialChords)
    else f
  }

  /**
   * The message a submission records with `setError`: the validation message
   * for a rejection, the thrown message when a refetch after a creation
   * failed. `None` means `setError` is not called, so the store keeps
   * whatever error it held before.
   */
  function ErrorAfterSubmit(o: Outcome, refetch: Refetch): (e: Option<string>)
    ensures o.Rejected? ==> e == Some(o.error)
    ensures o.Create? && refetch.RefetchThrew? ==> e == Some(refetch.message)
    ensures e.Some? <==> o.Rejected? || (o.Create? && refetch.RefetchThrew?)
  {
    if o.Rejected? then Some(o.error)
    else if o.Create? && refetch.RefetchThrew? then Some(refetch.message)
    else None
  }

  /** After a creation whose refetch did not throw, the form is the initial form but for the four fields that survive. */
  lemma ResetKeepsFourFields(f: Form, isEditing: bool, selected: Option<(int, int)>, refetch: Refetch)
    requires Submit(f, isEditing, selected).Create? && !refetch.RefetchThrew?
    ensures AfterSubmit(f, Submit(f, isEditing, selected), refetch) ==
      InitialForm.(album := f.album, year := f.year, difficulty := f.difficulty, youtubeLink := f.youtubeLink)
    ensures AfterSubmit(f, Submit(f, isEditing, selected), refetch).chords == InitialChords
  {
  }

  /** A failed refetch leaves every input as typed and shows the thrown message, so the song can be sent again. */
  lemma FailedRefetchKeepsInputs(f: Form, isEditing: bool, selected: Option<(int, int)>, message: string)
    requires Submit(f, isEditing, selected).Create?
    ensures AfterSubmit(f, Submit(f, isEditing, selected), RefetchThrew(message)) == f
    ensures ErrorAfterSubmit(Submit(f, isEditing, selected), RefetchThrew(message)) == Some(message)
  {
  }

  /** The artist names offered to the artist input: `[...new Set(artists.map(a => a.name))]`. */
  function ArtistNames(artists: seq<Artist>): (r: seq<string>)
    ensures Distinct(r)
    ensures forall k :: 0 <= k < |r| ==> exists a :: 0 <= a < |artists| && artists[a].name == r[k]
  {
    var names := Map(artists, (a: Artist) => a.name);
    var r := Dedup(names);
    assert forall k :: 0 <= k < |r| ==> r[k] in names;
    r
  }

  /**
   * The names are offered in order of first appearance: when name `x` comes
   * before name `y`, every artist named `y` is preceded by one named `x`.
   */
  lemma ArtistNamesInOrder(artists: seq<Artist>)
    ensures var r := ArtistNames(artists);
      forall i, j, b :: 0 <= i < j < |r| && 0 <= b < |artists| && artists[b].name == r[j]
        ==> exists a :: 0 <= a < b && artists[a].name == r[i]
  {
    var names := Map(artists, (a: Artist) => a.name);
    DedupFirstOrder(names);
    var r := ArtistNames(artists);
    forall i, j, b | 0 <= i < j < |r| && 0 <= b < |artists| && artists[b].name == r[j]
      ensures exists a :: 0 <= a < b && artists[a].name == r[i]
    {
      assert names[b] == r[j];
      var a :| 0 <= a < b && a < |names| && names[a] == r[i];
      assert artists[a].name == r[i];
    }
  }

  /** Every artist's name is offered. */
  lemma ArtistNamesComplete(artists: seq<Artist>)
    ensures forall a :: 0 <= a < |artists| ==> artists[a].name in ArtistNames(artists)
  {
    DedupComplete(Map(artists, (a: Artist) => a.name));
  }
}

=== FILE: song_sheet.dfy ===
/**
 * The main pane of `src/components/SongSheet.tsx`: which view the store's
 * state selects, and the browser-history handler.
 */
module SongSheet {
  import opened Opt
  import opened Types
  import opened SongStore
  import SongViewer

  /** The three views of the main pane; the form carries whether it edits a stored song. */
  datatype View = Viewer | SongFormView(editMode: bool) | Home

  /** The path that asks for the creation form. */
  const AddPath := "/add"

  /**
   * The view: a selection while not editing shows the viewer; editing shows
   * the form in edit mode whatever the selection; no selection on the add
   * path shows the form in create mode; anything else the home page.
   */
  function ViewOf(selected: Option<(int, int)>, isEditing: bool, path: string): (v: View)
    ensures v == Viewer <==> selected.Some? && !isEditing
    ensures v == SongFormView(true) <==> isEditing
    ensures v == SongFormView(false) <==> selected.None? && !isEditing && path == AddPath
    ensures v == Home <==> selected.None? && !isEditing && path != AddPath
  {
    if selected.Some? && !isEditing then Viewer
    else if isEditing || (selected.None? && path == AddPath) then SongFormView(isEditing)
    else Home
  }

  /** The form's heading: the modification title in edit mode, the creation title otherwise. */
  function Heading(editMode: bool): (h: string)
    ensures editMode ==> h == "Modification de la partition"
    ensures !editMode ==> h == "Création d'une nouvelle partition"
  {
    if editMode then "Modification de la partition" else "Création d'une nouvelle partition"
  }

  /** The view of a store. */
  function StoreView(s: Store, path: string): View {
    ViewOf(s.selectedSong, s.isEditing, path)
  }

  /**
   * The location handler (run when the effect is set up, again whenever
   * `isEditing`, `selectedSong` or `setIsEditing` changes, and on every
   * `popstate`): on the add path while not editing it sets `isEditing` to
   * false, which it already is.
   */
  function LocationChange(s: Store, path: string): (r: Store)
    ensures r == s
  {
    if path == AddPath && !s.isEditing then
      SetterIdempotent(s, SetIsEditing(false));
      Apply(s, SetIsEditing(false))
    else s
  }

  /** The location handler never changes the store, and so never changes the view. */
  lemma LocationChangeIsNoOp(s: Store, path: string, later: string)
    ensures LocationChange(s, path) == s
    ensures StoreView(LocationChange(s, path), later) == StoreView(s, later)
  {
  }

  /**
   * The edit click on a shown song switches the pane to the form in edit
   * mode; the selection survives, so leaving edit mode shows the same song's
   * viewer again.
   */
  lemma EditClickShowsEditForm(s: Store, path: string)
    requires StoreView(s, path) == Viewer && s.currentSongDetails.Some?
    ensures var t := Apply(s, SetIsEditing(SongViewer.EditClick(s.isEditing, s.currentSongDetails, s.selectedSong)));
      StoreView(t, path) == SongFormView(true)
      && StoreView(Apply(t, SetIsEditing(false)), path) == Viewer
      && t.selectedSong == s.selectedSong
  {
  }
}

=== FILE: song_store.dfy ===
/**
 * The application store of `src/stores/songStore.ts`: eight fields, each
 * with a setter that replaces that field alone.
 */
module SongStore {
  import opened Opt
  import opened Types

  /** The store's state. `selectedSong` is an (artist index, song index) pair. */
  datatype Store = Store(
    artists: seq<Artist>,
    songs: seq<Partition>,
    openArtistIndex: Option<int>,
    selectedSong: Option<(int, int)>,
    currentSongDetails: Option<SongDetails>,
    isLoading: bool,
    error: Option<string>,
    isEditing: bool)

  /** Empty lists, nothing open, selected or loaded, no error, not loading, not editing. */
  const InitialStore := Store([], [], None, None, None, false, None, false)

  /** The store's fields, by name. */
  datatype FieldName =
    | ArtistsField | SongsField | OpenArtistIndexField | SelectedSongField
    | CurrentSongDetailsField | IsLoadingField | ErrorField | IsEditingField

  /** A call of one of the setters, with its argument. */
  datatype Setter =
    | SetArtists(artists: seq<Artist>)
    | SetSongs(songs: seq<Partition>)
    | SetOpenArtistIndex(index: Option<int>)
    | SetSelectedSong(selection: Option<(int, int)>)
    | SetCurrentSongDetails(details: Option<SongDetails>)
    | SetIsLoading(isLoading: bool)
    | SetError(error: Option<string>)
    | SetIsEditing(isEditing: bool)

  /** The field a setter writes. */
  function Target(a: Setter): FieldName {
    match a
    case SetArtists(_) => ArtistsField
    case SetSongs(_) => SongsField
    case SetOpenArtistIndex(_) => OpenArtistIndexField
    case SetSelectedSong(_) => SelectedSongField
    case SetCurrentSongDetails(_) => CurrentSongDetailsField
    case SetIsLoading(_) => IsLoadingField
    case SetError(_) => ErrorField
    case SetIsEditing(_) => IsEditingField
  }

  /** The two stores hold the same value in field `f`. */
  predicate SameField(s: Store, t: Store, f: FieldName) {
    match f
    case ArtistsField => s.artists == t.artists
    case SongsField => s.songs == t.songs
    case OpenArtistIndexField => s.openArtistIndex == t.openArtistIndex
    case SelectedSongField => s.selectedSong == t.selectedSong
    case CurrentSongDetailsField => s.currentSongDetails == t.currentSongDetails
    case IsLoadingField => s.isLoading == t.isLoading
    case ErrorField => s.error == t.error
    case IsEditingField => s.isEditing == t.isEditing
  }

  /** The store holds the setter's argument in the setter's field. */
  predicate Holds(s: Store, a: Setter) {
    match a
    case SetArtists(v) => s.artists == v
    case SetSongs(v) => s.songs == v
    case SetOpenArtistIndex(v) => s.openArtistIndex == v
    case SetSelectedSong(v) => s.selectedSong == v
    case SetCurrentSongDetails(v) => s.currentSongDetails == v
    case SetIsLoading(v) => s.isLoading == v
    case SetError(v) => s.error == v
    case SetIsEditing(v) => s.isEditing == v
  }

  /** `set({ field: value })`: the setter's field takes its argument and every other field is unchanged. */
  function Apply(s: Store, a: Setter): (r: Store)
    ensures Holds(r, a)
    ensures forall f :: f != Target(a) ==> SameField(s, r, f)
  {
    match a
    case SetArtists(v) => s.(artists := v)
    case SetSongs(v) => s.(songs := v)
    case SetOpenArtistIndex(v) => s.(openArtistIndex := v)
    case SetSelectedSong(v) => s.(selectedSong := v)
    case SetCurrentSongDetails(v) => s.(currentSongDetails := v)
    case SetIsLoading(v) => s.(isLoading := v)
    case SetError(v) => s.(error := v)
    case SetIsEditing(v) => s.(isEditing := v)
  }

  /** A setter whose value is already held changes nothing; in particular every setter is idempotent. */
  lemma SetterIdempotent(s: Store, a: Setter)
    ensures Holds(s, a) ==> Apply(s, a) == s
    ensures Apply(Apply(s, a), a) == Apply(s, a)
  {
  }

  /** Two writes of the same field: the last one wins. */
  lemma LastWriteWins(s: Store, a: Setter, b: Setter)
    requires Target(a) == Target(b)
    ensures Apply(Apply(s, a), b) == Apply(s, b)
  {
  }

  /** Writes of different fields do not interfere: they commute. */
  lemma SettersCommute(s: Store, a: Setter, b: Setter)
    requires Target(a) != Target(b)
    ensures Apply(Apply(s, a), b) == Apply(Apply(s, b), a)
  {
  }

  /** No setter couples fields: turning editing on keeps the selection, and selecting keeps the editing flag. */
  lemma NoCoupling(s: Store, on: bool, sel: Option<(int, int)>)
    ensures Apply(s, SetIsEditing(on)).selectedSong == s.selectedSong
    ensures Apply(s, SetSelectedSong(sel)).isEditing == s.isEditing
  {
  }

  /** The store after a run of setters. */
  function ApplyAll(s: Store, acts: seq<Setter>): Store
    decreases |acts|
  {
    if |acts| == 0 then s else ApplyAll(Apply(s, acts[0]), acts[1..])
  }

  /** A field no setter of the run writes keeps its value. */
  lemma {:induction false} UntouchedFieldKept(s: Store, acts: seq<Setter>, f: FieldName)
    requires forall k :: 0 <= k < |acts| ==> Target(acts[k]) != f
    ensures SameField(s, ApplyAll(s, acts), f)
    decreases |acts|
  {
    if |acts| > 0 {
      UntouchedFieldKept(Apply(s, acts[0]), acts[1..], f);
      assert SameField(s, Apply(s, acts[0]), f);
    }
  }
}

=== FILE: song_viewer.dfy ===
/**
 * The song viewer of `src/components/SongViewer.tsx`: the auto-scroll pacer
 * (tempo parsing, speed formula, clamped multiplier, play/stop/reset), and
 * the favourite and edit handlers. Timers and scrolling are the browser's;
 * here a tick is an event carrying the container's measurements, and a
 * scroll request is an output.
 */
module SongViewer {
  import opened Opt
  import opened Seqs
  import opened JsString
  import opened Types

  // ---------------------------------------------------------------------------
  // Tempo parsing
  // ---------------------------------------------------------------------------

  /** `\d` of a regular expression: an ASCII decimal digit. */
  predicate IsDigit(c: char) {
    '0' <= c <= '9'
  }

  /** Every character is a digit. */
  predicate AllDigits(s: string) {
    forall k :: 0 <= k < |s| ==> IsDigit(s[k])
  }

  /** The number of consecutive digits of `s` starting at `i`. */
  function RunLength(s: string, i: nat): (n: nat)
    requires i <= |s|
    ensures i + n <= |s|
    ensures forall k :: i <= k < i + n ==> IsDigit(s[k])
    ensures i + n < |s| ==> !IsDigit(s[i + n])
    decreases |s| - i
  {
    if i == |s| || !IsDigit(s[i]) then 0 else 1 + RunLength(s, i + 1)
  }

  /**
   * `s[i..i + n]` is what `/\d+/` matches in `s`: a non-empty run of digits
   * with no digit before it, not followed by another digit.
   */
  predicate LeftmostDigitRun(s: string, i: nat, n: nat) {
    && n >= 1 && i + n <= |s|
    && (forall k :: 0 <= k < i ==> !IsDigit(s[k]))
    && AllDigits(s[i..i + n])
    && (i + n == |s| || !IsDigit(s[i + n]))
  }

  /** `s.match(/\d+/)`: the first maximal run of digits, if any. */
  function FirstDigitRun(s: string): (r: Option<string>)
    ensures r.None? <==> forall k :: 0 <= k < |s| ==> !IsDigit(s[k])
    ensures r.Some? ==> |r.value| >= 1 && AllDigits(r.value)
    ensures r.Some? ==> exists i: nat :: LeftmostDigitRun(s, i, |r.value|) && r.value == s[i..i + |r.value|]
  {
    match FindIndex(s, IsDigit)
    case None => None
    case Some(i) =>
      var n := RunLength(s, i);
      var run := s[i..i + n];
      assert run[0] == s[i];
      assert LeftmostDigitRun(s, i, n);
      Some(run)
  }

  /** There is only one leftmost maximal run of digits, and it is the one `FirstDigitRun` finds. */
  lemma FirstDigitRunUnique(s: string, i: nat, n: nat)
    requires LeftmostDigitRun(s, i, n)
    ensures FirstDigitRun(s) == Some(s[i..i + n])
  {
    assert IsDigit(s[i..i + n][0]);
    var f := FindIndex(s, IsDigit);
    assert f.Some? && f.value == i;
    var m := RunLength(s, i);
    assert forall k :: i <= k < i + n ==> s[k] == s[i..i + n][k - i];
  }

  /** The value of a digit. */
  function DigitValue(c: char): (v: nat)
    requires IsDigit(c)
    ensures v <= 9
  {
    (c - '0') as nat
  }

  /** `parseInt(d, 10)` of a string of digits. */
  function DecimalValue(d: string): nat
    requires AllDigits(d)
    decreases |d|
  {
    if |d| == 0 then 0 else DecimalValue(d[..|d| - 1]) * 10 + DigitValue(d[|d| - 1])
  }

  /** Reading back the decimal text of a number gives the number. */
  lemma {:induction false} DecimalOfDigits(n: nat)
    ensures AllDigits(Digits(n)) && DecimalValue(Digits(n)) == n
    decreases n
  {
    var s := Digits(n);
    if n >= 10 {
      DecimalOfDigits(n / 10);
      assert s[..|s| - 1] == Digits(n / 10);
    }
  }

  /** The bpm the pacer reads from a tempo text: its first run of digits, or 60 when there is none. */
  function Bpm(tempo: string): (bpm: nat)
    ensures (forall k :: 0 <= k < |tempo| ==> !IsDigit(tempo[k])) ==> bpm == 60
    ensures forall i: nat, n: nat :: LeftmostDigitRun(tempo, i, n) ==> bpm == DecimalValue(tempo[i..i + n])
  {
    BpmReadsLeftmostRun(tempo);
    match FirstDigitRun(tempo)
    case None => 60
    case Some(d) => DecimalValue(d)
  }

  /** Whatever leftmost maximal run of digits a tempo has is the one the pacer reads. */
  lemma BpmReadsLeftmostRun(tempo: string)
    ensures forall i: nat, n: nat :: LeftmostDigitRun(tempo, i, n) ==> FirstDigitRun(tempo) == Some(tempo[i..i + n])
  {
    forall i: nat, n: nat | LeftmostDigitRun(tempo, i, n)
      ensures FirstDigitRun(tempo) == Some(tempo[i..i + n])
    {
      FirstDigitRunUnique(tempo, i, n);
    }
  }

  /**
   * A number written after digit-free text and not followed by a digit is
   * read as that number: "Allegro 120-130 BPM" reads 120 and "100bpm" reads 100.
   */
  lemma BpmOfNumberInText(before: string, n: nat, after: string)
    requires forall k :: 0 <= k < |before| ==> !IsDigit(before[k])
    requires |after| == 0 || !IsDigit(after[0])
    ensures Bpm(before + Digits(n) + after) == n
  {
    var d := Digits(n);
    var s := before + d + after;
    DecimalOfDigits(n);
    assert s[|before|..|before| + |d|] == d;
    assert |before| + |d| < |s| ==> s[|before| + |d|] == after[0];
    assert LeftmostDigitRun(s, |before|, |d|);
  }

  /** Two tempo texts a user might type: a range and a unit written without a space. */
  lemma BpmExamples()
    ensures Bpm("Allegro 120-130 BPM") == 120
    ensures Bpm("100bpm") == 100
  {
    assert Digits(120) == "120";
    assert Digits(100) == "100";
    assert "Allegro " + Digits(120) + "-130 BPM" == "Allegro 120-130 BPM";
    assert "" + Digits(100) + "bpm" == "100bpm";
    BpmOfNumberInText("Allegro ", 120, "-130 BPM");
    BpmOfNumberInText("", 100, "bpm");
  }

  /** A tempo written as a number followed by " BPM", as the form saves it, is read back as that number. */
  lemma BpmOfSavedTempo(n: nat)
    ensures Bpm(Digits(n) + " BPM") == n
  {
    var d := Digits(n);
    var s := d + " BPM";
    assert IsDigit(s[0]);
    assert FindIndex(s, IsDigit) == Some(0);
    assert s[|d|] == ' ';
    assert forall k :: 0 <= k < |d| ==> s[k] == d[k];
    var m := RunLength(s, 0);
    assert m == |d|;
    assert s[0..m] == d;
    DecimalOfDigits(n);
  }

  /** A tempo text without a digit reads as 60 bpm. */
  lemma BpmWithoutDigits(tempo: string)
    requires forall k :: 0 <= k < |tempo| ==> !IsDigit(tempo[k])
    ensures Bpm(tempo) == 60
  {
  }

  // ---------------------------------------------------------------------------
  // Speed
  // ---------------------------------------------------------------------------

  function Max(a: real, b: real): real { if a >= b then a else b }
  function Min(a: real, b: real): real { if a <= b then a else b }

  /**
   * `getScrollSpeed`: 1 when the song has no tempo (or an empty one),
   * otherwise max(1, bpm / 60) times the multiplier.
   */
  function ScrollSpeed(tempo: Option<string>, multiplier: real): (speed: real)
    ensures tempo.None? || tempo.value == "" ==> speed == 1.0
    ensures tempo.Some? && tempo.value != "" && multiplier >= 0.0 ==> speed >= multiplier
    ensures tempo.Some? && tempo.value != "" && Bpm(tempo.value) <= 60 ==> speed == multiplier
    ensures tempo.Some? && tempo.value != "" && Bpm(tempo.value) > 60 ==> speed == (Bpm(tempo.value) as real / 60.0) * multiplier
  {
    if tempo.None? || tempo.value == "" then 1.0
    else Max(1.0, Bpm(tempo.value) as real / 60.0) * multiplier
  }

  /** A song saved at "90 BPM" scrolls one and a half times faster than one at 60 bpm or less. */
  lemma SpeedOfNinety()
    ensures ScrollSpeed(Some("90 BPM"), 1.0) == 1.5
    ensures ScrollSpeed(Some("90 BPM"), 2.0) == 3.0
  {
    assert Digits(90) + " BPM" == "90 BPM";
    BpmOfSavedTempo(90);
  }

  // ---------------------------------------------------------------------------
  // The pacer
  // ---------------------------------------------------------------------------

  /** The pacer's state: whether it is scrolling, and the speed multiplier. */
  datatype Pacer = Pacer(isScrolling: bool, multiplier: real)

  /** Stopped, at the normal speed. */
  const InitialPacer := Pacer(false, 1.0)

  const MinMultiplier := 0.25
  const MaxMultiplier := 5.0

  /** `handleSpeedChange(change)`: the multiplier moves by `change`, clamped to [0.25, 5]. */
  function ChangeSpeed(p: Pacer, change: real): (r: Pacer)
    ensures r.isScrolling == p.isScrolling
    ensures MinMultiplier <= r.multiplier <= MaxMultiplier
    ensures MinMultiplier <= p.multiplier + change <= MaxMultiplier ==> r.multiplier == p.multiplier + change
    ensures p.multiplier + change < MinMultiplier ==> r.multiplier == MinMultiplier
    ensures p.multiplier + change > MaxMultiplier ==> r.multiplier == MaxMultiplier
  {
    p.(multiplier := Max(MinMultiplier, Min(MaxMultiplier, p.multiplier + change)))
  }

  /** `m` is a whole number of quarters. */
  ghost predicate Quarter(m: real) {
    (m * 4.0).Floor as real == m * 4.0
  }

  /** The multiplier is a whole number of quarters within the clamp bounds. */
  ghost predicate ValidPacer(p: Pacer) {
    MinMultiplier <= p.multiplier <= MaxMultiplier && Quarter(p.multiplier)
  }

  /** A change by a whole number of quarters keeps the multiplier a whole number of quarters within bounds. */
  lemma ChangeSpeedKeepsQuarters(p: Pacer, change: real)
    requires ValidPacer(p) && Quarter(change)
    ensures ValidPacer(ChangeSpeed(p, change))
  {
    var s := p.multiplier + change;
    assert (s * 4.0).Floor == (p.multiplier * 4.0).Floor + (change * 4.0).Floor;
    assert Quarter(MinMultiplier) && Quarter(MaxMultiplier);
  }

  /** `handleToggleScroll`: scrolling flips, the multiplier stays. */
  function ToggleScroll(p: Pacer): (r: Pacer)
    ensures r.isScrolling != p.isScrolling && r.multiplier == p.multiplier
  {
    p.(isScrolling := !p.isScrolling)
  }

  /** What the pacer asks the scroll container to do. */
  datatype ScrollRequest = NoRequest | ScrollBy(px: real) | ScrollToTop

  /** `handleReset`: scrolling stops and the container is sent back to the top; the multiplier is kept. */
  function Reset(p: Pacer): (r: (Pacer, ScrollRequest))
    ensures !r.0.isScrolling && r.0.multiplier == p.multiplier && r.1 == ScrollToTop
  {
    (p.(isScrolling := false), ScrollToTop)
  }

  /** The scroll container's measurements after a tick's scroll. */
  datatype Viewport = Viewport(scrollTop: real, clientHeight: real, scrollHeight: real)

  /** The container is within 10 px of its bottom. */
  predicate AtBottom(v: Viewport) {
    v.scrollTop + v.clientHeight >= v.scrollHeight - 10.0
  }

  /**
   * One interval tick while scrolling: the container is asked to scroll by
   * the current speed, and scrolling stops iff the container (as measured
   * afterwards) is at its bottom. A stopped pacer does not tick.
   */
  function Tick(p: Pacer, tempo: Option<string>, after: Viewport): (r: (Pacer, ScrollRequest))
    ensures !p.isScrolling ==> r == (p, NoRequest)
    ensures p.isScrolling ==> r.1 == ScrollBy(ScrollSpeed(tempo, p.multiplier))
    ensures p.isScrolling ==> (r.0.isScrolling <==> !AtBottom(after))
    ensures r.0.multiplier == p.multiplier
  {
    if !p.isScrolling then (p, NoRequest)
    else
      var request := ScrollBy(ScrollSpeed(tempo, p.multiplier));
      if AtBottom(after) then (p.(isScrolling := false), request) else (p, request)
  }

  /** A tick never starts scrolling, and a toggled-on pacer keeps scrolling until a tick measures the bottom. */
  lemma TickOnlyStops(p: Pacer, tempo: Option<string>, after: Viewport)
    ensures Tick(p, tempo, after).0.isScrolling ==> p.isScrolling
    ensures Tick(ToggleScroll(p), tempo, after).0.isScrolling <==> !p.isScrolling && !AtBottom(after)
  {
  }

  /** Toggling twice gives the pacer back; resetting twice is the same as resetting once. */
  lemma ToggleResetLaws(p: Pacer)
    ensures ToggleScroll(ToggleScroll(p)) == p
    ensures Reset(Reset(p).0) == Reset(p)
  {
  }

  // ---------------------------------------------------------------------------
  // Favourite and edit
  // ---------------------------------------------------------------------------

  /**
   * `handleFavoriteClick`: without details, or with details lacking a numeric
   * id, nothing happens; otherwise, when the toggle call answers (with the
   * new favourite flag), only `isFavorite` is replaced; a failed call changes
   * nothing.
   */
  function FavoriteClick(details: Option<SongDetails>, answer: Option<bool>): (r: Option<SongDetails>)
    ensures details.None? || details.value.id.None? || answer.None? ==> r == details
    ensures details.Some? && details.value.id.Some? && answer.Some? ==>
      r == Some(details.value.(isFavorite := answer.value))
  {
    if details.None? || details.value.id.None? || answer.None? then details
    else Some(details.value.(isFavorite := answer.value))
  }

  /**
   * The details the viewer shows are built by the detail fetch, which sets no
   * id, so a favourite click on them never changes anything.
   */
  lemma FavoriteOnFetchedDetailsIsNoOp(d: SongDetails, answer: Option<bool>)
    requires d.id.None?
    ensures FavoriteClick(Some(d), answer) == Some(d)
  {
  }

  /** A click that does change the details only flips the favourite flag to the answer. */
  lemma FavoriteChangesOnlyFlag(details: Option<SongDetails>, answer: Option<bool>)
    requires FavoriteClick(details, answer) != details
    ensures details.Some? && answer.Some?
    ensures FavoriteClick(details, answer).value.(isFavorite := details.value.isFavorite) == details.value
  {
  }

  /** `handleEditClick`: edit mode turns on only when there are both details and a selection. */
  function EditClick(isEditing: bool, details: Option<SongDetails>, selected: Option<(int, int)>): (r: bool)
    ensures details.Some? && selected.Some? ==> r
    ensures details.None? || selected.None? ==> r == isEditing
  {
    if details.None? || selected.None? then isEditing else true
  }
}

=== FILE: suggested_chords.dfy ===
/**
 * The chord suggestions of `src/components/form/SuggestedChords.tsx`: the
 * names offered per root, the fingering catalogue, and the add/disable rules.
 * The selected key signature is a property of the component that its body
 * never reads, so the suggestions take no key at all.
 */
module SuggestedChords {
  import opened Opt
  import opened Seqs
  import opened Types

  /** The twelve roots offered, in display order (`Object.keys(groupedChordsByRoot)`). */
  const Roots: seq<string> := ["C", "C#", "D", "D#", "E", "F", "F#", "G", "G#", "A", "A#", "B"]

  /** The eleven variants offered for every root, in display order. */
  const Suffixes: seq<string> := ["", "m", "7", "sus2", "sus4", "maj7", "m7", "dim", "dim7", "aug", "add9"]

  /**
   * `groupedChordsByRoot`: one row of names per root. The source writes the
   * 132 names out; each is its root followed by the variant of its column.
   */
  const GroupedChords: seq<seq<string>> := seq(12, i requires 0 <= i < 12 => seq(11, k requires 0 <= k < 11 => Roots[i] + Suffixes[k]))

  /** Spot checks against the written-out table: the first, a sharp, and the last name. */
  lemma GroupedChordsExamples()
    ensures GroupedChords[0][0] == "C"
    ensures GroupedChords[1][5] == "C#maj7"
    ensures GroupedChords[10][8] == "A#dim7"
    ensures GroupedChords[11][10] == "Badd9"
  {
  }

  /** `allOtherChords`: the extra names under "Autres accords". */
  const OtherChords: seq<string> := [
    "C#", "D#", "F#", "G#", "A#",
    "Cm", "C#m", "Dm", "D#m", "Fm", "F#m", "Gm", "G#m", "Am", "A#m", "Bm"
  ]

  // ---------------------------------------------------------------------------
  // The fingering catalogue `chordPositions`. The source lists it in seven
  // blocks of thirteen (lines 26-38, 40-52, 54-66, 68-80, 82-94, 96-108,
  // 110-122), each block one variant over the same thirteen roots in the same
  // order; the name of entry (block b, root r) is root r followed by variant b.

  /** The thirteen roots of the catalogue, in the order of every block. */
  const CatalogueRoots: seq<string> := ["A", "B", "C", "D", "E", "F", "G", "Ab", "Bb", "C#", "D#", "F#", "G#"]

  /** The variant of each block, in block order. */
  const CatalogueVariants: seq<string> := ["", "m", "maj7", "m7", "7", "sus2", "sus4"]

  /** The fingerings, block by block, root by root. */
  const CatalogueFingerings: seq<seq<string>> := [
    ["x02220", "x24442", "x32010", "xx0232", "022100", "133211", "320003", "466544", "x13331", "x46664", "x68886", "244322", "466544"],
    ["x02210", "x24432", "x35543", "xx0231", "022000", "133111", "355333", "466444", "x13321", "x46654", "x68876", "244222", "466444"],
    ["x02120", "x24342", "x32000", "xx0222", "021100", "1x3210", "320002", "4x554x", "x13231", "x46564", "x68786", "2x4322", "4x554x"],
    ["x02010", "x20202", "x35343", "xx0211", "020000", "131141", "353333", "464444", "x13121", "x46454", "x68676", "242222", "464444"],
    ["x02020", "x21202", "x32310", "xx0212", "020100", "131211", "320001", "464544", "x13131", "x46464", "x68686", "242322", "464544"],
    ["x02200", "x24422", "x30010", "xx0230", "024400", "133011", "300033", "466644", "x13311", "x46644", "x68866", "244422", "466644"],
    ["x02230", "x24452", "x33010", "xx0233", "022200", "133311", "330013", "466644", "x13341", "x46674", "x68896", "244422", "466644"]
  ]

  /** The number of catalogue entries. */
  const CatalogueSize: nat := 91

  /** The name of catalogue entry `e` (block `e / 13`, root `e % 13`). */
  function CatalogueName(e: nat): string
    requires e < CatalogueSize
  {
    CatalogueRoots[e % 13] + CatalogueVariants[e / 13]
  }

  /** The fingering of catalogue entry `e`. */
  function CatalogueFingering(e: nat): string
    requires e < CatalogueSize
  {
    CatalogueFingerings[e / 13][e % 13]
  }

  /** A fingering as the catalogue writes them: six strings, each muted ('x', lower case) or a fret digit. */
  predicate ValidFingering(f: string) {
    |f| == 6 && forall i :: 0 <= i < 6 ==> f[i] == 'x' || '0' <= f[i] <= '9'
  }

  /** Every catalogue fingering is six characters from {'x', '0'..'9'}. */
  lemma CatalogueFingeringsValid()
    ensures forall e :: 0 <= e < CatalogueSize ==> ValidFingering(CatalogueFingering(e))
  {
    forall e | 0 <= e < CatalogueSize ensures ValidFingering(CatalogueFingering(e)) {
      if e % 13 < 7 {
        BlockValidLow(e / 13);
      } else {
        BlockValidHigh(e / 13);
      }
    }
  }

  /** The first seven roots of one block, checked on their own. */
  lemma BlockValidLow(b: nat)
    requires b < 7
    ensures |CatalogueFingerings[b]| == 13
    ensures forall r :: 0 <= r < 7 ==> ValidFingering(CatalogueFingerings[b][r])
  {
  }

  /** The last six roots of one block, checked on their own. */
  lemma BlockValidHigh(b: nat)
    requires b < 7
    ensures |CatalogueFingerings[b]| == 13
    ensures forall r :: 7 <= r < 13 ==> ValidFingering(CatalogueFingerings[b][r])
  {
  }

  /** The catalogue's names, in entry order. */
  function CatalogueNames(): (names: seq<string>)
    ensures |names| == CatalogueSize
    ensures forall e :: 0 <= e < CatalogueSize ==> names[e] == CatalogueName(e)
  {
    seq(CatalogueSize, e requires 0 <= e < CatalogueSize => CatalogueName(e))
  }

  /** The first catalogue entry named `name`, if any: the entry an object-literal lookup finds. */
  function FindEntry(name: string): (r: Option<nat>)
    ensures r.Some? ==> r.value < CatalogueSize && CatalogueName(r.value) == name
    ensures r.Some? ==> forall d :: 0 <= d < r.value ==> CatalogueName(d) != name
    ensures r.None? ==> forall d :: 0 <= d < CatalogueSize ==> CatalogueName(d) != name
  {
    var names := CatalogueNames();
    FindIndex(names, n => n == name)
  }

  /** The first entry carrying a name is the one the lookup finds. */
  lemma FirstEntryIsFound(name: string, e: nat)
    requires e < CatalogueSize && CatalogueName(e) == name
    requires forall d :: 0 <= d < e ==> CatalogueName(d) != name
    ensures FindEntry(name) == Some(e)
  {
  }

  /** `chordPositions[chord] || ''`: the catalogue fingering of a name, or the empty string when it has none. */
  function Fingering(name: string): (f: string)
    ensures (exists e :: 0 <= e < CatalogueSize && CatalogueName(e) == name) ==> ValidFingering(f)
    ensures (forall e :: 0 <= e < CatalogueSize ==> CatalogueName(e) != name) ==> f == ""
    ensures forall e :: 0 <= e < CatalogueSize && CatalogueName(e) == name
                        && (forall d :: 0 <= d < e ==> CatalogueName(d) != name)
                        ==> f == CatalogueFingering(e)
  {
    CatalogueFingeringsValid();
    forall e | 0 <= e < CatalogueSize && CatalogueName(e) == name
               && (forall d :: 0 <= d < e ==> CatalogueName(d) != name)
      ensures FindEntry(name) == Some(e)
    {
      FirstEntryIsFound(name, e);
    }
    match FindEntry(name)
    case Some(e) => CatalogueFingering(e)
    case None => ""
  }

  /** `handleAddChord`: the entry handed to the form for a clicked name. */
  function AddChord(name: string): (entry: ChordEntry)
    ensures entry.chord == name
    ensures entry.fingering == Fingering(name)
    ensures FindEntry(name).Some? ==> entry.fingering == CatalogueFingering(FindEntry(name).value)
    ensures FindEntry(name).None? ==> entry.fingering == ""
  {
    ChordEntry(name, Fingering(name))
  }

  /** `isChordInUse`: some entry of the form already carries exactly this name (case-sensitive). */
  function IsChordInUse(chordsInUse: seq<ChordEntry>, name: string): (b: bool)
    ensures b <==> exists k :: 0 <= k < |chordsInUse| && chordsInUse[k].chord == name
  {
    Any(chordsInUse, (entry: ChordEntry) => entry.chord == name)
  }

  /** A suggestion button: its name and whether it is disabled. */
  datatype Button = Button(name: string, disabled: bool)

  /** The buttons of one root's row, in order, each disabled iff its name is in use. */
  function RootButtons(chordsInUse: seq<ChordEntry>, i: nat): (bs: seq<Button>)
    requires i < 12
    ensures |bs| == 11
    ensures forall k :: 0 <= k < 11 ==> bs[k].name == Roots[i] + Suffixes[k]
    ensures forall k :: 0 <= k < 11 ==>
      (bs[k].disabled <==> exists j :: 0 <= j < |chordsInUse| && chordsInUse[j].chord == bs[k].name)
  {
    seq(11, k requires 0 <= k < 11 => Button(GroupedChords[i][k], IsChordInUse(chordsInUse, GroupedChords[i][k])))
  }

  // ---------------------------------------------------------------------------
  // Lookups of particular names.

  /** "Cmaj7" is entry 28 of the catalogue and is fingered x32000. */
  lemma FingeringCmaj7()
    ensures Fingering("Cmaj7") == "x32000"
  {
    Cmaj7IsEntry28();
    assert CatalogueFingering(28) == "x32000";
  }

  /** The lookup of "Cmaj7" finds entry 28. */
  lemma Cmaj7IsEntry28()
    ensures FindEntry("Cmaj7") == Some(28)
  {
    assert CatalogueName(28) == "Cmaj7";
    forall d | 0 <= d < 28 ensures CatalogueName(d) != "Cmaj7" {
      NameNotBefore(d);
    }
  }

  /** Catalogue names before entry 28 are not "Cmaj7". */
  lemma NameNotBefore(d: nat)
    requires d < 28
    ensures CatalogueName(d) != "Cmaj7"
  {
    var n := CatalogueName(d);
    if d < 13 {
      assert n == CatalogueRoots[d];
    } else if d < 26 {
      assert n == CatalogueRoots[d - 13] + "m";
      assert n[|n| - 1] == 'm';
    } else {
      assert n == CatalogueRoots[d - 26] + "maj7";
      assert n[0] != 'C';
    }
  }

  /** The last character of every catalogue root: a letter A-G, a flat 'b' or a sharp '#'. */
  predicate RootEnd(c: char) {
    'A' <= c <= 'G' || c == 'b' || c == '#'
  }

  /**
   * The shape of a catalogue name, by its variant: the root's last character
   * sits right before the variant, and the roots are one or two characters.
   */
  lemma CatalogueNameShape(e: nat)
    requires e < CatalogueSize
    ensures var n := CatalogueName(e); var v := CatalogueVariants[e / 13];
      && |n| == |CatalogueRoots[e % 13]| + |v|
      && 1 <= |CatalogueRoots[e % 13]| <= 2
      && n[..|n| - |v|] == CatalogueRoots[e % 13]
      && n[|n| - |v|..] == v
      && RootEnd(n[|n| - |v| - 1])
  {
    var r := CatalogueRoots[e % 13];
    assert 1 <= |r| <= 2 && RootEnd(r[|r| - 1]) by {
      assert forall j :: 0 <= j < 13 ==> 1 <= |CatalogueRoots[j]| <= 2 && RootEnd(CatalogueRoots[j][|CatalogueRoots[j]| - 1]);
    }
  }

  /**
   * How a dim, dim7, aug or add9 name ends: "dim" with 'i','m', "dim7" with
   * 'i','m','7', "aug" with 'g', "add9" with '9'.
   */
  ghost predicate ExtendedTail(name: string) {
    && |name| >= 3
    && name[|name| - 1] in "m7g9"
    && (name[|name| - 1] == 'm' ==> name[|name| - 2] == 'i')
    && (name[|name| - 1] == '7' ==> name[|name| - 2] == 'm' && name[|name| - 3] == 'i')
  }

  /** Columns 7 to 10 of the table end as described. */
  lemma ExtendedVariantTails(i: nat, k: nat)
    requires i < 12 && 7 <= k < 11
    ensures ExtendedTail(GroupedChords[i][k])
  {
    var name := GroupedChords[i][k];
    var x := Suffixes[k];
    assert name == Roots[i] + x;
    assert name[|name| - |x|..] == x;
  }

  /** No catalogue name ends like a dim, dim7, aug or add9 name. */
  lemma CatalogueNotExtended(e: nat, name: string)
    requires e < CatalogueSize && ExtendedTail(name)
    ensures CatalogueName(e) != name
  {
    CatalogueNameShape(e);
    var n := CatalogueName(e);
    var v := CatalogueVariants[e / 13];
    if v == "" {
      assert RootEnd(n[|n| - 1]);
    } else if v == "m" {
      assert n[|n| - 1] == 'm' && RootEnd(n[|n| - 2]);
    } else if v == "m7" {
      assert n[|n| - 1] == '7' && RootEnd(n[|n| - 3]);
    } else if v == "7" {
      assert n[|n| - 1] == '7' && RootEnd(n[|n| - 2]);
    } else if v == "maj7" {
      assert n[|n| - 1] == '7' && n[|n| - 2] == 'j';
    } else {
      assert n[|n| - 1] == v[|v| - 1] && v[|v| - 1] in "24";
    }
  }

  /** No dim, dim7, aug or add9 variant (columns 7 to 10) has a catalogue entry, so each gets the empty fingering. */
  lemma NoFingeringForExtendedVariants(i: nat, k: nat)
    requires i < 12 && 7 <= k < 11
    ensures Fingering(GroupedChords[i][k]) == ""
  {
    ExtendedVariantTails(i, k);
    forall e | 0 <= e < CatalogueSize ensures CatalogueName(e) != GroupedChords[i][k] {
      CatalogueNotExtended(e, GroupedChords[i][k]);
    }
  }

  /** "A#" is offered (as a root and among the other chords) but the catalogue only knows "Bb", so it gets the empty fingering. */
  lemma NoFingeringForASharp()
    ensures GroupedChords[10][0] == "A#" && "A#" in OtherChords
    ensures Fingering("A#") == ""
  {
    forall e | 0 <= e < CatalogueSize ensures CatalogueName(e) != "A#" {
      CatalogueNameShape(e);
      var n := CatalogueName(e);
      var v := CatalogueVariants[e / 13];
      if |v| == 0 {
        assert n == CatalogueRoots[e % 13];
        assert forall j :: 0 <= j < 13 ==> CatalogueRoots[j] != "A#";
      } else {
        assert n[|n| - 1] == v[|v| - 1] && v[|v| - 1] in "m724";
      }
    }
  }
}

=== FILE: technical_details.dfy ===
/**
 * The two pieces of logic in `src/components/form/TechnicalDetails.tsx`: the
 * keystroke editor of the strumming-rhythm field, and the artist suggestions.
 */
module TechnicalDetails {
  import opened Opt
  import opened Seqs
  import opened JsString
  import FormInput

  // ---------------------------------------------------------------------------
  // Rhythm editor
  // ---------------------------------------------------------------------------

  /** The text a key appends to the rhythm: an arrow, a dot or a bar, each followed by a space. */
  function KeyToken(key: string): (t: Option<string>)
    ensures t.Some? ==> |t.value| == 2 && t.value[1] == ' '
    ensures t.Some? <==> key in {"U", "u", "D", "d", ".", "|"}
  {
    if key == "U" || key == "u" then Some("↑ ")
    else if key == "D" || key == "d" then Some("↓ ")
    else if key == "." then Some(". ")
    else if key == "|" then Some("| ")
    else None
  }

  /**
   * The rhythm after a key press: Backspace drops the last two characters
   * when there are at least two, a mapped key appends its token, any other
   * key changes nothing.
   */
  function RhythmKey(rhythm: string, key: string): (r: string)
    ensures key == "Backspace" && |rhythm| >= 2 ==> r == rhythm[..|rhythm| - 2]
    ensures key == "Backspace" && |rhythm| < 2 ==> r == rhythm
    ensures key != "Backspace" && KeyToken(key).None? ==> r == rhythm
    ensures KeyToken(key).Some? ==> r == rhythm + KeyToken(key).value
  {
    if key == "Backspace" then
      if |rhythm| >= 2 then rhythm[..|rhythm| - 2] else rhythm
    else
      match KeyToken(key)
      case Some(t) => rhythm + t
      case None => rhythm
  }

  /** Typing a mapped key and then Backspace gives the rhythm back. */
  lemma BackspaceUndoesToken(rhythm: string, key: string)
    requires KeyToken(key).Some?
    ensures RhythmKey(RhythmKey(rhythm, key), "Backspace") == rhythm
  {
    var r := rhythm + KeyToken(key).value;
    assert r[..|r| - 2] == rhythm;
  }

  /** Every key press changes the length by 0 or 2, so the parity of the length never changes. */
  lemma RhythmKeyParity(rhythm: string, key: string)
    ensures var d := |RhythmKey(rhythm, key)| - |rhythm|; d == 0 || d == 2 || d == -2
    ensures |RhythmKey(rhythm, key)| % 2 == |rhythm| % 2
  {
  }

  /** The characters a token starts with. */
  predicate IsStroke(c: char) {
    c == '↑' || c == '↓' || c == '.' || c == '|'
  }

  /** A rhythm made only of tokens: strokes at even positions, spaces at odd ones, even length. */
  ghost predicate Tokens(r: string) {
    && |r| % 2 == 0
    && forall k :: 0 <= k < |r| ==> (if k % 2 == 0 then IsStroke(r[k]) else r[k] == ' ')
  }

  /** Key presses keep a rhythm made of whole tokens. */
  lemma RhythmKeyKeepsTokens(rhythm: string, key: string)
    requires Tokens(rhythm)
    ensures Tokens(RhythmKey(rhythm, key))
  {
    var r := RhythmKey(rhythm, key);
    if KeyToken(key).Some? {
      forall k | 0 <= k < |r| ensures if k % 2 == 0 then IsStroke(r[k]) else r[k] == ' ' {
        if k >= |rhythm| {
          assert r[k] == KeyToken(key).value[k - |rhythm|];
        }
      }
    }
  }

  /** The rhythm after a run of key presses. */
  function TypeKeys(rhythm: string, keys: seq<string>): string
    decreases |keys|
  {
    if |keys| == 0 then rhythm else TypeKeys(RhythmKey(rhythm, keys[0]), keys[1..])
  }

  /** Whatever is typed into a rhythm of whole tokens (the empty rhythm included), the field keeps only whole tokens. */
  lemma {:induction false} TypedRhythmIsTokens(rhythm: string, keys: seq<string>)
    requires Tokens(rhythm)
    ensures Tokens(TypeKeys(rhythm, keys))
    decreases |keys|
  {
    if |keys| > 0 {
      RhythmKeyKeepsTokens(rhythm, keys[0]);
      TypedRhythmIsTokens(RhythmKey(rhythm, keys[0]), keys[1..]);
    }
  }

  // ---------------------------------------------------------------------------
  // Artist suggestions
  // ---------------------------------------------------------------------------

  /** The name starts with the typed text, ignoring case. */
  predicate MatchesTyped(name: string, typed: string) {
    StartsWith(ToLower(name), ToLower(typed))
  }

  /** Where the typed text occurs in the lower-cased name, the sort key of the suggestions. */
  function MatchPosition(name: string, typed: string): int {
    IndexOf(ToLower(name), ToLower(typed))
  }

  /**
   * The artist suggestions: nothing for empty typed text, otherwise the
   * known names starting with it (ignoring case), sorted by match position.
   */
  function ArtistSuggestions(names: seq<string>, typed: string): (r: seq<string>)
    ensures typed == "" ==> r == []
    ensures forall k :: 0 <= k < |r| ==> r[k] in names && MatchesTyped(r[k], typed)
  {
    if typed == "" then []
    else
      var matching := Filter(names, n => MatchesTyped(n, typed));
      var r := SortBy(matching, n => MatchPosition(n, typed));
      SortByPerm(matching, n => MatchPosition(n, typed));
      assert forall k :: 0 <= k < |r| ==> r[k] in multiset(matching);
      r
  }

  /**
   * Every match is at position 0, so the sort compares equal keys and the
   * suggestions are the matching names in their given order; and no match is
   * missing.
   */
  lemma ArtistSuggestionsInOrder(names: seq<string>, typed: string)
    requires typed != ""
    ensures ArtistSuggestions(names, typed) == Filter(names, n => MatchesTyped(n, typed))
    ensures forall k :: 0 <= k < |names| && MatchesTyped(names[k], typed) ==> names[k] in ArtistSuggestions(names, typed)
  {
    var matching := Filter(names, n => MatchesTyped(n, typed));
    forall k | 0 <= k < |matching| ensures MatchPosition(matching[k], typed) == 0 {
      IndexOfPrefix(ToLower(matching[k]), ToLower(typed));
    }
    SortByEqualKeys(matching, n => MatchPosition(n, typed));
    FilterComplete(names, n => MatchesTyped(n, typed));
  }

  /**
   * The artist input enables suggestions iff something is typed, so its list
   * shows iff it has focus and some known name starts with the typed text.
   */
  lemma ArtistDropdownShown(names: seq<string>, typed: string, focused: bool)
    ensures FormInput.ShowDropdown(focused, |typed| > 0, ArtistSuggestions(names, typed)) <==>
      focused && typed != "" && exists k :: 0 <= k < |names| && MatchesTyped(names[k], typed)
  {
    if typed != "" {
      ArtistSuggestionsInOrder(names, typed);
      var r := ArtistSuggestions(names, typed);
      if |r| > 0 {
        assert r[0] in names;
      }
    }
  }
}

=== FILE: types.dfy ===
/**
 * The records of `src/types/database.types.ts`, keeping the fields the
 * application logic reads. Dates are abstract timestamps (milliseconds since
 * the epoch), since date-string parsing belongs to the browser.
 */
module Types {
  import opened Opt

  /** A row of the `artists` table. */
  datatype Artist = Artist(id: int, name: string)

  /** A row of the `partitions` table (a song sheet); `createdAt` is absent when the row carries no date. */
  datatype Partition = Partition(id: int, artistId: int, title: string, views: int, createdAt: Option<int>)

  /** One chord of a song sheet and its six-character fingering. */
  datatype ChordEntry = ChordEntry(chord: string, fingering: string)

  /** A chord entry with both fields empty, the row the chord form starts from. */
  const BlankEntry := ChordEntry("", "")

  /**
   * The detail view of one song. `id` is optional because the record the
   * detail fetch builds never sets it.
   */
  datatype SongDetails = SongDetails(
    id: Option<int>,
    title: string,
    artist: string,
    tuning: string,
    key: string,
    capo: string,
    tempo: string,
    timeSignature: string,
    rhythm: string,
    lyrics: string,
    chords: seq<ChordEntry>,
    views: int,
    isFavorite: bool,
    album: Option<string>,
    year: Option<int>,
    difficulty: Option<string>,
    youtubeLink: Option<string>)

  /** A row of the `partition_chords` table. */
  datatype ChordRow = ChordRow(partitionId: int, chord: string, fingering: string, position: nat)

  /**
   * The rows written for a song's chords, numbered 0..n-1 in list order, as
   * both the create and the update path build them.
   */
  function ChordRows(partitionId: int, chords: seq<ChordEntry>): (rows: seq<ChordRow>)
    ensures |rows| == |chords|
    ensures forall k :: 0 <= k < |rows| ==>
      rows[k].position == k && rows[k].partitionId == partitionId
      && rows[k].chord == chords[k].chord && rows[k].fingering == chords[k].fingering
  {
    seq(|chords|, k requires 0 <= k < |chords| => ChordRow(partitionId, chords[k].chord, chords[k].fingering, k))
  }
}

=== FILE: youtube.dfy ===
/**
 * `extractYouTubeId` of `src/components/viewer/YouTubeAudioPlayer.tsx`: the
 * video id the audio player takes from a link, by way of the pattern
 * `^.*(youtu.be\/|v\/|u\/\w\/|embed\/|watch\?v=|&v=)([^#&?]*).*` and an
 * eleven-character check. The pattern is modelled by what its backtracking
 * search finds: the greedy `^.*` stops at the last marker of the first line,
 * and the group after it takes every character up to the next `#`, `&` or
 * `?`.
 */
module YouTube {
  import opened Opt
  import opened Seqs
  import opened JsString

  /** The length of a video id. */
  const IdLength := 11

  /** `\w`: an ASCII letter, digit or underscore. */
  predicate IsWordChar(c: char) {
    ('a' <= c <= 'z') || ('A' <= c <= 'Z') || ('0' <= c <= '9') || c == '_'
  }

  /** The characters `[^#&?]` refuses: they end the id. */
  predicate IsDelimiter(c: char) {
    c == '#' || c == '&' || c == '?'
  }

  /** The first characters of the markers: `y`, `v`, `u`, `e`, `w` and `&`. */
  predicate StartsMarker(c: char) {
    c == 'y' || c == 'v' || c == 'u' || c == 'e' || c == 'w' || c == '&'
  }

  /**
   * The length of the marker starting at `p`, if one does: `youtu` and any
   * character but a line terminator and `be/`, `v/`, `u/` and a word
   * character and `/`, `embed/`, `watch?v=`, or `&v=`. The alternatives
   * start with different characters, so at most one fits.
   */
  function MarkerAt(s: string, p: nat): (m: Option<nat>)
    ensures m.Some? ==> p + m.value <= |s| && 2 <= m.value <= 9
    ensures m.Some? ==> StartsMarker(s[p])
  {
    if p + 9 <= |s| && s[p] == 'y' && s[p + 1] == 'o' && s[p + 2] == 'u' && s[p + 3] == 't' && s[p + 4] == 'u'
      && !IsLineTerminator(s[p + 5]) && s[p + 6] == 'b' && s[p + 7] == 'e' && s[p + 8] == '/' then Some(9)
    else if p + 2 <= |s| && s[p] == 'v' && s[p + 1] == '/' then Some(2)
    else if p + 4 <= |s| && s[p] == 'u' && s[p + 1] == '/' && IsWordChar(s[p + 2]) && s[p + 3] == '/' then Some(4)
    else if p + 6 <= |s| && s[p] == 'e' && s[p + 1] == 'm' && s[p + 2] == 'b' && s[p + 3] == 'e' && s[p + 4] == 'd'
      && s[p + 5] == '/' then Some(6)
    else if p + 8 <= |s| && s[p] == 'w' && s[p + 1] == 'a' && s[p + 2] == 't' && s[p + 3] == 'c' && s[p + 4] == 'h'
      && s[p + 5] == '?' && s[p + 6] == 'v' && s[p + 7] == '=' then Some(8)
    else if p + 3 <= |s| && s[p] == '&' && s[p + 1] == 'v' && s[p + 2] == '=' then Some(3)
    else None
  }

  /** A marker starts only at one of the characters `y`, `v`, `u`, `e`, `w` and `&`. */
  lemma NoMarkerAtOtherChars(s: string, p: nat)
    requires p < |s| && !StartsMarker(s[p])
    ensures MarkerAt(s, p).None?
  {
  }

  /** The index of the first line terminator at or after `i`, or the length. */
  function LineEnd(s: string, i: nat): (n: nat)
    requires i <= |s|
    ensures i <= n <= |s|
    ensures forall k :: i <= k < n ==> !IsLineTerminator(s[k])
    ensures n < |s| ==> IsLineTerminator(s[n])
    decreases |s| - i
  {
    if i == |s| || IsLineTerminator(s[i]) then i else LineEnd(s, i + 1)
  }

  /** How far `.` can reach from the start: the end of the first line. */
  function FirstLineEnd(s: string): (n: nat)
    ensures n <= |s|
    ensures forall k :: 0 <= k < n ==> !IsLineTerminator(s[k])
    ensures n < |s| ==> IsLineTerminator(s[n])
  {
    LineEnd(s, 0)
  }

  /** The last position at or before `p` where a marker starts. */
  function LastMarker(s: string, p: nat): (q: Option<nat>)
    ensures q.Some? ==> q.value <= p && MarkerAt(s, q.value).Some?
    ensures q.Some? ==> forall k :: q.value < k <= p ==> MarkerAt(s, k).None?
    ensures q.None? ==> forall k :: 0 <= k <= p ==> MarkerAt(s, k).None?
  {
    if MarkerAt(s, p).Some? then Some(p)
    else if p == 0 then None
    else LastMarker(s, p - 1)
  }

  /** The end of the longest run without `#`, `&` or `?` starting at `i`. */
  function RunEnd(s: string, i: nat): (j: nat)
    requires i <= |s|
    ensures i <= j <= |s|
    ensures forall k :: i <= k < j ==> !IsDelimiter(s[k])
    ensures j == |s| || IsDelimiter(s[j])
    decreases |s| - i
  {
    if i == |s| || IsDelimiter(s[i]) then i else RunEnd(s, i + 1)
  }

  /** The pattern's second group when `s` matches it: the run after the last marker of the first line. */
  function Candidate(s: string): (c: Option<string>)
    ensures c.Some? ==> forall k :: 0 <= k < |c.value| ==> !IsDelimiter(c.value[k])
  {
    match LastMarker(s, FirstLineEnd(s))
    case None => None
    case Some(p) =>
      var start := p + MarkerAt(s, p).value;
      Some(s[start..RunEnd(s, start)])
  }

  /** `extractYouTubeId(url)`: the candidate when it has exactly eleven characters; nothing for a missing or empty link. */
  function ExtractId(url: Option<string>): (r: Option<string>)
    ensures url.None? || url == Some("") ==> r.None?
    ensures r.Some? ==> |r.value| == IdLength
    ensures r.Some? ==> forall k :: 0 <= k < |r.value| ==> !IsDelimiter(r.value[k])
    ensures r.Some? ==> r == Candidate(url.value)
    ensures (url.Some? && url.value != "" && Candidate(url.value).Some?
             && |Candidate(url.value).value| == IdLength) ==> r == Candidate(url.value)
  {
    if url.None? || url.value == "" then None
    else
      match Candidate(url.value)
      case Some(id) => if |id| == IdLength then Some(id) else None
      case None => None
  }

  /**
   * One way the pattern can match `s`: `^.*` takes `s[..p]`, which holds no
   * line terminator; a marker of length `m` starts at `p`; the group is
   * `s[p + m..j]`, free of `#`, `&` and `?`; the closing `.*` takes whatever
   * is left of the line.
   */
  ghost predicate PatternMatch(s: string, p: nat, m: nat, j: nat) {
    && p <= |s| && NoLineTerminator(s[..p])
    && MarkerAt(s, p) == Some(m)
    && p + m <= j <= |s|
    && forall k :: p + m <= k < j ==> !IsDelimiter(s[k])
  }

  /** `s[..p]` has no line terminator exactly when `p` is at most the first line's end. */
  lemma FirstLineReach(s: string, p: nat)
    requires p <= |s|
    ensures NoLineTerminator(s[..p]) <==> p <= FirstLineEnd(s)
  {
    var n := FirstLineEnd(s);
    if p <= n {
      assert forall k :: 0 <= k < p ==> s[..p][k] == s[k];
    } else {
      assert s[..p][n] == s[n];
    }
  }

  /**
   * The candidate is what the backtracking search returns: among all the
   * ways the pattern can match, the one with the rightmost marker and, for
   * that marker, the longest group; and there is no candidate exactly when
   * the pattern cannot match at all.
   */
  lemma CandidateIsGreedyMatch(s: string) returns (p: nat, m: nat, j: nat)
    ensures Candidate(s).None? <==> forall p': nat, m': nat, j': nat :: !PatternMatch(s, p', m', j')
    ensures Candidate(s).Some? ==> PatternMatch(s, p, m, j) && Candidate(s).value == s[p + m..j]
    ensures Candidate(s).Some? ==> forall p': nat, m': nat, j': nat :: PatternMatch(s, p', m', j') ==> p' < p || (p' == p && j' <= j)
  {
    if Candidate(s).None? {
      NoMatchWithoutCandidate(s);
      p, m, j := 0, 0, 0;
    } else {
      p, m, j := MatchOfCandidate(s);
    }
  }

  /** Without a marker on the first line the pattern cannot match. */
  lemma NoMatchWithoutCandidate(s: string)
    requires Candidate(s).None?
    ensures forall p': nat, m': nat, j': nat :: !PatternMatch(s, p', m', j')
  {
    forall p': nat, m': nat, j': nat ensures !PatternMatch(s, p', m', j') {
      if p' <= |s| && NoLineTerminator(s[..p']) {
        FirstLineReach(s, p');
      }
    }
  }

  /** The candidate is a match, and no match has a later marker or, with the same marker, a longer group. */
  lemma MatchOfCandidate(s: string) returns (p: nat, m: nat, j: nat)
    requires Candidate(s).Some?
    ensures PatternMatch(s, p, m, j) && Candidate(s).value == s[p + m..j]
    ensures forall p': nat, m': nat, j': nat :: PatternMatch(s, p', m', j') ==> p' < p || (p' == p && j' <= j)
  {
    p := LastMarker(s, FirstLineEnd(s)).value;
    m := MarkerAt(s, p).value;
    j := RunEnd(s, p + m);
    FirstLineReach(s, p);
    forall p': nat, m': nat, j': nat | PatternMatch(s, p', m', j') ensures p' < p || (p' == p && j' <= j) {
      FirstLineReach(s, p');
    }
  }

  /** The last marker is at `q` when one starts there and none starts after it up to `p`. */
  lemma {:induction false} LastMarkerIs(s: string, q: nat, p: nat)
    requires q <= p && MarkerAt(s, q).Some?
    requires forall k :: q < k <= p ==> MarkerAt(s, k).None?
    ensures LastMarker(s, p) == Some(q)
    decreases p
  {
    if p > q {
      LastMarkerIs(s, q, p - 1);
    }
  }

  /** The candidate of a one-line link whose last marker starts at `q`. */
  lemma CandidateOfLast(s: string, q: nat, m: nat)
    requires forall k :: 0 <= k < |s| ==> !IsLineTerminator(s[k])
    requires MarkerAt(s, q) == Some(m)
    requires forall k :: q < k <= |s| ==> MarkerAt(s, k).None?
    ensures q + m <= |s| && Candidate(s) == Some(s[q + m..RunEnd(s, q + m)])
  {
    assert FirstLineEnd(s) == |s|;
    LastMarkerIs(s, q, |s|);
  }

  /** Whether a marker starts at a position depends only on the text from there on. */
  lemma MarkerShift(a: string, b: string, k: nat)
    ensures MarkerAt(a + b, |a| + k) == MarkerAt(b, k)
  {
  }

  /** Every marker holds a character `\w` does not match. */
  lemma MarkerNeedsNonWord(s: string, k: nat) returns (i: nat)
    requires MarkerAt(s, k).Some?
    ensures k <= i < k + MarkerAt(s, k).value && !IsWordChar(s[i])
  {
    var m := MarkerAt(s, k).value;
    i := if m == 9 then k + 8 else if m == 8 || m == 6 then k + 5 else if m == 3 then k else k + 1;
  }

  /** No marker starts in a stretch of word characters that runs to the end of the link. */
  lemma NoMarkerInWords(s: string, from: nat)
    requires forall i :: from <= i < |s| ==> IsWordChar(s[i])
    ensures forall k :: from <= k <= |s| ==> MarkerAt(s, k).None?
  {
    forall k | from <= k <= |s| && MarkerAt(s, k).Some? ensures false {
      var i := MarkerNeedsNonWord(s, k);
    }
  }

  /** The marker texts of the pattern, with `.` taken as `.` and `\w` as `a`. */
  const MarkerTexts: seq<string> := ["youtu.be/", "v/", "u/a/", "embed/", "watch?v=", "&v="]

  /** A marker text followed by word characters is one marker and nothing else. */
  lemma MarkerTextAlone(mk: string, id: string)
    requires mk in MarkerTexts
    requires forall i :: 0 <= i < |id| ==> IsWordChar(id[i])
    ensures MarkerAt(mk + id, 0) == Some(|mk|)
    ensures forall k :: 0 < k <= |mk + id| ==> MarkerAt(mk + id, k).None?
    ensures NoLineTerminator(mk + id)
  {
    var t := mk + id;
    assert forall i :: |mk| <= i < |t| ==> t[i] == id[i - |mk|];
    NoMarkerInWords(t, |mk|);
    MarkerTextInside(mk, id);
  }

  /** Within a marker text, only its first character starts a marker, and no character ends a line. */
  lemma MarkerTextInside(mk: string, id: string)
    requires mk in MarkerTexts
    ensures MarkerAt(mk + id, 0) == Some(|mk|)
    ensures forall k :: 0 < k < |mk| ==> MarkerAt(mk + id, k).None?
    ensures forall k :: 0 <= k < |mk| ==> !IsLineTerminator((mk + id)[k])
  {
    assert forall k :: 0 <= k < |mk| ==> (mk + id)[k] == mk[k];
  }

  /** A prefix, a marker text and word characters make a one-line link when the prefix is one line. */
  lemma LinkOneLine(pre: string, mk: string, id: string)
    requires NoLineTerminator(pre) && NoLineTerminator(mk + id)
    ensures forall k :: 0 <= k < |pre + mk + id| ==> !IsLineTerminator((pre + mk + id)[k])
  {
    var s := pre + mk + id;
    ConcatAssoc(pre, mk, id);
    assert forall k :: |pre| <= k < |s| ==> s[k] == (mk + id)[k - |pre|];
  }

  /** In such a link the marker text is the last marker. */
  lemma LinkMarker(pre: string, mk: string, id: string)
    requires MarkerAt(mk + id, 0) == Some(|mk|)
    requires forall k :: 0 < k <= |mk + id| ==> MarkerAt(mk + id, k).None?
    ensures MarkerAt(pre + mk + id, |pre|) == Some(|mk|)
    ensures forall k :: |pre| < k <= |pre + mk + id| ==> MarkerAt(pre + mk + id, k).None?
  {
    ConcatAssoc(pre, mk, id);
    MarkerShift(pre, mk + id, 0);
    forall k | |pre| < k <= |pre + mk + id| ensures MarkerAt(pre + mk + id, k).None? {
      MarkerShift(pre, mk + id, k - |pre|);
    }
  }

  /** In such a link the run after the marker is the word characters, to the end. */
  lemma LinkRun(pre: string, mk: string, id: string)
    requires forall i :: 0 <= i < |id| ==> IsWordChar(id[i])
    ensures var s := pre + mk + id; RunEnd(s, |pre| + |mk|) == |s| && s[|pre| + |mk|..|s|] == id
  {
    var s := pre + mk + id;
    assert forall k :: |pre| + |mk| <= k < |s| ==> s[k] == id[k - |pre| - |mk|];
    RunOfWords(s, |pre| + |mk|);
    assert s[|pre| + |mk|..|s|] == id;
  }

  /** A one-line link ending with a marker text and word characters: the candidate is those characters, whatever the prefix holds. */
  lemma CandidateOfLink(pre: string, mk: string, id: string)
    requires NoLineTerminator(pre) && mk in MarkerTexts
    requires forall i :: 0 <= i < |id| ==> IsWordChar(id[i])
    ensures Candidate(pre + mk + id) == Some(id)
  {
    MarkerTextAlone(mk, id);
    LinkOneLine(pre, mk, id);
    LinkMarker(pre, mk, id);
    LinkRun(pre, mk, id);
    CandidateOfLast(pre + mk + id, |pre|, |mk|);
  }

  /**
   * A link that ends with a marker and eleven word characters, on one line,
   * gives those eleven characters, whatever precedes the marker.
   */
  lemma LinkEndingInId(pre: string, mk: string, id: string)
    requires NoLineTerminator(pre) && mk in MarkerTexts
    requires |id| == IdLength && forall i :: 0 <= i < |id| ==> IsWordChar(id[i])
    ensures ExtractId(Some(pre + mk + id)) == Some(id)
  {
    CandidateOfLink(pre, mk, id);
  }

  /** Word characters never stop the run. */
  lemma {:induction false} RunOfWords(s: string, i: nat)
    requires i <= |s| && forall k :: i <= k < |s| ==> IsWordChar(s[k])
    ensures RunEnd(s, i) == |s|
    decreases |s| - i
  {
    if i < |s| {
      RunOfWords(s, i + 1);
    }
  }

  /** The host part of a full link has no line terminator. */
  lemma FullHostOneLine()
    ensures NoLineTerminator("https://www.youtube.com/")
  {
  }

  /** The eleven-character id of a `watch?v=` link. */
  lemma WatchLink(id: string)
    requires |id| == IdLength && forall i :: 0 <= i < |id| ==> IsWordChar(id[i])
    ensures ExtractId(Some("https://www.youtube.com/" + "watch?v=" + id)) == Some(id)
  {
    FullHostOneLine();
    LinkEndingInId("https://www.youtube.com/", "watch?v=", id);
  }

  /** The eleven-character id of a short `youtu.be/` link. */
  lemma ShortLink(id: string)
    requires |id| == IdLength && forall i :: 0 <= i < |id| ==> IsWordChar(id[i])
    ensures ExtractId(Some("https://" + "youtu.be/" + id)) == Some(id)
  {
    assert NoLineTerminator("https://");
    LinkEndingInId("https://", "youtu.be/", id);
  }

  /** `dQw4w9WgXcQ` is made of word characters, so both links give it. */
  lemma RickrollLinks(id: string)
    requires id == "dQw4w9WgXcQ"
    ensures ExtractId(Some("https://www.youtube.com/" + "watch?v=" + id)) == Some(id)
    ensures ExtractId(Some("https://" + "youtu.be/" + id)) == Some(id)
  {
    WatchLink(id);
    ShortLink(id);
  }

  /**
   * A later marker wins even when what follows it is too short: a link with
   * a valid id followed by `&v=` and fewer than eleven word characters gives
   * nothing.
   */
  lemma LaterMarkerWins(pre: string, x: string)
    requires NoLineTerminator(pre)
    requires |x| < IdLength && forall i :: 0 <= i < |x| ==> IsWordChar(x[i])
    ensures Candidate(pre + "&v=" + x) == Some(x)
    ensures ExtractId(Some(pre + "&v=" + x)).None?
  {
    CandidateOfLink(pre, "&v=", x);
  }
}
